=== FILE: README.md ===
# Advent of Code 2022, days 1–6 and 8, in Dafny

This project models the puzzle solvers of the `aoc-2022` Rust crate for days 1, 2, 3, 4, 5, 6
and 8. Each `src/dayN/mod.rs` becomes one Dafny module, `DayN`, in `dayN.dfy`. Each module
follows the file's own pipeline: it prepares the input text, transforms it and reduces it to the
answer. Three shared modules model the parts of the Rust standard library the solvers lean on:

- `Text` (`text.dfy`) covers `split`, `split` on a string, `trim`, `split_whitespace`,
  `replace` and the integer `parse`s.
- `Sequences` (`sequences.dfy`) covers `filter(..).count()`, `rev` and the stable sorts into
  descending key order.
- `Wrappers` (`wrappers.dfy`) holds `Option`.

The solvers, day by day:

- **Day 1** (calorie counting) splits the input into blocks of numbers. Part 1 returns the
  index and sum of the largest block; part 2 returns the total of the three largest sums.
- **Day 2** (rock, paper, scissors) scores a strategy guide. Part 1 reads the second column as
  a shape; part 2 reads it as the outcome the round must have.
- **Day 3** (rucksacks) finds the item common to the two halves of a line (part 1) or to three
  consecutive lines (part 2), and sums the priorities of those items.
- **Day 4** (camp cleanup) counts pairs of ranges in which one range contains the other
  (part 1) or the two overlap (part 2).
- **Day 5** (supply stacks) parses a drawing of crate stacks and a list of moves, and returns
  the top crate of every stack. Part 1 moves crates one at a time; part 2 moves a whole block.
- **Day 6** (tuning trouble) finds the end of the first window of 4 (part 1) or 14 (part 2)
  distinct characters.
- **Day 8** (treetop tree house) counts the trees visible from outside a grid (part 1) and finds
  the highest scenic score (part 2).

Every input on which the Rust code panics is handled one of two ways. Inside the parsers it
becomes a `None`. Where the panic happens in a part function (an index out of range, an
`unwrap` of a missing common item, a top taken from an empty stack), it becomes a
precondition. Integers are unbounded. The unit tests' example inputs are restated as lemmas
that compute the same answers the tests assert.

The model follows the code also where the code is laxer than a clean design of it would be:

- Day 8's `parse_input` rejects neither an empty input nor rows of unequal length.
  `Day8.ParseInput` accepts both, as the code does.
- Part 1 then works on any grid in which no interior tree sits in a column that a shorter row
  lacks (`Day8.Part1Safe`).
- Part 2 works exactly on rectangular grids (`Day8.Part2SafeIffRectangular`).

## Model

| member | source | states |
|---|---|---|
| Day1.SplitString | src/day1/mod.rs:25-35 | there is one block for each `"\n\n"`-separated piece of the input |
| Day1.SplitStringOfLines | src/day1/mod.rs:25-35 | for lines grouped into blocks, split_string yields one block per group; each entry is the line parsed as an `i32`, or 0 when the line is not a number |
| Day1.SplitStringOfRender | src/day1/mod.rs:25-35 | reading back the text of any non-empty list of non-empty blocks gives the blocks: split_string inverts the input format |
| Day1.CaloriesOfRendering | src/day1/mod.rs:31 | parsing the decimal text of every `i32` value gives that value back; the text of a number outside the `i32` range reads as the fallback 0 |
| Day1.MaxByLast | src/day1/mod.rs:4-10 | the pair is a position and its value; no value is larger, and no later value is equal (`max_by` keeps the last of equal maxima) |
| Day1.Part1 | src/day1/mod.rs:3-11 | returns the index of an elf carrying the most calories and that total; no other elf carries more, and no later elf carries as much |
| Day1.SortedSums | src/day1/mod.rs:14-19 | the block sums, rearranged into non-increasing order |
| Day1.SortedSumsStartWithPart1 | src/day1/mod.rs:3-19 | the first of the sorted sums is the maximum that part 1 reports |
| Day1.BlockSumsPermutation | src/day1/mod.rs:14-17 | reordering the blocks reorders their sums and changes nothing else |
| Day1.Part2Permutation | src/day1/mod.rs:13-23 | the part 2 answer does not depend on the order of the elves |
| Day1.RankedBlocks | src/day1/mod.rs:14-19 | the elves' indices in non-increasing order of their totals, each index once; their totals in that order are the sorted sums |
| Day1.RankedTopThree | src/day1/mod.rs:14-20 | the first three ranked elves are three different elves in non-increasing order of total, and no other elf carries more than the third |
| Day1.Part2 | src/day1/mod.rs:13-23 | part 2 is the combined total of three different elves, and no other elf carries more than the least of those three |
| Day1.ExampleInputText | src/day1/mod.rs:41 | the example input the Day 1 lemmas read is, character for character, the test module's `INPUT` |
| Day1.ExampleSplits | src/day1/mod.rs:41 | the example input splits into the five blocks, and its empty line counts as 0 |
| Day1.ExamplePart1 | src/day1/mod.rs:41-46 | part 1 of the example is (3, 24000) |
| Day1.ExampleSorted | src/day1/mod.rs:19 | the example's sums, sorted, are 24000, 11000, 10000, 6000, 4000 |
| Day1.ExamplePart2 | src/day1/mod.rs:41-51 | part 2 of the example is 45000 |
| Day2.OutcomeFromStr | src/day2/mod.rs:14-21 | yields an outcome exactly for the letters X, Y and Z, which name lose, draw and win; every other string is the source's `unreachable!` |
| Day2.ShapeFromStr | src/day2/mod.rs:108-115 | yields a shape exactly for A/X, B/Y and C/Z (rock, paper, scissors); every other string is unreachable |
| Day2.RoundOutcomeIsCyclic | src/day2/mod.rs:51-67 | the nine-entry table is the cyclic rule: equal shapes draw, and each shape beats the one before it in rock, paper, scissors |
| Day2.RoundOutcomeAntisymmetric | src/day2/mod.rs:51-67 | a round is a win for one side exactly when it is a loss for the other, and a draw exactly when the shapes are equal; the two sides' outcome scores sum to 6 |
| Day2.PlayAgainst | src/day2/mod.rs:50-70 | a round scores between 1 and 9; the shape score subtracted from it is the outcome score |
| Day2.PlayAgainstDetermines | src/day2/mod.rs:50-70 | the score of a round determines the shape played and the outcome |
| Day2.ShapeForOutcome | src/day2/mod.rs:77-95 | the chosen shape ends the round against the opponent with the desired outcome |
| Day2.ShapeForOutcomeUnique | src/day2/mod.rs:77-95 | it is the only shape that does so; it equals the opponent's shape exactly for a draw, and the shapes chosen to win and to lose differ |
| Day2.DesiredOutcomeAgainst | src/day2/mod.rs:72-75 | the score is between 1 and 9; when the receiver is the opponent, it is the chosen shape's score plus the desired outcome's score |
| Day2.ParseRounds | src/day2/mod.rs:154-159 | succeeds exactly when every line of the trimmed input parses, giving one round per line in order |
| Day2.PrepareInputPart1 | src/day2/mod.rs:137-142 | succeeds exactly when every line of the trimmed input parses as a part 1 round (two shape letters), giving one round per line in order |
| Day2.PrepareInputPart2 | src/day2/mod.rs:144-152 | succeeds exactly when every line of the trimmed input parses as a part 2 round (a shape letter, then X, Y or Z), giving one round per line in order |
| Day2.ParseRoundPart1OfRender | src/day2/mod.rs:137-142 | a guide line written for a round parses back to that round |
| Day2.PrepareInputPart1OfRender | src/day2/mod.rs:137-142 | preparing the text of any non-empty list of rounds gives the rounds back |
| Day2.Part1Score | src/day2/mod.rs:118-122 | the total over n rounds lies between n and 9n |
| Day2.ChosenRounds | src/day2/mod.rs:124-135 | keeps each opponent shape and pairs it with a shape that reaches that round's desired outcome |
| Day2.Part2IsPart1OfChosen | src/day2/mod.rs:124-135 | the part 2 total is the part 1 total of the rounds in which the chosen shapes are played |
| Day2.Part1 | src/day2/mod.rs:118-122 | the answer for n rounds lies between n and 9n |
| Day2.Part2 | src/day2/mod.rs:124-135 | the answer for n rounds lies between n and 9n |
| Day2.ExamplePart1 | src/day2/mod.rs:167-194 | the example prepares to (rock, paper), (paper, rock), (scissors, scissors) and scores 15 |
| Day2.ExamplePart2 | src/day2/mod.rs:167-209 | the example prepares to (rock, paper, draw), (paper, rock, lose), (scissors, scissors, win) and scores 12 |
| Day3.Priority | src/day3/mod.rs:29-38 | a letter's priority lies in 1..52, and is at most 26 exactly for lower-case letters |
| Day3.PriorityInverse | src/day3/mod.rs:1-38 | priority is a bijection between the 52 letters and 1..52 |
| Day3.PrepareInputPart1 | src/day3/mod.rs:40-49 | one pair per line of the trimmed input; the two halves concatenate to the line, and the first has half its length |
| Day3.PrepareInputPart2 | src/day3/mod.rs:51-59 | group k holds lines 3k, 3k+1 and 3k+2 of the trimmed input |
| Day3.PrepareInputPart2Flattens | src/day3/mod.rs:51-59 | concatenating the groups gives the lines back, in order |
| Day3.CompartmentHasChar | src/day3/mod.rs:61-69 | yields the character exactly when every compartment contains it |
| Day3.CommonItem | src/day3/mod.rs:71-93 | a found item lies in every compartment, and nothing is found only when no scanned character lies in all of them; which character is found is `Day3.CommonItemIff` |
| Day3.FirstInAll | src/day3/mod.rs:71-93 | the result is a candidate that every compartment contains, and no earlier candidate is in all of them (`find_map` stops at the first match); none is found exactly when no candidate is in all of them |
| Day3.CommonItemIff | src/day3/mod.rs:71-93 | a common item is found exactly when some character lies in every compartment; it is the first character of the scan order that lies in all of them |
| Day3.CommonItemUnique | src/day3/mod.rs:71-93 | when exactly one character is shared by all compartments, that character is the result |
| Day3.SumPriorities | src/day3/mod.rs:95-99 | the sum over n groups lies between n and 52n |
| Day3.SumPrioritiesAppend | src/day3/mod.rs:95-99 | the sum over two lists of groups, joined, is the sum of their sums |
| Day3.Part1 | src/day3/mod.rs:101-103 | the answer for n rucksacks lies between n and 52n |
| Day3.Part2 | src/day3/mod.rs:105-107 | the answer for n groups lies between n and 52n |
| Day3.ExamplePrepareInputPart1 | src/day3/mod.rs:131-142 | the example splits into the six pairs of halves the test expects |
| Day3.ExamplePart1 | src/day3/mod.rs:115-122 | part 1 of the example is 157 |
| Day3.ExamplePrepareInputPart2 | src/day3/mod.rs:51-59 | the example's six lines form two groups of three |
| Day3.ExamplePart2 | src/day3/mod.rs:115-128 | part 2 of the example is 70 |
| Day4.ParseAssignment | src/day4/mod.rs:16-23 | succeeds exactly when there are at least two `-`-separated pieces and every piece is a number within the `i32` range; the range runs from the first piece to the second |
| Day4.ParseGroup | src/day4/mod.rs:13-25 | a line that parses has one assignment per `,`-separated piece, and every piece parses |
| Day4.PrepareInput | src/day4/mod.rs:9-27 | succeeds exactly when every line of the trimmed input parses as a group, giving one group per line in order |
| Day4.ParseGroupOfRender | src/day4/mod.rs:13-25 | the text of a pair of ranges with non-negative ids parses back to that pair |
| Day4.PrepareInputOfRender | src/day4/mod.rs:9-27 | preparing the text of any non-empty list of pairs of non-negative ranges gives the pairs back |
| Day4.SortAssignmentGroup | src/day4/mod.rs:29-36 | the result rearranges the group into non-increasing width |
| Day4.SortPair | src/day4/mod.rs:29-36 | two ranges swap places exactly when the second is strictly wider (the sort is stable) |
| Day4.IncludesAll | src/day4/mod.rs:49-55 | true exactly when every id of the second range lies in the first |
| Day4.OverlapsAny | src/day4/mod.rs:49-54 | true exactly when some id lies in both ranges |
| Day4.CheckForIntersection | src/day4/mod.rs:38-59 | the count of matching groups is at most the number of groups |
| Day4.CheckForIntersectionExtremes | src/day4/mod.rs:38-59 | the count is the number of groups exactly when every group matches, and 0 exactly when none does |
| Day4.IncludesIffOneContainsOther | src/day4/mod.rs:44-56 | for well-formed ranges, a pair counts in part 1 exactly when one range contains the other |
| Day4.OverlapIffShared | src/day4/mod.rs:44-56 | a pair counts in part 2 exactly when some id lies in both ranges |
| Day4.IncludesImpliesOverlap | src/day4/mod.rs:44-56 | for well-formed ranges, a pair that counts in part 1 counts in part 2 |
| Day4.IncludesCountAtMostOverlapCount | src/day4/mod.rs:38-67 | for well-formed ranges, the part 1 count never exceeds the part 2 count |
| Day4.Part1 | src/day4/mod.rs:61-63 | the answer is at most the number of lines |
| Day4.Part2 | src/day4/mod.rs:65-67 | the answer is at most the number of lines |
| Day4.ExamplePart1 | src/day4/mod.rs:74-104 | the first example prepares to the six pairs of `test_prepare_input`, and part 1 of it is 2 |
| Day4.ExamplePart2 | src/day4/mod.rs:75-86 | part 2 of the second example is 4 |
| Day5.Push | src/day5/mod.rs:7-12 | the crate goes on top of the stack and the crates below are unchanged |
| Day5.Pop | src/day5/mod.rs:14-26 | yields nothing exactly on an empty stack, and leaves it unchanged; otherwise it yields the top crate and removes only that crate |
| Day5.PopPush | src/day5/mod.rs:7-26 | popping right after a push gives the crate back along with the original stack |
| Day5.PushPop | src/day5/mod.rs:7-26 | pushing back the crate just popped restores the stack |
| Day5.PopManyTakesTop | src/day5/mod.rs:101-103 | popping n crates, with n at most the stack's height, yields its top n crates in order and leaves the rest |
| Day5.PopManyEmpties | src/day5/mod.rs:101-103 | asking for more crates than the stack holds yields all of them and leaves it empty (`filter_map` skips the failed pops) |
| Day5.ParseByte | src/day5/mod.rs:41-43 | a `u8` parse: it succeeds exactly on an unsigned decimal below 256 |
| Day5.ParseInstruction | src/day5/mod.rs:35-46 | a line without "from" is an error, and every field of an instruction read fits in a byte; `Day5.ParseInstructionOfRender` is its inverse |
| Day5.ParseInstructionOfRender | src/day5/mod.rs:35-46 | the puzzle's text of an instruction whose fields fit in a byte parses back to that instruction |
| Day5.ParseInstructions | src/day5/mod.rs:81-83 | succeeds exactly when every line of the trimmed text is an instruction; then instruction i is the one read from line i |
| Day5.Chunks | src/day5/mod.rs:65-67 | every chunk is non-empty and at most 4 characters long, and all but the last are exactly 4 |
| Day5.ChunksConcat | src/day5/mod.rs:65-67 | the chunks put back together are the row |
| Day5.ParseCrates | src/day5/mod.rs:60-79 | drops the last line (the stack numbers); row y holds the cells of line y |
| Day5.NonBlank | src/day5/mod.rs:54 | keeps exactly the characters that are not whitespace |
| Day5.NonBlankAppend | src/day5/mod.rs:54 | dropping blanks distributes over concatenation, so the kept labels stay in order and repeated labels are all kept |
| Day5.NonBlankKeeps | src/day5/mod.rs:54 | a column of labels only is kept unchanged |
| Day5.NonBlankDrops | src/day5/mod.rs:54 | a column of blanks only is dropped entirely |
| Day5.ConstructStacks | src/day5/mod.rs:48-58 | there is one stack per cell of the top row, and stack x has id x mod 256; its crates are exactly the non-blank labels in column x (their order, top row first, and their repeats are fixed by Day5.ColumnStack) |
| Day5.ColumnStack | src/day5/mod.rs:48-58 | a column whose labels are blanks above crates builds the stack holding exactly those crates, top row first, with the column's id |
| Day5.ColumnStackFull | src/day5/mod.rs:48-58 | a column with no blank label builds the stack of all its labels, top row first |
| Day5.Filter | src/day5/mod.rs:86-89 | keeps exactly the non-empty parts |
| Day5.FilterAppend | src/day5/mod.rs:86-89 | filtering a concatenation filters each side and keeps them in order, so the kept parts keep their input order |
| Day5.FilterKeeps | src/day5/mod.rs:86-89 | a list of non-empty parts passes unchanged |
| Day5.FilterDrops | src/day5/mod.rs:86-89 | a list of empty parts is removed entirely |
| Day5.PartsOfTwo | src/day5/mod.rs:86-89 | a drawing and a list of moves, neither holding an empty line, joined by one empty line, are the two parts, drawing first |
| Day5.PrepareInput | src/day5/mod.rs:85-95 | succeeds exactly when there are two parts, every cell of the drawing can be read and every line of the second part is an instruction; then the stacks are those built from the first part and the instructions those read from the second, one stack per cell of the top row with id x mod 256 and one instruction per line |
| Day5.PrepareInputOf | src/day5/mod.rs:85-95 | an input whose first part is a readable drawing and whose second part reads as instructions prepares to the stacks built from that drawing and those instructions |
| Day5.Taken | src/day5/mod.rs:101-103 | the number of crates an instruction pops is the smaller of its count and the source stack's height |
| Day5.PopsTakeTop | src/day5/mod.rs:101-103 | the popped crates are the top of the source stack, and the source keeps the rest |
| Day5.Step | src/day5/mod.rs:100-112 | keeps the number of stacks; the move itself is `Day5.StepBetween` and `Day5.StepWithin`, and what it leaves alone is `Day5.StepKeepsOthers` |
| Day5.StepKeepsOthers | src/day5/mod.rs:100-112 | a move keeps every stack's id and changes no stack other than its source and destination |
| Day5.StepNothing | src/day5/mod.rs:100-112 | a move of 0 crates changes no stack |
| Day5.ShiftedParts | src/day5/mod.rs:100-112 | moving m crates between different stacks removes them from the source and puts them on the destination, reversed in part 1; every other stack is unchanged |
| Day5.StepBetween | src/day5/mod.rs:100-112 | an instruction between different stacks moves the crates it pops |
| Day5.StepWithin | src/day5/mod.rs:100-112 | an instruction from a stack to itself puts the popped block back on that stack, reversed in part 1 |
| Day5.SameStack | src/day5/mod.rs:100-112 | when a crate moves from a stack to itself, part 1 reverses the top block and part 2 changes nothing |
| Day5.StepConserves | src/day5/mod.rs:100-112 | a move neither creates nor loses a crate: the multiset of all crates is unchanged |
| Day5.Run | src/day5/mod.rs:100-112 | a list of moves keeps the number of stacks and every stack's id |
| Day5.RunConserves | src/day5/mod.rs:100-112 | a whole list of moves keeps the multiset of all crates |
| Day5.Part1MovesOneAtATime | src/day5/mod.rs:100-112 | between different stacks, a part 1 move equals count single-crate moves |
| Day5.Part2ThroughSpareStack | src/day5/mod.rs:100-112 | a part 2 move keeps the block's order: it equals moving the crates one by one onto an empty spare stack and from there one by one onto the destination |
| Day5.Tops | src/day5/mod.rs:114 | character k is the top crate of stack k |
| Day5.TopsAreCrates | src/day5/mod.rs:97-115 | after the moves, every stack's top crate is one of the crates of the initial drawing |
| Day5.TopsOfRun | src/day5/mod.rs:97-115 | after any run the answer has one character per stack, each one of the starting crates |
| Day5.Execute | src/day5/mod.rs:97-115 | the answer has one character per stack, each one of the crates of the drawing |
| Day5.AnswerOf | src/day5/mod.rs:97-123 | when the prepared instructions run to the end on the prepared stacks, every final stack is non-empty and the answer of part 1 or part 2 is the top crates of those final stacks, in stack order |
| Day5.Part1 | src/day5/mod.rs:117-119 | the answer has one character per stack, each one of the drawing's crates |
| Day5.Part2 | src/day5/mod.rs:121-123 | the answer has one character per stack, each one of the drawing's crates |
| Day5.ExamplePrepareInput | src/day5/mod.rs:130-138 | the example prepares to three stacks, NZ, DCM and P (top crate first), and its four moves |
| Day5.ExampleRunPart1 | src/day5/mod.rs:130-143 | after the four part 1 moves, the stacks are C, M and ZNDP (top crate first) |
| Day5.ExampleRunPart2 | src/day5/mod.rs:130-149 | after the four part 2 moves, the stacks are M, C and DNZP (top crate first) |
| Day5.ExamplePart1 | src/day5/mod.rs:130-143 | part 1 of the example is "CMZ" |
| Day5.ExamplePart2 | src/day5/mod.rs:130-149 | part 2 of the example is "MCD" |
| Day6.DistinctCount | src/day6/mod.rs:13-15 | the number of values left after `sort_unstable` and `dedup` is at most the window length |
| Day6.DistinctCountIff | src/day6/mod.rs:13-17 | that number equals the window length exactly when the window has no repeated value |
| Day6.Execute | src/day6/mod.rs:9-23 | yields nothing exactly on an empty input; otherwise the position just past the first window of distinct values |
| Day6.FirstMarkerUnique | src/day6/mod.rs:9-23 | the first marker is unique, so the answer is determined |
| Day6.RepeatBlocks | src/day6/mod.rs:12-19 | a repeated value blocks every window that contains both copies |
| Day6.Part1 | src/day6/mod.rs:1-3 | the position just past the first 4 distinct characters |
| Day6.Part2 | src/day6/mod.rs:5-7 | the position just past the first 14 distinct characters |
| Day6.Example0Part1 | src/day6/mod.rs:30-40 | the first example's start-of-packet marker ends at 7 |
| Day6.Example1Part1 | src/day6/mod.rs:30-41 | the second example's start-of-packet marker ends at 5 |
| Day6.Example2Part1 | src/day6/mod.rs:30-42 | the third example's start-of-packet marker ends at 6 |
| Day6.Example3Part1 | src/day6/mod.rs:30-43 | the fourth example's start-of-packet marker ends at 10 |
| Day6.Example4Part1 | src/day6/mod.rs:30-44 | the fifth example's start-of-packet marker ends at 11 |
| Day6.Example0Part2 | src/day6/mod.rs:30-51 | the first example's start-of-message marker ends at 19 |
| Day6.Example1Part2 | src/day6/mod.rs:30-52 | the second example's start-of-message marker ends at 23 |
| Day6.Example2Part2 | src/day6/mod.rs:30-53 | the third example's start-of-message marker ends at 23 |
| Day6.Example3Part2 | src/day6/mod.rs:30-54 | the fourth example's start-of-message marker ends at 29 |
| Day6.Example4Part2 | src/day6/mod.rs:30-55 | the fifth example's start-of-message marker ends at 26 |
| Day8.ParseRow | src/day8/mod.rs:110-113 | succeeds exactly when every character is a digit; entry i is the value of character i |
| Day8.ParseInput | src/day8/mod.rs:106-116 | succeeds exactly when every line of the trimmed input is all digits, with one row per line |
| Day8.ParseInputOfRender | src/day8/mod.rs:106-116 | reading back the text of any non-empty grid of non-empty rows of digits gives the grid |
| Day8.Column | src/day8/mod.rs:82-89 | entry r is the tree in row r of the column |
| Day8.Above | src/day8/mod.rs:82-84 | the y trees of column x above row y, top to bottom |
| Day8.Below | src/day8/mod.rs:87-89 | the trees of column x below row y, top to bottom: as many as there are rows after y |
| Day8.Left | src/day8/mod.rs:92-94 | the x trees of the row left of x, left to right |
| Day8.Right | src/day8/mod.rs:97-99 | the trees of the row right of x, left to right: as many as there are positions after x |
| Day8.RowAroundTree | src/day8/mod.rs:92-99 | the trees left of a tree, the tree, and the trees right of it make up its row |
| Day8.ColumnAroundTree | src/day8/mod.rs:82-89 | the trees above a tree, the tree, and the trees below it make up its column |
| Day8.OnEdgeIffEmptySightLine | src/day8/mod.rs:67-104 | `is_on_forest_edge` holds exactly when one of the four lines of sight is empty |
| Day8.VisibleIffClearLine | src/day8/mod.rs:1-18 | on a rectangular grid, a tree counts exactly when every tree between it and the edge, in one of the four directions, is strictly lower (so edge trees always count) |
| Day8.VisibleCountIsCardinality | src/day8/mod.rs:1-18 | the row-by-row count equals the number of visible cells |
| Day8.RectangularIsPart1Safe | src/day8/mod.rs:67-99 | part 1 indexes only inside a rectangular grid |
| Day8.Part1 | src/day8/mod.rs:1-18 | the answer is the number of visible trees |
| Day8.ViewDistance | src/day8/mod.rs:42-65 | counts the trees up to and including the first one at least as tall, or all of them; it is 0 exactly for an empty line |
| Day8.ViewDistanceUnique | src/day8/mod.rs:42-65 | those properties determine the viewing distance |
| Day8.MaxViewStops | src/day8/mod.rs:42-65 | `get_max_view` counts outward from the tree (from the end of the line when `rev` is set) the trees up to and including the first one at least as tall, or all of them; 0 exactly on an empty line |
| Day8.ScenicScoreAtMost | src/day8/mod.rs:24-31 | a tree's score is at most the product of the lengths of its four lines of sight |
| Day8.ScoreFrom | src/day8/mod.rs:24-31 | a tree's score is the product of its four viewing distances, the lines to the left and above read from the tree outward |
| Day8.Product | src/day8/mod.rs:28-31 | the product of the four distances is 0 exactly when one of them is |
| Day8.ScenicScoreZeroIffEdge | src/day8/mod.rs:20-40 | a tree's scenic score is 0 exactly when it stands on the edge |
| Day8.Part2SafeIffRectangular | src/day8/mod.rs:20-40 | part 2 can look around every tree without indexing past a row exactly when the grid is rectangular |
| Day8.RowBest | src/day8/mod.rs:25-36 | the running best is at least every score in the row, and is either the previous best or the score of a tree in the row |
| Day8.MaxFrom | src/day8/mod.rs:25-36 | the running best is at least the starting best and every score, and is either the starting best or one of the scores |
| Day8.HighestScore | src/day8/mod.rs:20-40 | the result is at least every tree's scenic score, and is 0 or the score of some tree |
| Day8.Part2 | src/day8/mod.rs:20-40 | the answer is the highest scenic score in the grid |
| Day8.ExamplePart1 | src/day8/mod.rs:125-136 | part 1 of the example is 21 |
| Day8.ExamplePart2 | src/day8/mod.rs:125-141 | no tree of the example scores more than 8, and the tree in column 2 of row 3 scores 8 |
| Text.Split | src/day1/mod.rs:30 | no piece contains the separator |
| Text.JoinSplit | src/day1/mod.rs:30 | joining the pieces with the separator gives the string back |
| Text.SplitJoin | src/day1/mod.rs:30 | splitting pieces that do not contain the separator, once joined, gives the pieces back |
| Text.SplitOn | src/day1/mod.rs:27 | splitting on a string always yields at least one piece |
| Text.JoinSplitOn | src/day1/mod.rs:27 | joining the pieces with the separator string gives the string back |
| Text.SplitOnJoinOn | src/day1/mod.rs:27 | splitting, after joining, pieces in which the separator does not occur gives the pieces back |
| Text.Trim | src/day4/mod.rs:11 | the result neither starts nor ends with whitespace |
| Text.TrimIsInfix | src/day4/mod.rs:11 | the trimmed string is a slice of the original, and only whitespace lies outside it |
| Text.Lines | src/day4/mod.rs:10-12 | at least one line, none containing a newline |
| Text.LinesOfJoin | src/day4/mod.rs:10-12 | lines that are non-empty and do not start or end the text with whitespace are recovered from their join |
| Text.Words | src/day2/mod.rs:139 | every word is non-empty and holds no whitespace; a string that does not start with whitespace starts its first word |
| Text.WordsJoin | src/day2/mod.rs:139 | words joined by single spaces split back into the same words |
| Text.ParseUnsigned | src/day8/mod.rs:112 | succeeds exactly on digits with an optional leading `+` |
| Text.ParseSigned | src/day1/mod.rs:31 | succeeds exactly on digits with an optional leading `+` or `-`; the value is negative only after a `-` |
| Text.ParseUnsignedRoundTrip | src/day8/mod.rs:112 | parsing the decimal text of a natural number gives the number |
| Text.ParseSignedRoundTrip | src/day1/mod.rs:31 | parsing the decimal text of an integer gives the integer |
| Text.ParseI32RoundTrip | src/day4/mod.rs:19 | the decimal text of a number parses as an `i32` exactly when the number lies in the `i32` range, and then as that number |
| Sequences.CountWhere | src/day4/mod.rs:42-58 | the count of matching elements is at most the length |
| Sequences.CountWhereExtremes | src/day4/mod.rs:42-58 | the count is the length exactly when all elements match, and 0 exactly when none does |
| Sequences.CountWhereMonotonic | src/day4/mod.rs:42-58 | a predicate that holds wherever another holds counts at least as many elements |
| Sequences.SortDescBy | src/day1/mod.rs:19 | the result rearranges the input into non-increasing key order |
| Sequences.SortedDescUnique | src/day1/mod.rs:19 | there is only one non-increasing arrangement of a multiset of numbers |
| Sequences.SortMapKeys | src/day1/mod.rs:19 | sorting by key and then taking the keys gives the sorted keys: the sort looks at nothing but the keys |
| Sequences.Reverse | src/day5/mod.rs:105-107 | element i of the result is element n-1-i of the input |
| Sequences.ReverseReverse | src/day5/mod.rs:105-107 | reversing twice gives the input back |
| Sequences.ReverseMultiset | src/day5/mod.rs:105-107 | reversing keeps every element, as often as it occurs |
| Sequences.ReverseAppend | src/day5/mod.rs:105-107 | the reverse of a concatenation is the two reverses in swapped order |

## Left out

- File input: the `include_str!("input.txt")` fixtures are not part of this model, and neither
  are the test assertions that use them.
- Integer widths: `i32`, `u32` and `usize` arithmetic is unbounded, so overflow (a panic in
  debug builds, a wrap in release builds) is not modelled. Parsing is the exception: the
  ranges of Day 5's `parse::<u8>()` and of the `parse::<i32>()` of Days 1 and 4 are modelled,
  because they decide which lines parse.
- Strings are sequences of Unicode scalar values. `char::is_whitespace` is modelled by the
  Unicode White_Space list. Byte lengths are not modelled, so the panic of Day 3's
  `split_at(line.len() / 2)` inside a multi-byte character is left out: the model splits at
  half the character count, which is the same on ASCII input.
- Day 6 slices `input.as_bytes()`. The model slices the characters, which is the same on ASCII
  input.
- Day 3's `ToVec` trait only turns the zipped tuples into vectors. Its effect, the order in
  which candidate characters are tried, is modelled by `Day3.ScanOrder`. The trait itself is
  not modelled.
- Day 3's `LETTERS_LOWERCASE` and `LETTERS_UPPERCASE` tables are modelled as the character
  ranges `a..=z` and `A..=Z`.
- Day 5's `pop` searches for the position of the first crate before removing it. That search
  always succeeds on a non-empty stack, so the model removes the first crate directly.
- Day 5's `Stack.id` is never read by the solver. It is carried as the column index mod 256;
  `Day5.StepKeepsOthers` and `Day5.Run` state that the moves keep it.
- Day 8's `#[inline]` hints and the `Tree = u32` alias need no model: heights are natural
  numbers.
- Day2.DesiredOutcomeAgainst: the contract ties the score to the desired outcome only when the
  receiver is the opponent, the one way the solver's own part 2 plays it. For any other receiver
  the score is stated only to lie between 1 and 9.
- Day2.Part1 and Day2.Part2: the contracts give only the bounds n to 9n. The relation between
  the two parts is `Day2.Part2IsPart1OfChosen`, and the per-round scores are `Day2.PlayAgainst`.
- Day3.Part1 and Day3.Part2: the contracts give only the bounds n to 52n. What is summed is
  stated by `Day3.CommonItemIff` and `Day3.Priority`.
- Day4.Part1 and Day4.Part2: the contracts give only the bound by the number of lines. What
  is counted is stated by `Day4.IncludesIffOneContainsOther` and `Day4.OverlapIffShared`.
- Day5.Execute, Day5.Part1 and Day5.Part2: the contracts state only the answer's length and
  that its characters come from the drawing; they do not say which crate ends on top. Which
  one does is stated by `Day5.AnswerOf` (the answer is the tops after `Day5.Run`), and the
  moves themselves by `Day5.ShiftedParts` and `Day5.StepBetween`.
- Day5.Step: the contract states only that the number of stacks is kept. What a move does is
  stated by `Day5.StepBetween` and `Day5.StepWithin`, and what it leaves alone by
  `Day5.StepKeepsOthers`; they are separate lemmas so that proofs about single steps stay small.
- Day4.ParseGroup: the contract states the success direction only, that a line read has one
  assignment per piece and every piece parses. That one failing piece fails the line is not
  stated for the group; `Day4.PrepareInput` states it for whole lines.
- Day1.SplitStringOfRender: requires every block but the last to begin with a non-empty line,
  which is more than reading back needs.

=== FILE: day1.dfy ===
/** Day 1: calories carried by elves (src/day1/mod.rs). The input holds one block of numbers
    per elf, blocks separated by an empty line; part 1 finds the largest block sum and its index,
    part 2 the total of the three largest block sums. */
module Day1 {
  import opened Wrappers
  import opened Text
  import opened Sequences

  /** The calories of one elf, one number per line. */
  type Block = seq<int>

  // ---------------------------------------------------------------------------
  // split_string
  // ---------------------------------------------------------------------------

  /** `line.parse::<i32>().unwrap_or(0)`: a line that is not a number, or whose number does
      not fit in an `i32`, counts as 0. */
  function Calories(line: string): int {
    match ParseI32(line)
    case Some(v) => v
    case None => 0
  }

  /** One block: a number per `'\n'`-separated line. */
  function ParseBlock(block: string): (b: Block)
    ensures |b| == |Split(block, '\n')|
  {
    var lines := Split(block, '\n');
    seq(|lines|, j requires 0 <= j < |lines| => Calories(lines[j]))
  }

  /** `split_string`: a block per `"\n\n"`-separated piece of the input. */
  function SplitString(input: string): (r: seq<Block>)
    ensures |r| == |SplitOn(input, "\n\n")| >= 1
  {
    var blocks := SplitOn(input, "\n\n");
    seq(|blocks|, i requires 0 <= i < |blocks| => ParseBlock(blocks[i]))
  }

  /** The text of a block given as its lines. */
  function BlockText(lines: seq<string>): string
    requires |lines| >= 1
  {
    Join(lines, '\n')
  }

  /** The text of blocks given as their lines: blocks joined by an empty line. */
  function BlocksText(lines: seq<seq<string>>): string
    requires |lines| >= 1 && forall i :: 0 <= i < |lines| ==> |lines[i]| >= 1
  {
    JoinOn(seq(|lines|, i requires 0 <= i < |lines| => BlockText(lines[i])), "\n\n")
  }

  /** Lines that read back as the blocks they were written from: no line holds a line break
      and no line but the first of a block is empty (an empty line would end the block). The
      last clause, that every block but the last begins with a non-empty line, is more than
      reading back needs; it keeps each block's text free of a leading `"\n\n"` match. */
  predicate WellSeparated(lines: seq<seq<string>>) {
    && |lines| >= 1
    && (forall i :: 0 <= i < |lines| ==> |lines[i]| >= 1)
    && (forall i, k :: 0 <= i < |lines| && 0 <= k < |lines[i]| ==> '\n' !in lines[i][k])
    && (forall i, k :: 0 <= i < |lines| && 1 <= k < |lines[i]| ==> |lines[i][k]| > 0)
    && (forall i :: 0 <= i < |lines| - 1 ==> |lines[i][0]| > 0)
  }

  /** The text of a block ends where `"\n\n"` can follow it: it holds no empty line and no
      `"\n\n"`. */
  lemma BlockTextSeparates(lines: seq<string>, last: bool)
    requires |lines| >= 1
    requires forall k :: 0 <= k < |lines| ==> '\n' !in lines[k]
    requires forall k :: 1 <= k < |lines| ==> |lines[k]| > 0
    requires !last ==> |lines[0]| > 0
    ensures NoMatchIn(BlockText(lines), "\n\n")
    ensures !last ==> NoMatchBefore(BlockText(lines), "\n\n")
  {
    JoinNoDoubleSep(lines, '\n');
    if !last {
      JoinEnds(lines, '\n');
      var t := BlockText(lines);
      assert t[|t| - 1] in lines[|lines| - 1];
      NoMatchBeforeDoubleSep(t, '\n');
    }
  }

  /** `split_string` reads well-separated lines back, each line as its `Calories`. */
  lemma SplitStringOfLines(lines: seq<seq<string>>)
    requires WellSeparated(lines)
    ensures var r := SplitString(BlocksText(lines));
            && |r| == |lines|
            && forall i :: 0 <= i < |r| ==> |r[i]| == |lines[i]|
    ensures var r := SplitString(BlocksText(lines));
            forall i, k :: 0 <= i < |lines| && 0 <= k < |lines[i]| ==> r[i][k] == Calories(lines[i][k])
  {
    var texts := seq(|lines|, i requires 0 <= i < |lines| => BlockText(lines[i]));
    forall i | 0 <= i < |lines|
      ensures NoMatchIn(texts[i], "\n\n")
      ensures i < |lines| - 1 ==> NoMatchBefore(texts[i], "\n\n")
      ensures Split(texts[i], '\n') == lines[i]
    {
      BlockTextSeparates(lines[i], i == |lines| - 1);
      SplitJoin(lines[i], '\n');
    }
    SplitOnJoinOn(texts, "\n\n");
  }

  /** The text of blocks of numbers, each number on its own line. */
  function Render(blocks: seq<Block>): string
    requires |blocks| >= 1 && forall i :: 0 <= i < |blocks| ==> |blocks[i]| >= 1
  {
    BlocksText(RenderLines(blocks))
  }

  function RenderLines(blocks: seq<Block>): (lines: seq<seq<string>>)
    requires |blocks| >= 1 && forall i :: 0 <= i < |blocks| ==> |blocks[i]| >= 1
    ensures |lines| == |blocks|
    ensures forall i :: 0 <= i < |blocks| ==> |lines[i]| == |blocks[i]|
    ensures forall i, k :: 0 <= i < |blocks| && 0 <= k < |blocks[i]| ==> lines[i][k] == IntToString(blocks[i][k])
  {
    seq(|blocks|, i requires 0 <= i < |blocks| =>
      seq(|blocks[i]|, k requires 0 <= k < |blocks[i]| => IntToString(blocks[i][k])))
  }

  /** `split_string` reads back the blocks of a rendering. */
  lemma SplitStringOfRender(blocks: seq<Block>)
    requires |blocks| >= 1 && forall i :: 0 <= i < |blocks| ==> |blocks[i]| >= 1
    requires forall i, k :: 0 <= i < |blocks| && 0 <= k < |blocks[i]| ==> IsI32(blocks[i][k])
    ensures SplitString(Render(blocks)) == blocks
  {
    var lines := RenderLines(blocks);
    forall i, k | 0 <= i < |blocks| && 0 <= k < |blocks[i]|
      ensures '\n' !in lines[i][k] && |lines[i][k]| > 0
      ensures Calories(lines[i][k]) == blocks[i][k]
    {
      var v := blocks[i][k];
      ParseI32RoundTrip(v);
      if v < 0 {
        assert lines[i][k] == "-" + NatToString(-v);
        assert '\n' !in NatToString(-v);
      } else {
        assert '\n' !in NatToString(v);
      }
    }
    SplitStringOfLines(lines);
    var r := SplitString(Render(blocks));
    assert forall i :: 0 <= i < |blocks| ==> r[i] == blocks[i];
  }

  // ---------------------------------------------------------------------------
  // part_1 and part_2
  // ---------------------------------------------------------------------------

  /** `part.iter().sum()`. */
  function Sum(b: Block): int {
    if |b| == 0 then 0 else Sum(b[..|b| - 1]) + b[|b| - 1]
  }

  function BlockSums(blocks: seq<Block>): (r: seq<int>)
    ensures |r| == |blocks|
    ensures forall i :: 0 <= i < |blocks| ==> r[i] == Sum(blocks[i])
  {
    seq(|blocks|, i requires 0 <= i < |blocks| => Sum(blocks[i]))
  }

  /** `enumerate().max_by(..)`: the largest value with its index; among equal values
      `max_by` keeps the last one. */
  function MaxByLast(s: seq<int>): (r: (nat, int))
    requires |s| >= 1
    ensures r.0 < |s| && r.1 == s[r.0]
    ensures forall j :: 0 <= j < |s| ==> s[j] <= r.1
    ensures forall j :: r.0 < j < |s| ==> s[j] < r.1
  {
    if |s| == 1 then (0, s[0])
    else
      var best := MaxByLast(s[..|s| - 1]);
      if s[|s| - 1] >= best.1 then (|s| - 1, s[|s| - 1]) else best
  }

  /** `part_1`: the index of the block with the largest sum (the last such block), and that
      sum. */
  function Part1(blocks: seq<Block>): (r: (nat, int))
    requires |blocks| >= 1
    ensures r.0 < |blocks| && r.1 == Sum(blocks[r.0])
    ensures forall j :: 0 <= j < |blocks| ==> Sum(blocks[j]) <= r.1
    ensures forall j :: r.0 < j < |blocks| ==> Sum(blocks[j]) < r.1
  {
    MaxByLast(BlockSums(blocks))
  }

  /** The block sums from largest to smallest (`sort_by_key(|b| Reverse(*b))`). */
  function SortedSums(blocks: seq<Block>): (r: seq<int>)
    ensures |r| == |blocks|
    ensures SortedDescBy(r, Identity)
    ensures multiset(r) == multiset(BlockSums(blocks))
  {
    SortDescBy(BlockSums(blocks), Identity)
  }

  /** `part_2`: the three largest block sums added up. They are the sums of three different
      blocks, and no other block has a larger sum than the smallest of the three. */
  function Part2(blocks: seq<Block>): (r: int)
    requires |blocks| >= 3
    ensures exists i, j, k :: TopThree(blocks, i, j, k) &&
              r == Sum(blocks[i]) + Sum(blocks[j]) + Sum(blocks[k])
  {
    var sorted := SortedSums(blocks);
    var ranked := RankedBlocks(blocks);
    RankedTopThree(blocks);
    assert sorted == MapKeys(ranked, SumAt(blocks));
    sorted[0] + sorted[1] + sorted[2]
  }

  /** The indices `0 .. n - 1` in order. */
  function Indices(n: nat): (r: seq<int>)
    ensures |r| == n && forall i :: 0 <= i < n ==> r[i] == i
  {
    seq(n, i => i)
  }

  /** The sum of block `x`, and 0 for an index outside the blocks. */
  function SumAt(blocks: seq<Block>): int -> int {
    x => if 0 <= x < |blocks| then Sum(blocks[x]) else 0
  }

  /** The block sums are the sums at the indices in order. */
  lemma SumsAtIndices(blocks: seq<Block>)
    ensures BlockSums(blocks) == MapKeys(Indices(|blocks|), SumAt(blocks))
  {
  }

  /** The blocks' indices ordered by non-increasing sum, the earlier block first among equal
      sums: the order in which `sort_by_key` leaves the sums. */
  function RankedBlocks(blocks: seq<Block>): (r: seq<int>)
    ensures multiset(r) == multiset(Indices(|blocks|))
    ensures SortedDescBy(r, SumAt(blocks))
    ensures MapKeys(r, SumAt(blocks)) == SortedSums(blocks)
  {
    SumsAtIndices(blocks);
    SortMapKeys(Indices(|blocks|), SumAt(blocks));
    SortDescBy(Indices(|blocks|), SumAt(blocks))
  }

  /** A rearrangement of the indices `0 .. n - 1` holds each of them exactly once. */
  lemma RearrangedIndices(n: nat, r: seq<int>)
    requires multiset(r) == multiset(Indices(n))
    ensures |r| == n && Distinct(r)
    ensures forall p :: 0 <= p < |r| ==> 0 <= r[p] < n
    ensures forall m :: 0 <= m < n ==> m in r
  {
    var idx := Indices(n);
    SameMultisetSameLength(r, idx);
    DistinctPermutation(idx, r);
    forall p | 0 <= p < |r|
      ensures 0 <= r[p] < n
    {
      assert r[p] in multiset(idx);
    }
    forall m | 0 <= m < n
      ensures m in r
    {
      assert idx[m] in multiset(r);
    }
  }

  /** A block ranked after the third has no larger sum than the third. */
  lemma RankedAfterThird(blocks: seq<Block>, m: int)
    requires |blocks| >= 3 && 0 <= m < |blocks|
    ensures var r := RankedBlocks(blocks);
            |r| >= 3 && (m != r[0] && m != r[1] && m != r[2] ==> Sum(blocks[m]) <= SumAt(blocks)(r[2]))
  {
    var r := RankedBlocks(blocks);
    RearrangedIndices(|blocks|, r);
    if m != r[0] && m != r[1] && m != r[2] {
      SortedAfterThird(r, SumAt(blocks), m);
    }
  }

  /** Blocks `i`, `j` and `k` are three different blocks, in non-increasing order of sum,
      and no other block has a larger sum than `k`. */
  ghost predicate TopThree(blocks: seq<Block>, i: int, j: int, k: int) {
    && 0 <= i < |blocks| && 0 <= j < |blocks| && 0 <= k < |blocks|
    && i != j && i != k && j != k
    && Sum(blocks[i]) >= Sum(blocks[j]) >= Sum(blocks[k])
    && (forall m :: 0 <= m < |blocks| && m != i && m != j && m != k ==> Sum(blocks[m]) <= Sum(blocks[k]))
  }

  /** The first three ranked blocks are the top three. */
  lemma RankedTopThree(blocks: seq<Block>)
    requires |blocks| >= 3
    ensures var r := RankedBlocks(blocks); |r| >= 3 && TopThree(blocks, r[0], r[1], r[2])
  {
    var r := RankedBlocks(blocks);
    RearrangedIndices(|blocks|, r);
    assert SumAt(blocks)(r[0]) >= SumAt(blocks)(r[1]) >= SumAt(blocks)(r[2]);
    forall m | 0 <= m < |blocks| && m != r[0] && m != r[1] && m != r[2]
      ensures Sum(blocks[m]) <= Sum(blocks[r[2]])
    {
      RankedAfterThird(blocks, m);
    }
  }

  /** The largest of the sorted sums is the one `part_1` finds: part 2 adds the block of
      part 1 and the two next largest. */
  lemma SortedSumsStartWithPart1(blocks: seq<Block>)
    requires |blocks| >= 1
    ensures SortedSums(blocks)[0] == Part1(blocks).1
  {
    var sorted := SortedSums(blocks);
    var sums := BlockSums(blocks);
    var m := Part1(blocks);
    assert sorted[0] in multiset(sums);
    assert sums[m.0] in multiset(sorted);
  }

  /** Taking block `k` out takes its sum out of the sums. */
  lemma BlockSumsRemoveAt(b: seq<Block>, k: nat)
    requires k < |b|
    ensures BlockSums(b[..k] + b[k + 1..]) == BlockSums(b)[..k] + BlockSums(b)[k + 1..]
  {
  }

  /** Blocks with the same multiset of elements have the same multiset of sums. */
  lemma {:induction false} BlockSumsPermutation(a: seq<Block>, b: seq<Block>)
    requires multiset(a) == multiset(b)
    ensures multiset(BlockSums(a)) == multiset(BlockSums(b))
    decreases |a|
  {
    SameMultisetSameLength(a, b);
    if |a| > 0 {
      assert a[0] in multiset(b);
      var k :| 0 <= k < |b| && b[k] == a[0];
      PermutationTails(a, b, k);
      BlockSumsPermutation(a[1..], b[..k] + b[k + 1..]);
      BlockSumsStep(a, b, k);
    }
  }

  /** Taking the first element of `a` and an equal element of `b` out of two permutations of
      each other leaves two permutations of each other. */
  lemma PermutationTails(a: seq<Block>, b: seq<Block>, k: nat)
    requires |a| > 0 && k < |b| && b[k] == a[0] && multiset(a) == multiset(b)
    ensures multiset(a[1..]) == multiset(b[..k] + b[k + 1..])
  {
    MultisetRemoveAt(b, k);
    MultisetRemoveAt(a, 0);
    assert a[..0] + a[1..] == a[1..];
    MultisetCancel(multiset(a[1..]), multiset(b[..k] + b[k + 1..]), multiset{a[0]});
  }

  /** The sums of the permuted tails extend to the sums of the whole sequences. */
  lemma BlockSumsStep(a: seq<Block>, b: seq<Block>, k: nat)
    requires |a| > 0 && k < |b| && b[k] == a[0]
    requires multiset(BlockSums(a[1..])) == multiset(BlockSums(b[..k] + b[k + 1..]))
    ensures multiset(BlockSums(a)) == multiset(BlockSums(b))
  {
    var sa, sb := BlockSums(a), BlockSums(b);
    var one := multiset{Sum(a[0])};
    assert multiset(sb) == multiset(BlockSums(b[..k] + b[k + 1..])) + one by {
      BlockSumsRemoveAt(b, k);
      MultisetRemoveAt(sb, k);
    }
    assert multiset(sa) == multiset(BlockSums(a[1..])) + one by {
      assert BlockSums(a[1..]) == sa[1..];
      assert sa == [sa[0]] + sa[1..];
    }
  }

  /** `part_2` does not depend on the order of the blocks. */
  lemma Part2Permutation(a: seq<Block>, b: seq<Block>)
    requires |a| >= 3 && multiset(a) == multiset(b)
    ensures |b| >= 3 && Part2(a) == Part2(b)
  {
    assert |a| == |multiset(a)| == |multiset(b)| == |b|;
    BlockSumsPermutation(a, b);
    SortedDescUnique(SortedSums(a), SortedSums(b));
  }

  // ---------------------------------------------------------------------------
  // The example of the test module
  // ---------------------------------------------------------------------------

  /** The example input, written as the lines of its blocks; the blank line before "10000"
      starts the last block with an empty line. */
  const ExampleLines: seq<seq<string>> :=
    [["1000", "2000", "3000"], ["4000"], ["5000", "6000"], ["7000", "8000", "9000"], ["", "10000"]]
  const ExampleInput: string := BlocksText(ExampleLines)

  const ExampleBlocks: seq<Block> :=
    [[1000, 2000, 3000], [4000], [5000, 6000], [7000, 8000, 9000], [0, 10000]]

  /** The text of a block of three lines. */
  lemma BlockTextOfThree(a: string, b: string, c: string)
    ensures BlockText([a, b, c]) == a + "\n" + b + "\n" + c
  {
    assert [a, b, c][1..] == [b, c];
    assert [b, c][1..] == [c];
    assert Join([b, c], '\n') == b + "\n" + c;
  }

  /** The text of a block of two lines. */
  lemma BlockTextOfTwo(a: string, b: string)
    ensures BlockText([a, b]) == a + "\n" + b
  {
    assert [a, b][1..] == [b];
    assert Join([a, b], '\n') == a + "\n" + Join([b], '\n');
  }

  /** Five pieces joined by an empty line. */
  lemma JoinOnFive(a: string, b: string, c: string, d: string, e: string)
    ensures JoinOn([a, b, c, d, e], "\n\n") == a + "\n\n" + b + "\n\n" + c + "\n\n" + d + "\n\n" + e
  {
    assert [a, b, c, d, e][1..] == [b, c, d, e];
    assert [b, c, d, e][1..] == [c, d, e];
    assert [c, d, e][1..] == [d, e];
    assert [d, e][1..] == [e];
    assert JoinOn([d, e], "\n\n") == d + "\n\n" + e;
    assert JoinOn([c, d, e], "\n\n") == c + "\n\n" + d + "\n\n" + e;
    assert JoinOn([b, c, d, e], "\n\n") == b + "\n\n" + c + "\n\n" + d + "\n\n" + e;
  }

  /** The text of five blocks, block by block. */
  lemma BlocksTextOfFive(l: seq<seq<string>>)
    requires |l| == 5 && forall i :: 0 <= i < 5 ==> |l[i]| >= 1
    ensures BlocksText(l) == JoinOn([BlockText(l[0]), BlockText(l[1]), BlockText(l[2]), BlockText(l[3]), BlockText(l[4])], "\n\n")
  {
    var texts := seq(|l|, i requires 0 <= i < |l| => BlockText(l[i]));
    assert texts == [BlockText(l[0]), BlockText(l[1]), BlockText(l[2]), BlockText(l[3]), BlockText(l[4])];
  }

  /** The example block by block: each block's lines, joined by an empty line. */
  lemma ExampleInputBlocks()
    ensures ExampleInput == "1000\n2000\n3000" + "\n\n" + "4000" + "\n\n" + "5000\n6000" + "\n\n"
                            + "7000\n8000\n9000" + "\n\n" + "\n10000"
  {
    BlocksTextOfFive(ExampleLines);
    BlockTextOfThree("1000", "2000", "3000");
    assert BlockText(["4000"]) == "4000";
    BlockTextOfTwo("5000", "6000");
    BlockTextOfThree("7000", "8000", "9000");
    BlockTextOfTwo("", "10000");
    assert "1000" + "\n" + "2000" + "\n" + "3000" == "1000\n2000\n3000";
    assert "5000" + "\n" + "6000" == "5000\n6000";
    assert "7000" + "\n" + "8000" + "\n" + "9000" == "7000\n8000\n9000";
    assert "" + "\n" + "10000" == "\n10000";
    JoinOnFive("1000\n2000\n3000", "4000", "5000\n6000", "7000\n8000\n9000", "\n10000");
  }

  /** The example's blocks, written out, make up the test's string. */
  lemma ExampleBlocksSpelled(t: string)
    requires t == "1000\n2000\n3000" + "\n\n" + "4000" + "\n\n" + "5000\n6000" + "\n\n"
                  + "7000\n8000\n9000" + "\n\n" + "\n10000"
    ensures t == "1000\n2000\n3000\n\n4000\n\n5000\n6000\n\n7000\n8000\n9000\n\n\n10000"
  {
    var front := "1000\n2000\n3000" + "\n\n" + "4000" + "\n\n" + "5000\n6000" + "\n\n";
    var back := "7000\n8000\n9000" + "\n\n" + "\n10000";
    assert front == "1000\n2000\n3000\n\n4000\n\n5000\n6000\n\n";
    assert back == "7000\n8000\n9000\n\n\n10000";
    assert t == front + back;
  }


  /** The example is the test's `INPUT` string. */
  lemma ExampleInputText()
    ensures ExampleInput == "1000\n2000\n3000\n\n4000\n\n5000\n6000\n\n7000\n8000\n9000\n\n\n10000"
  {
    ExampleInputBlocks();
    ExampleBlocksSpelled(ExampleInput);
  }




  /** A rendered `i32` reads back as itself; any other number reads as 0. */
  lemma CaloriesOfRendering(n: int)
    ensures Calories(IntToString(n)) == if IsI32(n) then n else 0
  {
    ParseI32RoundTrip(n);
  }

  lemma ExampleNumber(n: nat, text: string)
    requires NatToString(n) == text && n < 0x8000_0000
    ensures Calories(text) == n
  {
    CaloriesOfRendering(n);
  }

  lemma ExampleNumbers0()
    ensures Calories("1000") == 1000 && Calories("2000") == 2000 && Calories("3000") == 3000
  {
    ExampleNumber(1000, "1000");
    ExampleNumber(2000, "2000");
    ExampleNumber(3000, "3000");
  }

  lemma ExampleNumbers1()
    ensures Calories("4000") == 4000 && Calories("5000") == 5000 && Calories("6000") == 6000
  {
    ExampleNumber(4000, "4000");
    ExampleNumber(5000, "5000");
    ExampleNumber(6000, "6000");
  }

  lemma ExampleNumbers2()
    ensures Calories("7000") == 7000 && Calories("8000") == 8000 && Calories("9000") == 9000
  {
    ExampleNumber(7000, "7000");
    ExampleNumber(8000, "8000");
    ExampleNumber(9000, "9000");
  }

  lemma ExampleNumbers3()
    ensures Calories("10000") == 10000 && Calories("") == 0
  {
    ExampleNumber(10000, "10000");
  }

  lemma ExampleWellSeparated()
    ensures WellSeparated(ExampleLines)
  {
  }

  /** Every line of the example reads as its number (the empty line as 0). */
  lemma ExampleCalories()
    ensures forall i, k :: 0 <= i < |ExampleLines| && 0 <= k < |ExampleLines[i]| ==>
      Calories(ExampleLines[i][k]) == ExampleBlocks[i][k]
  {
    ExampleNumbers0();
    ExampleNumbers1();
    ExampleNumbers2();
    ExampleNumbers3();
  }

  /** `split_string` of the example. */
  lemma ExampleSplits()
    ensures SplitString(ExampleInput) == ExampleBlocks
  {
    ExampleWellSeparated();
    SplitStringOfLines(ExampleLines);
    ExampleCalories();
    var r := SplitString(ExampleInput);
    assert |r| == |ExampleBlocks|;
    forall i | 0 <= i < |r|
      ensures r[i] == ExampleBlocks[i]
    {
      assert |r[i]| == |ExampleBlocks[i]|;
    }
  }

  /** The block sums of the example. */
  lemma ExampleSums()
    ensures BlockSums(ExampleBlocks) == [6000, 4000, 11000, 24000, 10000]
  {
    assert Sum([1000, 2000, 3000]) == 6000 by {
      assert [1000, 2000, 3000][..2] == [1000, 2000];
      assert [1000, 2000][..1] == [1000];
      assert [1000][..0] == [];
    }
    assert Sum([4000]) == 4000 by {
      assert [4000][..0] == [];
    }
    assert Sum([5000, 6000]) == 11000 by {
      assert [5000, 6000][..1] == [5000];
      assert [5000][..0] == [];
    }
    assert Sum([7000, 8000, 9000]) == 24000 by {
      assert [7000, 8000, 9000][..2] == [7000, 8000];
      assert [7000, 8000][..1] == [7000];
      assert [7000][..0] == [];
    }
    assert Sum([0, 10000]) == 10000 by {
      assert [0, 10000][..1] == [0];
      assert [0][..0] == [];
    }
  }

  /** `part_1` of the example is (3, 24000). */
  lemma ExamplePart1()
    ensures SplitString(ExampleInput) == ExampleBlocks && Part1(SplitString(ExampleInput)) == (3, 24000)
  {
    ExampleSplits();
    ExampleSums();
  }

  /** The example's block sums from largest to smallest. */
  lemma ExampleOrderSorted()
    ensures SortedDescBy([24000, 11000, 10000, 6000, 4000], Identity)
  {
    var e := [24000, 11000, 10000, 6000, 4000];
    forall i, j | 0 <= i < j < 5
      ensures Identity(e[i]) >= Identity(e[j])
    {
    }
  }

  /** Appending a value adds it to the multiset. */
  lemma MultisetSnoc(s: seq<int>, x: int)
    ensures multiset(s + [x]) == multiset(s) + multiset{x}
  {
  }

  /** The multiset of five values, one value at a time. */
  lemma MultisetOfFive(a: int, b: int, c: int, d: int, e: int)
    ensures multiset([a, b, c, d, e]) == multiset{a} + multiset{b} + multiset{c} + multiset{d} + multiset{e}
  {
    assert [a, b] == [a] + [b];
    assert [a, b, c] == [a, b] + [c];
    assert [a, b, c, d] == [a, b, c] + [d];
    assert [a, b, c, d, e] == [a, b, c, d] + [e];
    MultisetSnoc([a], b);
    MultisetSnoc([a, b], c);
    MultisetSnoc([a, b, c], d);
    MultisetSnoc([a, b, c, d], e);
  }

  /** Five values in the example's two orders hold the same values. */
  lemma PermuteFive(a: int, b: int, c: int, d: int, e: int)
    ensures multiset([a, b, c, d, e]) == multiset([d, e, b, a, c])
  {
    MultisetOfFive(a, b, c, d, e);
    MultisetOfFive(d, e, b, a, c);
  }

  lemma ExampleOrderPermutes()
    ensures multiset([24000, 11000, 10000, 6000, 4000]) == multiset([6000, 4000, 11000, 24000, 10000])
  {
    PermuteFive(24000, 11000, 10000, 6000, 4000);
  }

  lemma ExampleSorted()
    ensures SortedSums(ExampleBlocks) == [24000, 11000, 10000, 6000, 4000]
  {
    ExampleSums();
    ExampleOrderSorted();
    ExampleOrderPermutes();
    SortedDescUnique(SortedSums(ExampleBlocks), [24000, 11000, 10000, 6000, 4000]);
  }

  /** `part_2` of the example is 45000. */
  lemma ExamplePart2()
    ensures SplitString(ExampleInput) == ExampleBlocks && Part2(SplitString(ExampleInput)) == 45000
  {
    ExampleSplits();
    ExampleSorted();
  }
}

=== FILE: day2.dfy ===
/** Day 2: scoring a rock-paper-scissors strategy guide (src/day2/mod.rs).
    Each line holds the opponent's letter and a second letter; part 1 reads the second letter
    as our shape, part 2 as the outcome we must reach. */
module Day2 {
  import opened Wrappers
  import opened Text

  /** How a round ends for us (the source spells the first variant `Loose`). */
  datatype Outcome = Lose | Draw | Win

  datatype Shape = Rock | Paper | Scissors

  // ---------------------------------------------------------------------------
  // Letters
  // ---------------------------------------------------------------------------

  /** The letter of the first column that names a shape. */
  function OpponentLetter(s: Shape): string {
    match s
    case Rock => "A"
    case Paper => "B"
    case Scissors => "C"
  }

  /** The letter of the second column, read as a shape (part 1). */
  function ResponseLetter(s: Shape): string {
    match s
    case Rock => "X"
    case Paper => "Y"
    case Scissors => "Z"
  }

  /** The letter of the second column, read as an outcome (part 2). */
  function OutcomeLetter(o: Outcome): string {
    match o
    case Lose => "X"
    case Draw => "Y"
    case Win => "Z"
  }

  /** `Outcome::from(&str)`: X, Y and Z name the outcomes; any other string is unreachable. */
  function OutcomeFromStr(s: string): (r: Option<Outcome>)
    ensures forall o :: r == Some(o) <==> s == OutcomeLetter(o)
  {
    if s == "X" then Some(Lose)
    else if s == "Y" then Some(Draw)
    else if s == "Z" then Some(Win)
    else None
  }

  /** `Shape::from(&str)`: either column's letter names a shape; any other string is unreachable. */
  function ShapeFromStr(s: string): (r: Option<Shape>)
    ensures forall sh :: r == Some(sh) <==> s == OpponentLetter(sh) || s == ResponseLetter(sh)
  {
    if s == "A" || s == "X" then Some(Rock)
    else if s == "B" || s == "Y" then Some(Paper)
    else if s == "C" || s == "Z" then Some(Scissors)
    else None
  }

  // ---------------------------------------------------------------------------
  // Scores and the outcome table
  // ---------------------------------------------------------------------------

  /** `u8::from(Outcome)`. */
  function OutcomeScore(o: Outcome): nat {
    match o
    case Lose => 0
    case Draw => 3
    case Win => 6
  }

  /** `Shape::get_score`. */
  function ShapeScore(s: Shape): nat {
    match s
    case Rock => 1
    case Paper => 2
    case Scissors => 3
  }

  /** Position of a shape in the cycle Rock, Paper, Scissors: each beats its predecessor. */
  function Index(s: Shape): int {
    match s
    case Rock => 0
    case Paper => 1
    case Scissors => 2
  }

  /** The outcome table inside `Shape::play_against`: how the round ends for `me`. */
  function RoundOutcome(me: Shape, opponent: Shape): Outcome {
    match me
    case Rock => (match opponent case Rock => Draw case Paper => Lose case Scissors => Win)
    case Paper => (match opponent case Rock => Win case Paper => Draw case Scissors => Lose)
    case Scissors => (match opponent case Rock => Lose case Paper => Win case Scissors => Draw)
  }

  /** The table is the cyclic rule: equal shapes draw, and a shape beats exactly the one
      before it in the cycle. */
  lemma RoundOutcomeIsCyclic(me: Shape, opponent: Shape)
    ensures RoundOutcome(me, opponent) ==
            if me == opponent then Draw
            else if (Index(me) - Index(opponent)) % 3 == 1 then Win
            else Lose
  {
  }

  /** The table is antisymmetric: `a` beats `b` exactly when `b` loses to `a`, so the two
      players' outcome scores always add up to 6. */
  lemma RoundOutcomeAntisymmetric(a: Shape, b: Shape)
    ensures RoundOutcome(a, b) == Win <==> RoundOutcome(b, a) == Lose
    ensures RoundOutcome(a, b) == Draw <==> a == b
    ensures OutcomeScore(RoundOutcome(a, b)) + OutcomeScore(RoundOutcome(b, a)) == 6
  {
  }

  /** `Shape::play_against`: the score of one round for `me`. */
  function PlayAgainst(me: Shape, opponent: Shape): (r: nat)
    ensures 1 <= r <= 9
    ensures r - ShapeScore(me) == OutcomeScore(RoundOutcome(me, opponent))
  {
    ShapeScore(me) + OutcomeScore(RoundOutcome(me, opponent))
  }

  /** A round's score tells which shape we played and how the round ended. */
  lemma PlayAgainstDetermines(a: Shape, oa: Shape, b: Shape, ob: Shape)
    requires PlayAgainst(a, oa) == PlayAgainst(b, ob)
    ensures a == b && RoundOutcome(a, oa) == RoundOutcome(b, ob)
  {
  }

  /** `Shape::get_shape_for_desired_outcome`, called on the opponent's shape: the shape that
      makes the round end as desired. */
  function ShapeForOutcome(opponent: Shape, desired: Outcome): (r: Shape)
    ensures RoundOutcome(r, opponent) == desired
  {
    match desired
    case Win => (match opponent case Rock => Paper case Paper => Scissors case Scissors => Rock)
    case Draw => opponent
    case Lose => (match opponent case Rock => Scissors case Paper => Rock case Scissors => Paper)
  }

  /** The chosen shape is the only one that reaches the desired outcome; a draw repeats the
      opponent's shape and a win and a loss use the two other shapes. */
  lemma ShapeForOutcomeUnique(opponent: Shape, desired: Outcome, s: Shape)
    ensures RoundOutcome(s, opponent) == desired <==> s == ShapeForOutcome(opponent, desired)
    ensures ShapeForOutcome(opponent, desired) == opponent <==> desired == Draw
    ensures ShapeForOutcome(opponent, Win) != ShapeForOutcome(opponent, Lose)
  {
  }

  /** `Shape::get_desired_outcome_against`: the receiver picks the shape for the desired
      outcome against itself, and that shape is then played against `opponent`; the desired
      outcome is reached when the receiver is the opponent. (Nothing in the source calls it.) */
  function DesiredOutcomeAgainst(receiver: Shape, opponent: Shape, desired: Outcome): (r: nat)
    ensures 1 <= r <= 9
    ensures receiver == opponent ==>
              r == ShapeScore(ShapeForOutcome(opponent, desired)) + OutcomeScore(desired)
  {
    PlayAgainst(ShapeForOutcome(receiver, desired), opponent)
  }

  // ---------------------------------------------------------------------------
  // Parsing
  // ---------------------------------------------------------------------------

  /** `parse_rounds`: trim the input, split it into lines and parse each; the result is `None`
      when some line's parse panics. */
  function ParseRounds<R>(input: string, parse: string -> Option<R>): (r: Option<seq<R>>)
    ensures r.Some? <==> forall i :: 0 <= i < |Lines(input)| ==> parse(Lines(input)[i]).Some?
    ensures r.Some? ==> |r.value| == |Lines(input)|
    ensures r.Some? ==> forall i :: 0 <= i < |r.value| ==> r.value[i] == parse(Lines(input)[i]).value
  {
    ParseAll(Lines(input), parse)
  }

  /** One part-1 line: the opponent's shape and ours, from the first two words. */
  function ParseRoundPart1(line: string): Option<(Shape, Shape)> {
    var words := Words(line);
    if |words| < 2 then None
    else
      match (ShapeFromStr(words[0]), ShapeFromStr(words[1]))
      case (Some(opponent), Some(ours)) => Some((opponent, ours))
      case _ => None
  }

  /** One part-2 line: the opponent's shape, the second word read as a shape, and the second
      word read as an outcome (both conversions happen, so the second word must be X, Y or Z). */
  function ParseRoundPart2(line: string): Option<(Shape, Shape, Outcome)> {
    var words := Words(line);
    if |words| < 2 then None
    else
      match (ShapeFromStr(words[0]), ShapeFromStr(words[1]), OutcomeFromStr(words[1]))
      case (Some(opponent), Some(ours), Some(desired)) => Some((opponent, ours, desired))
      case _ => None
  }

  /** `prepare_input_for_part_1`: one round per line of the trimmed input; a line without two
      shape letters makes the whole input fail. */
  function PrepareInputPart1(input: string): (r: Option<seq<(Shape, Shape)>>)
    ensures r.Some? <==> forall i :: 0 <= i < |Lines(input)| ==> ParseRoundPart1(Lines(input)[i]).Some?
    ensures r.Some? ==> |r.value| == |Lines(input)|
    ensures r.Some? ==> forall i :: 0 <= i < |r.value| ==> r.value[i] == ParseRoundPart1(Lines(input)[i]).value
  {
    ParseRounds(input, ParseRoundPart1)
  }

  /** `prepare_input_for_part_2`: likewise, with the second letter read both as a shape and as
      an outcome. */
  function PrepareInputPart2(input: string): (r: Option<seq<(Shape, Shape, Outcome)>>)
    ensures r.Some? <==> forall i :: 0 <= i < |Lines(input)| ==> ParseRoundPart2(Lines(input)[i]).Some?
    ensures r.Some? ==> |r.value| == |Lines(input)|
    ensures r.Some? ==> forall i :: 0 <= i < |r.value| ==> r.value[i] == ParseRoundPart2(Lines(input)[i]).value
  {
    ParseRounds(input, ParseRoundPart2)
  }

  /** The strategy-guide line for a part-1 round. */
  function RenderRound(round: (Shape, Shape)): string {
    OpponentLetter(round.0) + " " + ResponseLetter(round.1)
  }

  /** A strategy guide: one rendered round per line. */
  function RenderGuide(rounds: seq<(Shape, Shape)>): string
    requires |rounds| >= 1
  {
    Join(seq(|rounds|, i requires 0 <= i < |rounds| => RenderRound(rounds[i])), '\n')
  }

  /** Each rendered line parses back into its round. */
  lemma ParseRoundPart1OfRender(round: (Shape, Shape))
    ensures ParseRoundPart1(RenderRound(round)) == Some(round)
  {
    var a := OpponentLetter(round.0);
    var b := ResponseLetter(round.1);
    assert RenderRound(round) == Join([a, b], ' ');
    WordsJoin([a, b]);
  }

  /** A rendered line is three characters, a letter, a space and a letter. */
  lemma RenderRoundShape(round: (Shape, Shape))
    ensures var line := RenderRound(round);
            && |line| == 3 && '\n' !in line
            && !IsWhitespace(line[0]) && !IsWhitespace(line[2])
  {
  }

  /** Parsing a rendered guide gives its rounds back. */
  lemma PrepareInputPart1OfRender(rounds: seq<(Shape, Shape)>)
    requires |rounds| >= 1
    ensures PrepareInputPart1(RenderGuide(rounds)) == Some(rounds)
  {
    var lines := seq(|rounds|, i requires 0 <= i < |rounds| => RenderRound(rounds[i]));
    var text := RenderGuide(rounds);
    forall i | 0 <= i < |lines|
      ensures |lines[i]| == 3 && '\n' !in lines[i]
      ensures !IsWhitespace(lines[i][0]) && !IsWhitespace(lines[i][2])
      ensures ParseRoundPart1(lines[i]) == Some(rounds[i])
    {
      RenderRoundShape(rounds[i]);
      ParseRoundPart1OfRender(rounds[i]);
    }
    JoinEnds(lines, '\n');
    TrimUnchanged(text);
    SplitJoin(lines, '\n');
    assert Lines(text) == lines;
    ParseAllOf(lines, ParseRoundPart1, rounds);
  }

  // ---------------------------------------------------------------------------
  // The two answers
  // ---------------------------------------------------------------------------

  /** The part-1 total: each round scored with our shape against the opponent's. */
  function Part1Score(rounds: seq<(Shape, Shape)>): (r: nat)
    ensures |rounds| <= r <= 9 * |rounds|
  {
    if |rounds| == 0 then 0
    else PlayAgainst(rounds[0].1, rounds[0].0) + Part1Score(rounds[1..])
  }

  /** The part-2 total: each round scored with the shape that reaches the desired outcome. */
  function Part2Score(rounds: seq<(Shape, Shape, Outcome)>): (r: nat)
    ensures |rounds| <= r <= 9 * |rounds|
  {
    if |rounds| == 0 then 0
    else
      var (opponent, _, desired) := rounds[0];
      PlayAgainst(ShapeForOutcome(opponent, desired), opponent) + Part2Score(rounds[1..])
  }

  /** The rounds part 2 actually plays: the opponent's shape against the chosen shape. */
  function ChosenRounds(rounds: seq<(Shape, Shape, Outcome)>): (r: seq<(Shape, Shape)>)
    ensures |r| == |rounds|
    ensures forall i :: 0 <= i < |r| ==> r[i].0 == rounds[i].0
    ensures forall i :: 0 <= i < |r| ==> RoundOutcome(r[i].1, r[i].0) == rounds[i].2
  {
    seq(|rounds|, i requires 0 <= i < |rounds| =>
      (rounds[i].0, ShapeForOutcome(rounds[i].0, rounds[i].2)))
  }

  /** Part 2 is part 1 played with the chosen shapes, and its outcome points are exactly those
      of the desired outcomes. */
  lemma {:induction false} Part2IsPart1OfChosen(rounds: seq<(Shape, Shape, Outcome)>)
    ensures Part2Score(rounds) == Part1Score(ChosenRounds(rounds))
  {
    if |rounds| > 0 {
      Part2IsPart1OfChosen(rounds[1..]);
      assert ChosenRounds(rounds)[1..] == ChosenRounds(rounds[1..]);
    }
  }

  /** `part_1`. */
  function Part1(input: string): (r: nat)
    requires PrepareInputPart1(input).Some?
    ensures var n := |PrepareInputPart1(input).value|; n <= r <= 9 * n
  {
    Part1Score(PrepareInputPart1(input).value)
  }

  /** `part_2`. */
  function Part2(input: string): (r: nat)
    requires PrepareInputPart2(input).Some?
    ensures var n := |PrepareInputPart2(input).value|; n <= r <= 9 * n
  {
    Part2Score(PrepareInputPart2(input).value)
  }

  // ---------------------------------------------------------------------------
  // The example of the test module
  // ---------------------------------------------------------------------------

  const Example: string := "A Y\nB X\nC Z\n"

  lemma ExampleTrim()
    ensures Trim(Example) == "A Y\nB X\nC Z"
  {
    assert Example == "A Y\nB X\nC Z" + "\n";
    TrimTrailingNewline("A Y\nB X\nC Z");
  }

  lemma ExampleLines()
    ensures Lines(Example) == ["A Y", "B X", "C Z"]
  {
    ExampleTrim();
    assert "A Y\nB X\nC Z" == Join(["A Y", "B X", "C Z"], '\n');
    SplitJoin(["A Y", "B X", "C Z"], '\n');
  }

  /** A line of two one-letter words parses into the shapes those letters name. */
  lemma LetterRoundPart1(line: string, a: string, b: string, x: Shape, y: Shape)
    requires |a| == 1 && |b| == 1 && NoWhitespace(a) && NoWhitespace(b) && line == a + " " + b
    requires ShapeFromStr(a) == Some(x) && ShapeFromStr(b) == Some(y)
    ensures ParseRoundPart1(line) == Some((x, y))
  {
    assert line == Join([a, b], ' ');
    WordsJoin([a, b]);
  }

  /** A line of two one-letter words parses into the shapes and the outcome they name. */
  lemma LetterRoundPart2(line: string, a: string, b: string, x: Shape, y: Shape, z: Outcome)
    requires |a| == 1 && |b| == 1 && NoWhitespace(a) && NoWhitespace(b) && line == a + " " + b
    requires ShapeFromStr(a) == Some(x) && ShapeFromStr(b) == Some(y) && OutcomeFromStr(b) == Some(z)
    ensures ParseRoundPart2(line) == Some((x, y, z))
  {
    assert line == Join([a, b], ' ');
    WordsJoin([a, b]);
  }

  lemma ExampleRound0Part1()
    ensures ParseRoundPart1("A Y") == Some((Rock, Paper))
  {
    LetterRoundPart1("A Y", "A", "Y", Rock, Paper);
  }

  lemma ExampleRound0Part2()
    ensures ParseRoundPart2("A Y") == Some((Rock, Paper, Draw))
  {
    LetterRoundPart2("A Y", "A", "Y", Rock, Paper, Draw);
  }

  lemma ExampleRound1Part1()
    ensures ParseRoundPart1("B X") == Some((Paper, Rock))
  {
    LetterRoundPart1("B X", "B", "X", Paper, Rock);
  }

  lemma ExampleRound1Part2()
    ensures ParseRoundPart2("B X") == Some((Paper, Rock, Lose))
  {
    LetterRoundPart2("B X", "B", "X", Paper, Rock, Lose);
  }

  lemma ExampleRound2Part1()
    ensures ParseRoundPart1("C Z") == Some((Scissors, Scissors))
  {
    LetterRoundPart1("C Z", "C", "Z", Scissors, Scissors);
  }

  lemma ExampleRound2Part2()
    ensures ParseRoundPart2("C Z") == Some((Scissors, Scissors, Win))
  {
    LetterRoundPart2("C Z", "C", "Z", Scissors, Scissors, Win);
  }

  lemma ExampleRoundsPart1()
    ensures ParseRoundPart1("A Y") == Some((Rock, Paper))
    ensures ParseRoundPart1("B X") == Some((Paper, Rock))
    ensures ParseRoundPart1("C Z") == Some((Scissors, Scissors))
  {
    ExampleRound0Part1();
    ExampleRound1Part1();
    ExampleRound2Part1();
  }

  lemma ExampleRoundsPart2()
    ensures ParseRoundPart2("A Y") == Some((Rock, Paper, Draw))
    ensures ParseRoundPart2("B X") == Some((Paper, Rock, Lose))
    ensures ParseRoundPart2("C Z") == Some((Scissors, Scissors, Win))
  {
    ExampleRound0Part2();
    ExampleRound1Part2();
    ExampleRound2Part2();
  }

  /** Three lines that each parse give their three values. */
  lemma ParseThree<R>(input: string, parse: string -> Option<R>, x0: R, x1: R, x2: R)
    requires |Lines(input)| == 3
    requires parse(Lines(input)[0]) == Some(x0) && parse(Lines(input)[1]) == Some(x1)
    requires parse(Lines(input)[2]) == Some(x2)
    ensures ParseRounds(input, parse) == Some([x0, x1, x2])
  {
    var r := ParseRounds(input, parse);
    assert r.Some? && |r.value| == 3;
    assert r.value[0] == x0 && r.value[1] == x1 && r.value[2] == x2;
    assert r.value == [x0, x1, x2];
  }

  /** The example parses as in `test_prepare_input_for_part_1` and scores 15. */
  lemma ExamplePart1()
    ensures PrepareInputPart1(Example) == Some([(Rock, Paper), (Paper, Rock), (Scissors, Scissors)])
    ensures Part1(Example) == 15
  {
    ExampleLines();
    ExampleRoundsPart1();
    ParseThree(Example, ParseRoundPart1, (Rock, Paper), (Paper, Rock), (Scissors, Scissors));
    var rounds := [(Rock, Paper), (Paper, Rock), (Scissors, Scissors)];
    assert Part1Score(rounds[2..]) == 6;
    assert Part1Score(rounds[1..]) == 7;
  }

  /** The example parses as in `test_prepare_input_for_part_2` and scores 12. */
  lemma ExamplePart2()
    ensures PrepareInputPart2(Example)
            == Some([(Rock, Paper, Draw), (Paper, Rock, Lose), (Scissors, Scissors, Win)])
    ensures Part2(Example) == 12
  {
    ExampleLines();
    ExampleRoundsPart2();
    ParseThree(Example, ParseRoundPart2, (Rock, Paper, Draw), (Paper, Rock, Lose), (Scissors, Scissors, Win));
    var rounds := [(Rock, Paper, Draw), (Paper, Rock, Lose), (Scissors, Scissors, Win)];
    assert Part2Score(rounds[2..]) == 7;
    assert Part2Score(rounds[1..]) == 8;
  }
}

=== FILE: day3.dfy ===
/** Day 3: rucksack reorganisation (src/day3/mod.rs). Part 1 splits each line into two halves
    (compartments), part 2 takes the lines three at a time; in both the item found in every
    compartment of a group is scored by its priority and the priorities are added up. */
module Day3 {
  import opened Wrappers
  import opened Text

  // ---------------------------------------------------------------------------
  // Priorities
  // ---------------------------------------------------------------------------

  predicate IsLetter(c: char) {
    'a' <= c <= 'z' || 'A' <= c <= 'Z'
  }

  /** `get_priority`: the position in `a..=z` and then `A..=Z`, counted from 1. It panics on
      any other character, hence the precondition. */
  function Priority(c: char): (p: nat)
    requires IsLetter(c)
    ensures 1 <= p <= 52
    ensures 'a' <= c <= 'z' <==> p <= 26
  {
    if 'a' <= c <= 'z' then 1 + (c as int - 'a' as int) else 27 + (c as int - 'A' as int)
  }

  /** The letter of a priority. */
  function LetterOf(p: nat): (c: char)
    requires 1 <= p <= 52
    ensures IsLetter(c)
  {
    if p <= 26 then ('a' as int + p - 1) as char else ('A' as int + p - 27) as char
  }

  /** Priorities and letters correspond one to one. */
  lemma PriorityInverse(c: char, p: nat)
    requires IsLetter(c) && 1 <= p <= 52
    ensures LetterOf(Priority(c)) == c
    ensures Priority(LetterOf(p)) == p
  {
  }

  // ---------------------------------------------------------------------------
  // Preparing the input
  // ---------------------------------------------------------------------------

  /** `prepare_input_part_1`: each line split at half its length into two compartments; an odd
      length puts the extra character in the second. */
  function PrepareInputPart1(input: string): (r: seq<seq<string>>)
    ensures |r| == |Lines(input)|
    ensures forall k :: 0 <= k < |r| ==> |r[k]| == 2
    ensures forall k :: 0 <= k < |r| ==> r[k][0] + r[k][1] == Lines(input)[k]
    ensures forall k :: 0 <= k < |r| ==> |r[k][0]| == |Lines(input)[k]| / 2
  {
    var lines := Lines(input);
    seq(|lines|, k requires 0 <= k < |lines| =>
      var line := lines[k];
      [line[..|line| / 2], line[|line| / 2..]])
  }

  /** `prepare_input_part_2`: consecutive lines three at a time. `chunks(3)` leaves a shorter
      last chunk whose indexing panics unless the number of lines is a multiple of 3. */
  function PrepareInputPart2(input: string): (r: seq<seq<string>>)
    requires |Lines(input)| % 3 == 0
    ensures 3 * |r| == |Lines(input)|
    ensures forall k :: 0 <= k < |r| ==> r[k] == Lines(input)[3 * k..3 * k + 3]
  {
    var lines := Lines(input);
    seq(|lines| / 3, k requires 0 <= k < |lines| / 3 => lines[3 * k..3 * k + 3])
  }

  /** The groups one after the other. */
  function Flatten(groups: seq<seq<string>>): seq<string> {
    if |groups| == 0 then [] else groups[0] + Flatten(groups[1..])
  }

  /** The groups of part 2 are the lines, in order. */
  lemma {:induction false} PrepareInputPart2Flattens(input: string)
    requires |Lines(input)| % 3 == 0
    ensures Flatten(PrepareInputPart2(input)) == Lines(input)
  {
    ChunksFlatten(Lines(input));
  }

  lemma {:induction false} ChunksFlatten(lines: seq<string>)
    requires |lines| % 3 == 0
    ensures Flatten(seq(|lines| / 3, k requires 0 <= k < |lines| / 3 => lines[3 * k..3 * k + 3])) == lines
    decreases |lines|
  {
    var groups := seq(|lines| / 3, k requires 0 <= k < |lines| / 3 => lines[3 * k..3 * k + 3]);
    if |lines| > 0 {
      var rest := lines[3..];
      var restGroups := seq(|rest| / 3, k requires 0 <= k < |rest| / 3 => rest[3 * k..3 * k + 3]);
      ChunksFlatten(rest);
      assert groups[1..] == restGroups by {
        forall k | 0 <= k < |restGroups|
          ensures groups[1..][k] == restGroups[k]
        {
          assert rest[3 * k..3 * k + 3] == lines[3 * (k + 1)..3 * (k + 1) + 3];
        }
      }
      assert lines == lines[..3] + rest;
    }
  }

  // ---------------------------------------------------------------------------
  // Finding the common item
  // ---------------------------------------------------------------------------

  /** `c` occurs in every compartment. */
  predicate InAll(compartments: seq<string>, c: char) {
    forall k :: 0 <= k < |compartments| ==> c in compartments[k]
  }

  /** `compartment_has_char`. */
  function CompartmentHasChar(compartments: seq<string>, c: char): (r: Option<char>)
    ensures r.Some? <==> InAll(compartments, c)
    ensures r.Some? ==> r.value == c
  {
    if forall k :: 0 <= k < |compartments| ==> c in compartments[k] then Some(c) else None
  }

  /** The length of the shortest compartment: where `zip` stops. */
  function MinLength(compartments: seq<string>): (m: nat)
    requires |compartments| >= 1
    ensures forall k :: 0 <= k < |compartments| ==> m <= |compartments[k]|
    ensures exists k :: 0 <= k < |compartments| && m == |compartments[k]|
  {
    if |compartments| == 1 then |compartments[0]|
    else
      var m := MinLength(compartments[1..]);
      assert forall k :: 1 <= k < |compartments| ==> compartments[k] == compartments[1..][k - 1];
      if |compartments[0]| <= m then |compartments[0]| else m
  }

  /** The characters at position `i` of the compartments, in compartment order: one zipped
      tuple as `to_vec` lists it. */
  function Column(compartments: seq<string>, i: nat): (r: seq<char>)
    requires forall k :: 0 <= k < |compartments| ==> i < |compartments[k]|
    ensures |r| == |compartments|
    ensures forall k :: 0 <= k < |r| ==> r[k] == compartments[k][i]
  {
    seq(|compartments|, k requires 0 <= k < |compartments| => compartments[k][i])
  }

  /** The tuples from position `i` up to `m` one after the other. */
  function ScanFrom(compartments: seq<string>, i: nat, m: nat): seq<char>
    requires i <= m
    requires forall k :: 0 <= k < |compartments| ==> m <= |compartments[k]|
    decreases m - i
  {
    if i == m then [] else Column(compartments, i) + ScanFrom(compartments, i + 1, m)
  }

  /** The characters in the order the zipped tuples offer them: position 0 of every
      compartment, then position 1 of every compartment, up to the shortest length, where
      `zip` stops. */
  function ScanOrder(compartments: seq<string>): seq<char>
    requires |compartments| >= 1
  {
    ScanFrom(compartments, 0, MinLength(compartments))
  }

  /** Every character before the stopping point is scanned. */
  lemma {:induction false} ScanFromContains(compartments: seq<string>, i0: nat, m: nat, k: nat, i: nat)
    requires i0 <= i < m
    requires forall k' :: 0 <= k' < |compartments| ==> m <= |compartments[k']|
    requires k < |compartments|
    ensures compartments[k][i] in ScanFrom(compartments, i0, m)
    decreases i - i0
  {
    if i == i0 {
      assert Column(compartments, i)[k] == compartments[k][i];
    } else {
      ScanFromContains(compartments, i0 + 1, m, k, i);
    }
  }

  /** `find_map` with `compartment_has_char` over a sequence of candidates. */
  function FirstInAll(compartments: seq<string>, candidates: seq<char>): (r: Option<char>)
    ensures r.Some? ==> r.value in candidates && InAll(compartments, r.value)
    ensures r.None? <==> forall j :: 0 <= j < |candidates| ==> !InAll(compartments, candidates[j])
    ensures r.Some? ==> exists j :: 0 <= j < |candidates| && candidates[j] == r.value &&
                          forall j' :: 0 <= j' < j ==> !InAll(compartments, candidates[j'])
  {
    if |candidates| == 0 then None
    else
      match CompartmentHasChar(compartments, candidates[0])
      case Some(c) => Some(c)
      case None => FirstInAll(compartments, candidates[1..])
  }

  /** `get_common_item_part_1` (two compartments) and `get_common_item_part_2` (three). */
  function CommonItem(compartments: seq<string>): (r: Option<char>)
    requires |compartments| >= 1
    ensures r.Some? ==> InAll(compartments, r.value)
    ensures r.None? ==> forall c :: c in ScanOrder(compartments) ==> !InAll(compartments, c)
  {
    FirstInAll(compartments, ScanOrder(compartments))
  }

  /** The common item is found exactly when some character occurs in every compartment, and
      it is the first such character in the scan order: the shortest compartment is scanned
      in full, and a character in every compartment is in the shortest one. */
  lemma CommonItemIff(compartments: seq<string>)
    requires |compartments| >= 1
    ensures CommonItem(compartments).Some? <==> exists c :: InAll(compartments, c)
    ensures CommonItem(compartments).Some? ==> InAll(compartments, CommonItem(compartments).value)
    ensures var order := ScanOrder(compartments);
            CommonItem(compartments).Some? ==>
              exists j :: 0 <= j < |order| && order[j] == CommonItem(compartments).value &&
                forall j' :: 0 <= j' < j ==> !InAll(compartments, order[j'])
  {
    if c :| InAll(compartments, c) {
      var m := MinLength(compartments);
      var k :| 0 <= k < |compartments| && m == |compartments[k]|;
      assert c in compartments[k];
      var i :| 0 <= i < m && compartments[k][i] == c;
      ScanFromContains(compartments, 0, m, k, i);
      var candidates := ScanOrder(compartments);
      var j :| 0 <= j < |candidates| && candidates[j] == c;
      assert InAll(compartments, candidates[j]);
    }
  }

  /** Only a character in every compartment can be the common item, so a character that is
      the only one in every compartment is the common item. */
  lemma CommonItemUnique(compartments: seq<string>, c: char)
    requires |compartments| >= 1 && InAll(compartments, c)
    requires forall d :: InAll(compartments, d) ==> d == c
    ensures CommonItem(compartments) == Some(c)
  {
    CommonItemIff(compartments);
  }

  // ---------------------------------------------------------------------------
  // Summing the priorities
  // ---------------------------------------------------------------------------

  /** Every group has a common item and it is a letter (`unwrap` and `get_priority` do not
      panic). */
  predicate GroupScorable(group: seq<string>) {
    |group| >= 1 && CommonItem(group).Some? && IsLetter(CommonItem(group).value)
  }

  /** Every group is scorable. */
  predicate Scorable(groups: seq<seq<string>>) {
    forall k :: 0 <= k < |groups| ==> GroupScorable(groups[k])
  }

  /** The priority of a group's common item. */
  function GroupPriority(group: seq<string>): (p: nat)
    requires GroupScorable(group)
    ensures 1 <= p <= 52
  {
    Priority(CommonItem(group).value)
  }

  /** `sum_priorities`: the priorities of the common items added up. */
  function SumPriorities(groups: seq<seq<string>>): (r: nat)
    requires Scorable(groups)
    ensures |groups| <= r <= 52 * |groups|
  {
    if |groups| == 0 then 0
    else
      var rest := groups[..|groups| - 1];
      assert Scorable(rest) by {
        assert forall k :: 0 <= k < |rest| ==> rest[k] == groups[k];
      }
      SumPriorities(rest) + GroupPriority(groups[|groups| - 1])
  }

  /** Scorable groups stay scorable when joined. */
  lemma ScorableAppend(a: seq<seq<string>>, b: seq<seq<string>>)
    requires Scorable(a) && Scorable(b)
    ensures Scorable(a + b)
  {
    forall k | 0 <= k < |a + b|
      ensures GroupScorable((a + b)[k])
    {
      if k < |a| {
        assert (a + b)[k] == a[k];
      } else {
        assert (a + b)[k] == b[k - |a|];
      }
    }
  }

  /** A prefix of scorable groups is scorable. */
  lemma ScorablePrefix(g: seq<seq<string>>, n: nat)
    requires Scorable(g) && n <= |g|
    ensures Scorable(g[..n])
  {
    assert forall k :: 0 <= k < n ==> g[..n][k] == g[k];
  }

  /** The sum is that of all groups but the last, plus the last group's priority. */
  lemma SumPrioritiesLast(g: seq<seq<string>>)
    requires Scorable(g) && |g| > 0
    ensures Scorable(g[..|g| - 1])
    ensures SumPriorities(g) == SumPriorities(g[..|g| - 1]) + GroupPriority(g[|g| - 1])
  {
    ScorablePrefix(g, |g| - 1);
  }

  /** The sum over the groups splits at any point. */
  lemma {:induction false} SumPrioritiesAppend(a: seq<seq<string>>, b: seq<seq<string>>)
    requires Scorable(a) && Scorable(b)
    ensures Scorable(a + b)
    ensures SumPriorities(a + b) == SumPriorities(a) + SumPriorities(b)
    decreases |b|
  {
    ScorableAppend(a, b);
    if |b| == 0 {
      assert a + b == a;
    } else {
      var b', ab := b[..|b| - 1], a + b;
      SumPrioritiesLast(b);
      SumPrioritiesLast(ab);
      assert ab[..|ab| - 1] == a + b' && ab[|ab| - 1] == b[|b| - 1];
      SumPrioritiesAppend(a, b');
    }
  }

  /** `part_1`. */
  function Part1(groups: seq<seq<string>>): (r: nat)
    requires forall k :: 0 <= k < |groups| ==> |groups[k]| == 2
    requires Scorable(groups)
    ensures |groups| <= r <= 52 * |groups|
  {
    SumPriorities(groups)
  }

  /** `part_2`. */
  function Part2(groups: seq<seq<string>>): (r: nat)
    requires forall k :: 0 <= k < |groups| ==> |groups[k]| == 3
    requires Scorable(groups)
    ensures |groups| <= r <= 52 * |groups|
  {
    SumPriorities(groups)
  }

  // ---------------------------------------------------------------------------
  // The example of the test module
  // ---------------------------------------------------------------------------

  /** Every character the two compartments share is `c`. */
  lemma OnlyCommonOfTwo(a: string, b: string, c: char)
    requires forall i, j :: 0 <= i < |a| && 0 <= j < |b| && a[i] == b[j] ==> a[i] == c
    ensures forall d :: InAll([a, b], d) ==> d == c
  {
    forall d | InAll([a, b], d)
      ensures d == c
    {
      assert d in [a, b][0] && d in [a, b][1];
    }
  }

  /** Every character the three compartments share is `c`: the first two share only
      characters of `shared`, and the only one of those in the third is `c`. */
  lemma OnlyCommonOfThree(a: string, b: string, e: string, shared: set<char>, c: char)
    requires forall i, j :: 0 <= i < |a| && 0 <= j < |b| && a[i] == b[j] ==> a[i] in shared
    requires forall l :: 0 <= l < |e| && e[l] in shared ==> e[l] == c
    ensures forall d :: InAll([a, b, e], d) ==> d == c
  {
    forall d | InAll([a, b, e], d)
      ensures d == c
    {
      assert d in [a, b, e][0] && d in [a, b, e][1] && d in [a, b, e][2];
    }
  }

  /** The compartments of the example's lines. */
  const ExampleHalves: seq<seq<string>> := [
    ["vJrwpWtwJgWr", "hcsFMMfFFhFp"],
    ["jqHRNqRjqzjGDLGL", "rsFMfFZSrLrFZsSL"],
    ["PmmdzqPrV", "vPwwTWBwg"],
    ["wMqvLMZHhHMvwLH", "jbvcjnnSBnvTQFn"],
    ["ttgJtRGJ", "QctTZtZT"],
    ["CrZsJsPPZsGz", "wwsLwLmpwMDw"]
  ]

  /** The example's lines, each its two compartments one after the other. */
  const ExampleLines: seq<string> := seq(6, k requires 0 <= k < 6 => ExampleHalves[k][0] + ExampleHalves[k][1])

  const ExampleInput: string := Join(ExampleLines, '\n')

  lemma ExampleRucksack0()
    ensures CommonItem(ExampleHalves[0]) == Some('p')
  {
    var a := ExampleHalves[0][0];
    var b := ExampleHalves[0][1];
    assert a[0] == 'v' && a[1] == 'J' && a[2] == 'r' && a[3] == 'w' && a[4] == 'p' && a[5] == 'W';
    assert a[6] == 't' && a[7] == 'w' && a[8] == 'J' && a[9] == 'g' && a[10] == 'W' && a[11] == 'r';
    assert b[0] == 'h' && b[1] == 'c' && b[2] == 's' && b[3] == 'F' && b[4] == 'M' && b[5] == 'M';
    assert b[6] == 'f' && b[7] == 'F' && b[8] == 'F' && b[9] == 'h' && b[10] == 'F' && b[11] == 'p';
    OnlyCommonOfTwo(a, b, 'p');
    assert ExampleHalves[0] == [a, b];
    assert 'p' == a[4] && 'p' == b[11];
    CommonItemUnique(ExampleHalves[0], 'p');
  }

  lemma ExampleRucksack1()
    ensures CommonItem(ExampleHalves[1]) == Some('L')
  {
    var a := ExampleHalves[1][0];
    var b := ExampleHalves[1][1];
    assert a[0] == 'j' && a[1] == 'q' && a[2] == 'H' && a[3] == 'R' && a[4] == 'N' && a[5] == 'q';
    assert a[6] == 'R' && a[7] == 'j' && a[8] == 'q' && a[9] == 'z' && a[10] == 'j' && a[11] == 'G';
    assert a[12] == 'D' && a[13] == 'L' && a[14] == 'G' && a[15] == 'L';
    assert b[0] == 'r' && b[1] == 's' && b[2] == 'F' && b[3] == 'M' && b[4] == 'f' && b[5] == 'F';
    assert b[6] == 'Z' && b[7] == 'S' && b[8] == 'r' && b[9] == 'L' && b[10] == 'r' && b[11] == 'F';
    assert b[12] == 'Z' && b[13] == 's' && b[14] == 'S' && b[15] == 'L';
    OnlyCommonOfTwo(a, b, 'L');
    assert ExampleHalves[1] == [a, b];
    assert 'L' == a[13] && 'L' == b[9];
    CommonItemUnique(ExampleHalves[1], 'L');
  }

  lemma ExampleRucksack2()
    ensures CommonItem(ExampleHalves[2]) == Some('P')
  {
    var a := ExampleHalves[2][0];
    var b := ExampleHalves[2][1];
    assert a[0] == 'P' && a[1] == 'm' && a[2] == 'm' && a[3] == 'd' && a[4] == 'z' && a[5] == 'q';
    assert a[6] == 'P' && a[7] == 'r' && a[8] == 'V';
    assert b[0] == 'v' && b[1] == 'P' && b[2] == 'w' && b[3] == 'w' && b[4] == 'T' && b[5] == 'W';
    assert b[6] == 'B' && b[7] == 'w' && b[8] == 'g';
    OnlyCommonOfTwo(a, b, 'P');
    assert ExampleHalves[2] == [a, b];
    assert 'P' == a[0] && 'P' == b[1];
    CommonItemUnique(ExampleHalves[2], 'P');
  }

  lemma ExampleRucksack3()
    ensures CommonItem(ExampleHalves[3]) == Some('v')
  {
    var a := ExampleHalves[3][0];
    var b := ExampleHalves[3][1];
    assert a[0] == 'w' && a[1] == 'M' && a[2] == 'q' && a[3] == 'v' && a[4] == 'L' && a[5] == 'M';
    assert a[6] == 'Z' && a[7] == 'H' && a[8] == 'h' && a[9] == 'H' && a[10] == 'M' && a[11] == 'v';
    assert a[12] == 'w' && a[13] == 'L' && a[14] == 'H';
    assert b[0] == 'j' && b[1] == 'b' && b[2] == 'v' && b[3] == 'c' && b[4] == 'j' && b[5] == 'n';
    assert b[6] == 'n' && b[7] == 'S' && b[8] == 'B' && b[9] == 'n' && b[10] == 'v' && b[11] == 'T';
    assert b[12] == 'Q' && b[13] == 'F' && b[14] == 'n';
    OnlyCommonOfTwo(a, b, 'v');
    assert ExampleHalves[3] == [a, b];
    assert 'v' == a[3] && 'v' == b[2];
    CommonItemUnique(ExampleHalves[3], 'v');
  }

  lemma ExampleRucksack4()
    ensures CommonItem(ExampleHalves[4]) == Some('t')
  {
    var a := ExampleHalves[4][0];
    var b := ExampleHalves[4][1];
    assert a[0] == 't' && a[1] == 't' && a[2] == 'g' && a[3] == 'J' && a[4] == 't' && a[5] == 'R';
    assert a[6] == 'G' && a[7] == 'J';
    assert b[0] == 'Q' && b[1] == 'c' && b[2] == 't' && b[3] == 'T' && b[4] == 'Z' && b[5] == 't';
    assert b[6] == 'Z' && b[7] == 'T';
    OnlyCommonOfTwo(a, b, 't');
    assert ExampleHalves[4] == [a, b];
    assert 't' == a[0] && 't' == b[2];
    CommonItemUnique(ExampleHalves[4], 't');
  }

  lemma ExampleRucksack5()
    ensures CommonItem(ExampleHalves[5]) == Some('s')
  {
    var a := ExampleHalves[5][0];
    var b := ExampleHalves[5][1];
    assert a[0] == 'C' && a[1] == 'r' && a[2] == 'Z' && a[3] == 's' && a[4] == 'J' && a[5] == 's';
    assert a[6] == 'P' && a[7] == 'P' && a[8] == 'Z' && a[9] == 's' && a[10] == 'G' && a[11] == 'z';
    assert b[0] == 'w' && b[1] == 'w' && b[2] == 's' && b[3] == 'L' && b[4] == 'w' && b[5] == 'L';
    assert b[6] == 'm' && b[7] == 'p' && b[8] == 'w' && b[9] == 'M' && b[10] == 'D' && b[11] == 'w';
    OnlyCommonOfTwo(a, b, 's');
    assert ExampleHalves[5] == [a, b];
    assert 's' == a[3] && 's' == b[2];
    CommonItemUnique(ExampleHalves[5], 's');
  }

  lemma ExampleLinesFront()
    ensures ExampleLines[0] == "vJrwpWtwJgWrhcsFMMfFFhFp"
    ensures ExampleLines[1] == "jqHRNqRjqzjGDLGLrsFMfFZSrLrFZsSL"
    ensures ExampleLines[2] == "PmmdzqPrVvPwwTWBwg"
  {
  }

  lemma ExampleLinesBack()
    ensures ExampleLines[3] == "wMqvLMZHhHMvwLHjbvcjnnSBnvTQFn"
    ensures ExampleLines[4] == "ttgJtRGJQctTZtZT"
    ensures ExampleLines[5] == "CrZsJsPPZsGzwwsLwLmpwMDw"
  {
  }

  lemma ExampleLinesAre()
    ensures ExampleLines == ["vJrwpWtwJgWrhcsFMMfFFhFp", "jqHRNqRjqzjGDLGLrsFMfFZSrLrFZsSL", "PmmdzqPrVvPwwTWBwg", "wMqvLMZHhHMvwLHjbvcjnnSBnvTQFn", "ttgJtRGJQctTZtZT", "CrZsJsPPZsGzwwsLwLmpwMDw"]
  {
    ExampleLinesFront();
    ExampleLinesBack();
  }

  /** Pairs of equal characters through the sets of characters each string uses. */
  lemma SharedThroughSets(a: string, b: string, usedA: set<char>, usedB: set<char>, shared: set<char>)
    requires forall i :: 0 <= i < |a| ==> a[i] in usedA
    requires forall j :: 0 <= j < |b| ==> b[j] in usedB
    requires usedA * usedB <= shared
    ensures forall i, j :: 0 <= i < |a| && 0 <= j < |b| && a[i] == b[j] ==> a[i] in shared
  {
    forall i, j | 0 <= i < |a| && 0 <= j < |b| && a[i] == b[j]
      ensures a[i] in shared
    {
      assert a[i] in usedA * usedB;
    }
  }

  lemma ExampleLine0UsesFrom0(a: string)
    requires a == "vJrwpWtwJgWrhcsFMMfFFhFp"
    ensures forall i :: 0 <= i < 12 ==> a[i] in {'F', 'J', 'M', 'W', 'c', 'f', 'g', 'h', 'p', 'r', 's', 't', 'v', 'w'}
  {
    assert a[0] == 'v' && a[1] == 'J' && a[2] == 'r' && a[3] == 'w' && a[4] == 'p' && a[5] == 'W';
    assert a[6] == 't' && a[7] == 'w' && a[8] == 'J' && a[9] == 'g' && a[10] == 'W' && a[11] == 'r';
  }

  lemma ExampleLine0UsesFrom12(a: string)
    requires a == "vJrwpWtwJgWrhcsFMMfFFhFp"
    ensures forall i :: 12 <= i < 24 ==> a[i] in {'F', 'J', 'M', 'W', 'c', 'f', 'g', 'h', 'p', 'r', 's', 't', 'v', 'w'}
  {
    assert a[12] == 'h' && a[13] == 'c' && a[14] == 's' && a[15] == 'F' && a[16] == 'M' && a[17] == 'M';
    assert a[18] == 'f' && a[19] == 'F' && a[20] == 'F' && a[21] == 'h' && a[22] == 'F' && a[23] == 'p';
  }

  /** The letters line 0 of the example uses. */
  lemma ExampleLine0Uses(a: string)
    requires a == "vJrwpWtwJgWrhcsFMMfFFhFp"
    ensures forall i :: 0 <= i < |a| ==> a[i] in {'F', 'J', 'M', 'W', 'c', 'f', 'g', 'h', 'p', 'r', 's', 't', 'v', 'w'}
  {
    ExampleLine0UsesFrom0(a);
    ExampleLine0UsesFrom12(a);
  }

  lemma ExampleLine1UsesFrom0(a: string)
    requires a == "jqHRNqRjqzjGDLGLrsFMfFZSrLrFZsSL"
    ensures forall i :: 0 <= i < 12 ==> a[i] in {'D', 'F', 'G', 'H', 'L', 'M', 'N', 'R', 'S', 'Z', 'f', 'j', 'q', 'r', 's', 'z'}
  {
    assert a[0] == 'j' && a[1] == 'q' && a[2] == 'H' && a[3] == 'R' && a[4] == 'N' && a[5] == 'q';
    assert a[6] == 'R' && a[7] == 'j' && a[8] == 'q' && a[9] == 'z' && a[10] == 'j' && a[11] == 'G';
  }

  lemma ExampleLine1UsesFrom12(a: string)
    requires a == "jqHRNqRjqzjGDLGLrsFMfFZSrLrFZsSL"
    ensures forall i :: 12 <= i < 24 ==> a[i] in {'D', 'F', 'G', 'H', 'L', 'M', 'N', 'R', 'S', 'Z', 'f', 'j', 'q', 'r', 's', 'z'}
  {
    assert a[12] == 'D' && a[13] == 'L' && a[14] == 'G' && a[15] == 'L' && a[16] == 'r' && a[17] == 's';
    assert a[18] == 'F' && a[19] == 'M' && a[20] == 'f' && a[21] == 'F' && a[22] == 'Z' && a[23] == 'S';
  }

  lemma ExampleLine1UsesFrom24(a: string)
    requires a == "jqHRNqRjqzjGDLGLrsFMfFZSrLrFZsSL"
    ensures forall i :: 24 <= i < 32 ==> a[i] in {'D', 'F', 'G', 'H', 'L', 'M', 'N', 'R', 'S', 'Z', 'f', 'j', 'q', 'r', 's', 'z'}
  {
    assert a[24] == 'r' && a[25] == 'L' && a[26] == 'r' && a[27] == 'F' && a[28] == 'Z' && a[29] == 's';
    assert a[30] == 'S' && a[31] == 'L';
  }

  /** The letters line 1 of the example uses. */
  lemma ExampleLine1Uses(a: string)
    requires a == "jqHRNqRjqzjGDLGLrsFMfFZSrLrFZsSL"
    ensures forall i :: 0 <= i < |a| ==> a[i] in {'D', 'F', 'G', 'H', 'L', 'M', 'N', 'R', 'S', 'Z', 'f', 'j', 'q', 'r', 's', 'z'}
  {
    ExampleLine1UsesFrom0(a);
    ExampleLine1UsesFrom12(a);
    ExampleLine1UsesFrom24(a);
  }

  lemma ExampleLine2UsesFrom0(a: string)
    requires a == "PmmdzqPrVvPwwTWBwg"
    ensures forall i :: 0 <= i < 12 ==> a[i] in {'B', 'P', 'T', 'V', 'W', 'd', 'g', 'm', 'q', 'r', 'v', 'w', 'z'}
  {
    assert a[0] == 'P' && a[1] == 'm' && a[2] == 'm' && a[3] == 'd' && a[4] == 'z' && a[5] == 'q';
    assert a[6] == 'P' && a[7] == 'r' && a[8] == 'V' && a[9] == 'v' && a[10] == 'P' && a[11] == 'w';
  }

  lemma ExampleLine2UsesFrom12(a: string)
    requires a == "PmmdzqPrVvPwwTWBwg"
    ensures forall i :: 12 <= i < 18 ==> a[i] in {'B', 'P', 'T', 'V', 'W', 'd', 'g', 'm', 'q', 'r', 'v', 'w', 'z'}
  {
    assert a[12] == 'w' && a[13] == 'T' && a[14] == 'W' && a[15] == 'B' && a[16] == 'w' && a[17] == 'g';
  }

  /** The letters line 2 of the example uses. */
  lemma ExampleLine2Uses(a: string)
    requires a == "PmmdzqPrVvPwwTWBwg"
    ensures forall i :: 0 <= i < |a| ==> a[i] in {'B', 'P', 'T', 'V', 'W', 'd', 'g', 'm', 'q', 'r', 'v', 'w', 'z'}
  {
    ExampleLine2UsesFrom0(a);
    ExampleLine2UsesFrom12(a);
  }

  lemma ExampleLine3UsesFrom0(a: string)
    requires a == "wMqvLMZHhHMvwLHjbvcjnnSBnvTQFn"
    ensures forall i :: 0 <= i < 12 ==> a[i] in {'B', 'F', 'H', 'L', 'M', 'Q', 'S', 'T', 'Z', 'b', 'c', 'h', 'j', 'n', 'q', 'v', 'w'}
  {
    assert a[0] == 'w' && a[1] == 'M' && a[2] == 'q' && a[3] == 'v' && a[4] == 'L' && a[5] == 'M';
    assert a[6] == 'Z' && a[7] == 'H' && a[8] == 'h' && a[9] == 'H' && a[10] == 'M' && a[11] == 'v';
  }

  lemma ExampleLine3UsesFrom12(a: string)
    requires a == "wMqvLMZHhHMvwLHjbvcjnnSBnvTQFn"
    ensures forall i :: 12 <= i < 24 ==> a[i] in {'B', 'F', 'H', 'L', 'M', 'Q', 'S', 'T', 'Z', 'b', 'c', 'h', 'j', 'n', 'q', 'v', 'w'}
  {
    assert a[12] == 'w' && a[13] == 'L' && a[14] == 'H' && a[15] == 'j' && a[16] == 'b' && a[17] == 'v';
    assert a[18] == 'c' && a[19] == 'j' && a[20] == 'n' && a[21] == 'n' && a[22] == 'S' && a[23] == 'B';
  }

  lemma ExampleLine3UsesFrom24(a: string)
    requires a == "wMqvLMZHhHMvwLHjbvcjnnSBnvTQFn"
    ensures forall i :: 24 <= i < 30 ==> a[i] in {'B', 'F', 'H', 'L', 'M', 'Q', 'S', 'T', 'Z', 'b', 'c', 'h', 'j', 'n', 'q', 'v', 'w'}
  {
    assert a[24] == 'n' && a[25] == 'v' && a[26] == 'T' && a[27] == 'Q' && a[28] == 'F' && a[29] == 'n';
  }

  /** The letters line 3 of the example uses. */
  lemma ExampleLine3Uses(a: string)
    requires a == "wMqvLMZHhHMvwLHjbvcjnnSBnvTQFn"
    ensures forall i :: 0 <= i < |a| ==> a[i] in {'B', 'F', 'H', 'L', 'M', 'Q', 'S', 'T', 'Z', 'b', 'c', 'h', 'j', 'n', 'q', 'v', 'w'}
  {
    ExampleLine3UsesFrom0(a);
    ExampleLine3UsesFrom12(a);
    ExampleLine3UsesFrom24(a);
  }

  lemma ExampleLine4UsesFrom0(a: string)
    requires a == "ttgJtRGJQctTZtZT"
    ensures forall i :: 0 <= i < 12 ==> a[i] in {'G', 'J', 'Q', 'R', 'T', 'Z', 'c', 'g', 't'}
  {
    assert a[0] == 't' && a[1] == 't' && a[2] == 'g' && a[3] == 'J' && a[4] == 't' && a[5] == 'R';
    assert a[6] == 'G' && a[7] == 'J' && a[8] == 'Q' && a[9] == 'c' && a[10] == 't' && a[11] == 'T';
  }

  lemma ExampleLine4UsesFrom12(a: string)
    requires a == "ttgJtRGJQctTZtZT"
    ensures forall i :: 12 <= i < 16 ==> a[i] in {'G', 'J', 'Q', 'R', 'T', 'Z', 'c', 'g', 't'}
  {
    assert a[12] == 'Z' && a[13] == 't' && a[14] == 'Z' && a[15] == 'T';
  }

  /** The letters line 4 of the example uses. */
  lemma ExampleLine4Uses(a: string)
    requires a == "ttgJtRGJQctTZtZT"
    ensures forall i :: 0 <= i < |a| ==> a[i] in {'G', 'J', 'Q', 'R', 'T', 'Z', 'c', 'g', 't'}
  {
    ExampleLine4UsesFrom0(a);
    ExampleLine4UsesFrom12(a);
  }

  lemma ExampleLine5UsesFrom0(a: string)
    requires a == "CrZsJsPPZsGzwwsLwLmpwMDw"
    ensures forall i :: 0 <= i < 12 ==> a[i] in {'C', 'D', 'G', 'J', 'L', 'M', 'P', 'Z', 'm', 'p', 'r', 's', 'w', 'z'}
  {
    assert a[0] == 'C' && a[1] == 'r' && a[2] == 'Z' && a[3] == 's' && a[4] == 'J' && a[5] == 's';
    assert a[6] == 'P' && a[7] == 'P' && a[8] == 'Z' && a[9] == 's' && a[10] == 'G' && a[11] == 'z';
  }

  lemma ExampleLine5UsesFrom12(a: string)
    requires a == "CrZsJsPPZsGzwwsLwLmpwMDw"
    ensures forall i :: 12 <= i < 24 ==> a[i] in {'C', 'D', 'G', 'J', 'L', 'M', 'P', 'Z', 'm', 'p', 'r', 's', 'w', 'z'}
  {
    assert a[12] == 'w' && a[13] == 'w' && a[14] == 's' && a[15] == 'L' && a[16] == 'w' && a[17] == 'L';
    assert a[18] == 'm' && a[19] == 'p' && a[20] == 'w' && a[21] == 'M' && a[22] == 'D' && a[23] == 'w';
  }

  /** The letters line 5 of the example uses. */
  lemma ExampleLine5Uses(a: string)
    requires a == "CrZsJsPPZsGzwwsLwLmpwMDw"
    ensures forall i :: 0 <= i < |a| ==> a[i] in {'C', 'D', 'G', 'J', 'L', 'M', 'P', 'Z', 'm', 'p', 'r', 's', 'w', 'z'}
  {
    ExampleLine5UsesFrom0(a);
    ExampleLine5UsesFrom12(a);
  }

  lemma ExampleGroup0Pairs(a: string, b: string)
    requires a == "vJrwpWtwJgWrhcsFMMfFFhFp" && b == "jqHRNqRjqzjGDLGLrsFMfFZSrLrFZsSL"
    ensures forall i, j :: 0 <= i < |a| && 0 <= j < |b| && a[i] == b[j] ==> a[i] in {'F', 'M', 'f', 'r', 's'}
  {
    ExampleLine0Uses(a);
    ExampleLine1Uses(b);
    assert {'F', 'J', 'M', 'W', 'c', 'f', 'g', 'h', 'p', 'r', 's', 't', 'v', 'w'} * {'D', 'F', 'G', 'H', 'L', 'M', 'N', 'R', 'S', 'Z', 'f', 'j', 'q', 'r', 's', 'z'} <= {'F', 'M', 'f', 'r', 's'};
    SharedThroughSets(a, b, {'F', 'J', 'M', 'W', 'c', 'f', 'g', 'h', 'p', 'r', 's', 't', 'v', 'w'}, {'D', 'F', 'G', 'H', 'L', 'M', 'N', 'R', 'S', 'Z', 'f', 'j', 'q', 'r', 's', 'z'}, {'F', 'M', 'f', 'r', 's'});
  }

  lemma ExampleGroup0Third(e: string)
    requires e == "PmmdzqPrVvPwwTWBwg"
    ensures forall l :: 0 <= l < |e| && e[l] in {'F', 'M', 'f', 'r', 's'} ==> e[l] == 'r'
  {
    assert e[0] == 'P' && e[1] == 'm' && e[2] == 'm' && e[3] == 'd' && e[4] == 'z' && e[5] == 'q';
    assert e[6] == 'P' && e[7] == 'r' && e[8] == 'V' && e[9] == 'v' && e[10] == 'P' && e[11] == 'w';
    assert e[12] == 'w' && e[13] == 'T' && e[14] == 'W' && e[15] == 'B' && e[16] == 'w' && e[17] == 'g';
  }

  lemma ExampleGroup0()
    ensures CommonItem(ExampleLines[0..3]) == Some('r')
    ensures GroupScorable(ExampleLines[0..3]) && GroupPriority(ExampleLines[0..3]) == 18
  {
    ExampleLinesAre();
    var a, b, e := ExampleLines[0], ExampleLines[1], ExampleLines[2];
    ExampleGroup0Pairs(a, b);
    ExampleGroup0Third(e);
    OnlyCommonOfThree(a, b, e, {'F', 'M', 'f', 'r', 's'}, 'r');
    assert ExampleLines[0..3] == [a, b, e];
    assert a[2] == 'r' && b[16] == 'r' && e[7] == 'r';
    CommonItemUnique(ExampleLines[0..3], 'r');
  }

  lemma ExampleGroup1Pairs(a: string, b: string)
    requires a == "wMqvLMZHhHMvwLHjbvcjnnSBnvTQFn" && b == "ttgJtRGJQctTZtZT"
    ensures forall i, j :: 0 <= i < |a| && 0 <= j < |b| && a[i] == b[j] ==> a[i] in {'Q', 'T', 'Z', 'c'}
  {
    ExampleLine3Uses(a);
    ExampleLine4Uses(b);
    assert {'B', 'F', 'H', 'L', 'M', 'Q', 'S', 'T', 'Z', 'b', 'c', 'h', 'j', 'n', 'q', 'v', 'w'} * {'G', 'J', 'Q', 'R', 'T', 'Z', 'c', 'g', 't'} <= {'Q', 'T', 'Z', 'c'};
    SharedThroughSets(a, b, {'B', 'F', 'H', 'L', 'M', 'Q', 'S', 'T', 'Z', 'b', 'c', 'h', 'j', 'n', 'q', 'v', 'w'}, {'G', 'J', 'Q', 'R', 'T', 'Z', 'c', 'g', 't'}, {'Q', 'T', 'Z', 'c'});
  }

  lemma ExampleGroup1Third(e: string)
    requires e == "CrZsJsPPZsGzwwsLwLmpwMDw"
    ensures forall l :: 0 <= l < |e| && e[l] in {'Q', 'T', 'Z', 'c'} ==> e[l] == 'Z'
  {
    ExampleGroup1ThirdHalf(e[..12]);
    ExampleGroup1ThirdHalf(e[12..]);
    forall l | 0 <= l < |e| && e[l] in {'Q', 'T', 'Z', 'c'}
      ensures e[l] == 'Z'
    {
      if l < 12 {
        assert e[l] == e[..12][l];
      } else {
        assert e[l] == e[12..][l - 12];
      }
    }
  }

  /** Each half of the third line of group 1 holds none of Q, T and c. */
  lemma ExampleGroup1ThirdHalf(h: string)
    requires h == "CrZsJsPPZsGz" || h == "wwsLwLmpwMDw"
    ensures forall l :: 0 <= l < |h| && h[l] in {'Q', 'T', 'Z', 'c'} ==> h[l] == 'Z'
  {
    assert |h| == 12;
    assert h[0] != 'Q' && h[0] != 'T' && h[0] != 'c';
  }

  lemma ExampleGroup1()
    ensures CommonItem(ExampleLines[3..6]) == Some('Z')
    ensures GroupScorable(ExampleLines[3..6]) && GroupPriority(ExampleLines[3..6]) == 52
  {
    ExampleLinesAre();
    var a, b, e := ExampleLines[3], ExampleLines[4], ExampleLines[5];
    ExampleGroup1Pairs(a, b);
    ExampleGroup1Third(e);
    OnlyCommonOfThree(a, b, e, {'Q', 'T', 'Z', 'c'}, 'Z');
    assert ExampleLines[3..6] == [a, b, e];
    assert a[6] == 'Z' && b[12] == 'Z' && e[2] == 'Z';
    CommonItemUnique(ExampleLines[3..6], 'Z');
  }

  /** A concatenation splits back at the length of its first part. */
  lemma ConcatSplits(a: string, b: string, c: string, d: string)
    requires a + b == c + d && |a| == |c|
    ensures a == c && b == d
  {
    assert a == (a + b)[..|a|] && c == (c + d)[..|c|];
    assert b == (a + b)[|a|..] && d == (c + d)[|c|..];
  }

  lemma ExampleLineBreaks(k: nat)
    requires k < 6
    ensures |ExampleLines[k]| > 0 && '\n' !in ExampleLines[k]
  {
    ExampleLinesAre();
    if k == 0 {
      ExampleLine0Uses(ExampleLines[0]);
    } else if k == 1 {
      ExampleLine1Uses(ExampleLines[1]);
    } else if k == 2 {
      ExampleLine2Uses(ExampleLines[2]);
    } else if k == 3 {
      ExampleLine3Uses(ExampleLines[3]);
    } else if k == 4 {
      ExampleLine4Uses(ExampleLines[4]);
    } else {
      ExampleLine5Uses(ExampleLines[5]);
    }
  }

  /** The example splits into its six lines. */
  lemma ExampleInputLines()
    ensures Lines(ExampleInput) == ExampleLines
  {
    forall k | 0 <= k < |ExampleLines|
      ensures |ExampleLines[k]| > 0 && '\n' !in ExampleLines[k]
    {
      ExampleLineBreaks(k);
    }
    ExampleLinesAre();
    LinesOfJoin(ExampleLines);
  }

  lemma ExampleHalvesSplit(r: seq<seq<string>>, k: nat)
    requires k < 6 && |r| == 6 && |r[k]| == 2
    requires r[k][0] + r[k][1] == ExampleLines[k] && |r[k][0]| == |ExampleLines[k]| / 2
    ensures r[k] == ExampleHalves[k]
  {
    ConcatSplits(r[k][0], r[k][1], ExampleHalves[k][0], ExampleHalves[k][1]);
  }

  /** `test_prepare_input`: the compartments of the example. */
  lemma ExamplePrepareInputPart1()
    ensures PrepareInputPart1(ExampleInput) == ExampleHalves
  {
    ExampleInputLines();
    var r := PrepareInputPart1(ExampleInput);
    forall k | 0 <= k < 6
      ensures r[k] == ExampleHalves[k]
    {
      ExampleHalvesSplit(r, k);
    }
  }

  /** Six lines make two groups of three. */
  lemma PrepareInputPart2OfSix(input: string)
    requires |Lines(input)| == 6
    ensures PrepareInputPart2(input) == [Lines(input)[0..3], Lines(input)[3..6]]
  {
  }

  /** The groups of three of the example. */
  lemma ExamplePrepareInputPart2()
    ensures |Lines(ExampleInput)| % 3 == 0
    ensures PrepareInputPart2(ExampleInput) == [ExampleLines[0..3], ExampleLines[3..6]]
  {
    ExampleInputLines();
    PrepareInputPart2OfSix(ExampleInput);
  }

  /** The running sums of six groups with priorities 16, 38, 42, 22, 20 and 19. */
  lemma ExamplePart1Sum(gs: seq<seq<string>>)
    requires |gs| == 6 && Scorable(gs)
    requires GroupPriority(gs[0]) == 16 && GroupPriority(gs[1]) == 38 && GroupPriority(gs[2]) == 42
    requires GroupPriority(gs[3]) == 22 && GroupPriority(gs[4]) == 20 && GroupPriority(gs[5]) == 19
    ensures SumPriorities(gs) == 157
  {
    assert SumPriorities(gs[..1]) == 16 by {
      assert gs[..1][..0] == [];
    }
    assert SumPriorities(gs[..2]) == 54 by {
      assert gs[..2][..1] == gs[..1];
    }
    assert SumPriorities(gs[..3]) == 96 by {
      assert gs[..3][..2] == gs[..2];
    }
    assert SumPriorities(gs[..4]) == 118 by {
      assert gs[..4][..3] == gs[..3];
    }
    assert SumPriorities(gs[..5]) == 138 by {
      assert gs[..5][..4] == gs[..4];
    }
    assert gs[..5] == gs[..|gs| - 1];
  }

  /** The priorities of the example's common items: p, L, P, v, t and s. */
  lemma ExampleRucksackScore0()
    ensures GroupScorable(ExampleHalves[0]) && GroupPriority(ExampleHalves[0]) == 16
  {
    ExampleRucksack0();
  }

  lemma ExampleRucksackScore1()
    ensures GroupScorable(ExampleHalves[1]) && GroupPriority(ExampleHalves[1]) == 38
  {
    ExampleRucksack1();
  }

  lemma ExampleRucksackScore2()
    ensures GroupScorable(ExampleHalves[2]) && GroupPriority(ExampleHalves[2]) == 42
  {
    ExampleRucksack2();
  }

  lemma ExampleRucksackScore3()
    ensures GroupScorable(ExampleHalves[3]) && GroupPriority(ExampleHalves[3]) == 22
  {
    ExampleRucksack3();
  }

  lemma ExampleRucksackScore4()
    ensures GroupScorable(ExampleHalves[4]) && GroupPriority(ExampleHalves[4]) == 20
  {
    ExampleRucksack4();
  }

  lemma ExampleRucksackScore5()
    ensures GroupScorable(ExampleHalves[5]) && GroupPriority(ExampleHalves[5]) == 19
  {
    ExampleRucksack5();
  }

  lemma ExampleRucksackPriorities()
    ensures Scorable(ExampleHalves)
    ensures GroupPriority(ExampleHalves[0]) == 16 && GroupPriority(ExampleHalves[1]) == 38
    ensures GroupPriority(ExampleHalves[2]) == 42 && GroupPriority(ExampleHalves[3]) == 22
    ensures GroupPriority(ExampleHalves[4]) == 20 && GroupPriority(ExampleHalves[5]) == 19
  {
    ExampleRucksackScore0();
    ExampleRucksackScore1();
    ExampleRucksackScore2();
    ExampleRucksackScore3();
    ExampleRucksackScore4();
    ExampleRucksackScore5();
    forall k | 0 <= k < |ExampleHalves|
      ensures GroupScorable(ExampleHalves[k])
    {
      assert k == 0 || k == 1 || k == 2 || k == 3 || k == 4 || k == 5;
    }
  }

  /** `test_part_1` on the example: 157. */
  lemma ExamplePart1()
    ensures Scorable(PrepareInputPart1(ExampleInput))
    ensures Part1(PrepareInputPart1(ExampleInput)) == 157
  {
    ExamplePrepareInputPart1();
    ExampleRucksackPriorities();
    ExamplePart1Sum(ExampleHalves);
  }

  /** The sum over two groups. */
  lemma SumPrioritiesOfTwo(gs: seq<seq<string>>)
    requires |gs| == 2 && Scorable(gs)
    ensures SumPriorities(gs) == GroupPriority(gs[0]) + GroupPriority(gs[1])
  {
    SumPrioritiesLast(gs);
    SumPrioritiesLast(gs[..1]);
    assert gs[..1][..0] == [];
  }

  /** `test_part_2` on the example: 70. */
  lemma ExamplePart2()
    ensures |Lines(ExampleInput)| % 3 == 0
    ensures Scorable(PrepareInputPart2(ExampleInput))
    ensures Part2(PrepareInputPart2(ExampleInput)) == 70
  {
    ExamplePrepareInputPart2();
    ExampleGroup0();
    ExampleGroup1();
    SumPrioritiesOfTwo([ExampleLines[0..3], ExampleLines[3..6]]);
  }
}

=== FILE: day4.dfy ===
/** Day 4: pairs of inclusive section-id ranges (src/day4/mod.rs). Each line "a-b,c-d" is a
    group of two assignments; part 1 counts the groups in which one range includes the other,
    part 2 the groups whose ranges overlap. */
module Day4 {
  import opened Wrappers
  import opened Text
  import opened Sequences

  /** `Intersection`: the relation a group is checked for. */
  datatype Intersection = Overlap | Includes

  /** `Assignment`: the inclusive range of ids `start..=end` (empty when start > end). */
  datatype Assignment = Assignment(start: int, end: int)

  /** `AssignmentGroup`. */
  type AssignmentGroup = seq<Assignment>

  predicate InRange(a: Assignment, id: int) {
    a.start <= id <= a.end
  }

  // ---------------------------------------------------------------------------
  // Parsing
  // ---------------------------------------------------------------------------

  /** One assignment "a-b": every '-'-separated piece is parsed as an `i32` (all of them, as
      `collect` forces), and the first two are the range. A number outside the `i32` range
      fails the parse. */
  function ParseAssignment(s: string): (r: Option<Assignment>)
    ensures var parts := Split(s, '-');
            r.Some? <==> |parts| >= 2 && forall i :: 0 <= i < |parts| ==> ParseI32(parts[i]).Some?
    ensures r.Some? ==> r.value == Assignment(ParseI32(Split(s, '-')[0]).value,
                                              ParseI32(Split(s, '-')[1]).value)
  {
    var parts := Split(s, '-');
    match ParseAll(parts, ParseI32)
    case None => None
    case Some(ids) => if |ids| < 2 then None else Some(Assignment(ids[0], ids[1]))
  }

  /** One line: its ','-separated assignments, each of which must parse. */
  function ParseGroup(line: string): (r: Option<AssignmentGroup>)
    ensures var parts := Split(line, ',');
            r.Some? ==> |r.value| == |parts| && forall i :: 0 <= i < |parts| ==> ParseAssignment(parts[i]).Some?
  {
    ParseAll(Split(line, ','), ParseAssignment)
  }

  /** `prepare_input`: one group per line of the trimmed input; a line that does not parse
      makes the whole input fail, as its `unwrap` panics. */
  function PrepareInput(input: string): (r: Option<seq<AssignmentGroup>>)
    ensures r.Some? <==> forall i :: 0 <= i < |Lines(input)| ==> ParseGroup(Lines(input)[i]).Some?
    ensures r.Some? ==> |r.value| == |Lines(input)|
    ensures r.Some? ==> forall i :: 0 <= i < |r.value| ==> r.value[i] == ParseGroup(Lines(input)[i]).value
  {
    ParseAll(Lines(input), ParseGroup)
  }

  /** The text of an assignment with non-negative ids. */
  function RenderAssignment(a: Assignment): string
    requires a.start >= 0 && a.end >= 0
  {
    NatToString(a.start) + "-" + NatToString(a.end)
  }

  /** The line of a group of two assignments. */
  function RenderGroup(g: AssignmentGroup): string
    requires |g| == 2 && forall i :: 0 <= i < 2 ==> g[i].start >= 0 && g[i].end >= 0
  {
    RenderAssignment(g[0]) + "," + RenderAssignment(g[1])
  }

  /** A rendered assignment parses back. */
  lemma ParseAssignmentOfRender(a: Assignment)
    requires a.start >= 0 && a.end >= 0 && IsI32(a.start) && IsI32(a.end)
    ensures ParseAssignment(RenderAssignment(a)) == Some(a)
    ensures |RenderAssignment(a)| > 0 && ',' !in RenderAssignment(a) && '\n' !in RenderAssignment(a)
    ensures IsDigit(RenderAssignment(a)[0])
    ensures IsDigit(RenderAssignment(a)[|RenderAssignment(a)| - 1])
  {
    var x := NatToString(a.start);
    var y := NatToString(a.end);
    assert RenderAssignment(a) == Join([x, y], '-');
    SplitJoin([x, y], '-');
    ParseI32RoundTrip(a.start);
    ParseI32RoundTrip(a.end);
    assert ParseI32(x) == Some(a.start);
    assert ParseI32(y) == Some(a.end);
    ParseAllOf([x, y], ParseI32, [a.start, a.end]);
  }

  /** A rendered group parses back. */
  lemma ParseGroupOfRender(g: AssignmentGroup)
    requires |g| == 2 && forall i :: 0 <= i < 2 ==> g[i].start >= 0 && g[i].end >= 0
    requires forall i :: 0 <= i < 2 ==> IsI32(g[i].start) && IsI32(g[i].end)
    ensures ParseGroup(RenderGroup(g)) == Some(g)
    ensures |RenderGroup(g)| > 0 && '\n' !in RenderGroup(g)
    ensures IsDigit(RenderGroup(g)[0]) && IsDigit(RenderGroup(g)[|RenderGroup(g)| - 1])
  {
    var x := RenderAssignment(g[0]);
    var y := RenderAssignment(g[1]);
    ParseAssignmentOfRender(g[0]);
    ParseAssignmentOfRender(g[1]);
    assert RenderGroup(g) == Join([x, y], ',');
    SplitJoin([x, y], ',');
    ParseAllOf([x, y], ParseAssignment, g);
  }

  /** The input text of a list of groups: one rendered group per line. */
  function RenderInput(groups: seq<AssignmentGroup>): string
    requires |groups| >= 1
    requires forall k :: 0 <= k < |groups| ==> |groups[k]| == 2
    requires forall k, i :: 0 <= k < |groups| && 0 <= i < 2 ==> groups[k][i].start >= 0 && groups[k][i].end >= 0
  {
    Join(seq(|groups|, k requires 0 <= k < |groups| => RenderGroup(groups[k])), '\n')
  }

  /** Every rendered line reads back as its group and is a clean line of digits at both ends. */
  lemma RenderedLines(groups: seq<AssignmentGroup>, lines: seq<string>)
    requires forall k :: 0 <= k < |groups| ==> |groups[k]| == 2
    requires forall k, i :: 0 <= k < |groups| && 0 <= i < 2 ==> groups[k][i].start >= 0 && groups[k][i].end >= 0
    requires forall k, i :: 0 <= k < |groups| && 0 <= i < 2 ==> IsI32(groups[k][i].start) && IsI32(groups[k][i].end)
    requires |lines| == |groups| && forall k :: 0 <= k < |lines| ==> lines[k] == RenderGroup(groups[k])
    ensures forall k :: 0 <= k < |lines| ==> ParseGroup(lines[k]) == Some(groups[k])
    ensures forall k :: 0 <= k < |lines| ==> |lines[k]| > 0 && '\n' !in lines[k]
    ensures forall k :: 0 <= k < |lines| ==> IsDigit(lines[k][0]) && IsDigit(lines[k][|lines[k]| - 1])
  {
    forall k | 0 <= k < |lines|
      ensures ParseGroup(lines[k]) == Some(groups[k])
      ensures |lines[k]| > 0 && '\n' !in lines[k]
      ensures IsDigit(lines[k][0]) && IsDigit(lines[k][|lines[k]| - 1])
    {
      ParseGroupOfRender(groups[k]);
    }
  }

  /** `prepare_input` reads back the groups of a rendered input. */
  lemma PrepareInputOfRender(groups: seq<AssignmentGroup>)
    requires |groups| >= 1
    requires forall k :: 0 <= k < |groups| ==> |groups[k]| == 2
    requires forall k, i :: 0 <= k < |groups| && 0 <= i < 2 ==> groups[k][i].start >= 0 && groups[k][i].end >= 0
    requires forall k, i :: 0 <= k < |groups| && 0 <= i < 2 ==> IsI32(groups[k][i].start) && IsI32(groups[k][i].end)
    ensures PrepareInput(RenderInput(groups)) == Some(groups)
  {
    var lines := seq(|groups|, k requires 0 <= k < |groups| => RenderGroup(groups[k]));
    RenderedLines(groups, lines);
    LinesOfRendered(groups, lines);
    ParseAllOf(lines, ParseGroup, groups);
  }

  /** The lines of a rendered input are the rendered groups. */
  lemma LinesOfRendered(groups: seq<AssignmentGroup>, lines: seq<string>)
    requires |groups| >= 1
    requires forall k :: 0 <= k < |groups| ==> |groups[k]| == 2
    requires forall k, i :: 0 <= k < |groups| && 0 <= i < 2 ==> groups[k][i].start >= 0 && groups[k][i].end >= 0
    requires lines == seq(|groups|, k requires 0 <= k < |groups| => RenderGroup(groups[k]))
    requires forall k :: 0 <= k < |lines| ==> |lines[k]| > 0 && '\n' !in lines[k]
    requires forall k :: 0 <= k < |lines| ==> IsDigit(lines[k][0]) && IsDigit(lines[k][|lines[k]| - 1])
    ensures Lines(RenderInput(groups)) == lines
  {
    var text := RenderInput(groups);
    JoinEnds(lines, '\n');
    TrimUnchanged(text);
    SplitJoin(lines, '\n');
  }

  // ---------------------------------------------------------------------------
  // Sorting a group and testing it
  // ---------------------------------------------------------------------------

  /** `(start - end).abs()`. */
  function Width(a: Assignment): int {
    if a.start >= a.end then a.start - a.end else a.end - a.start
  }

  /** `sort_assignment_group`: a stable sort of the group into non-increasing width. */
  function SortAssignmentGroup(g: AssignmentGroup): (r: AssignmentGroup)
    ensures |r| == |g|
    ensures multiset(r) == multiset(g)
    ensures forall i, j :: 0 <= i < j < |r| ==> Width(r[i]) >= Width(r[j])
  {
    SortDescBy(g, Width)
  }

  /** For a pair the sort swaps exactly when the second range is strictly wider. */
  lemma SortPair(a: Assignment, b: Assignment)
    ensures SortAssignmentGroup([a, b]) == if Width(b) > Width(a) then [b, a] else [a, b]
  {
    assert [a, b][1..] == [b];
    assert [b][1..] == [];
  }

  /** `second_set.all(|id| first_set.contains(&id))`: every id of `second` lies in `first`. */
  function IncludesAll(first: Assignment, second: Assignment): (b: bool)
    ensures b <==> forall id :: InRange(second, id) ==> InRange(first, id)
  {
    if second.start > second.end then true
    else
      assert InRange(second, second.start) && InRange(second, second.end);
      first.start <= second.start && second.end <= first.end
  }

  /** `second_set.any(|id| first_set.contains(&id))`: some id of `second` lies in `first`. */
  function OverlapsAny(first: Assignment, second: Assignment): (b: bool)
    ensures b <==> exists id :: InRange(second, id) && InRange(first, id)
  {
    var lo := if first.start >= second.start then first.start else second.start;
    var hi := if first.end <= second.end then first.end else second.end;
    assert lo <= hi ==> InRange(second, lo) && InRange(first, lo);
    lo <= hi
  }

  /** The filter of `check_for_intersection` for one group of exactly two assignments. */
  function GroupMatches(g: AssignmentGroup, kind: Intersection): bool
    requires |g| == 2
  {
    var sorted := SortAssignmentGroup(g);
    match kind
    case Includes => IncludesAll(sorted[0], sorted[1])
    case Overlap => OverlapsAny(sorted[0], sorted[1])
  }

  /** `check_for_intersection`: how many groups match; every group must hold exactly two
      assignments (the `try_into` of the source panics otherwise). */
  function CheckForIntersection(groups: seq<AssignmentGroup>, kind: Intersection): (r: nat)
    requires forall k :: 0 <= k < |groups| ==> |groups[k]| == 2
    ensures r <= |groups|
  {
    CountWhere(groups, Matcher(kind))
  }

  /** `GroupMatches` as a total predicate on groups of two. */
  function Matcher(kind: Intersection): AssignmentGroup -> bool {
    g => |g| == 2 && GroupMatches(g, kind)
  }

  /** The count is all of the groups exactly when every group matches, and none exactly when
      no group does. */
  lemma CheckForIntersectionExtremes(groups: seq<AssignmentGroup>, kind: Intersection)
    requires forall k :: 0 <= k < |groups| ==> |groups[k]| == 2
    ensures CheckForIntersection(groups, kind) == |groups|
            <==> forall k :: 0 <= k < |groups| ==> GroupMatches(groups[k], kind)
    ensures CheckForIntersection(groups, kind) == 0
            <==> forall k :: 0 <= k < |groups| ==> !GroupMatches(groups[k], kind)
  {
    CountWhereExtremes(groups, Matcher(kind));
  }

  /** A well-formed range lists its ids from start to end. */
  predicate WellFormed(a: Assignment) {
    a.start <= a.end
  }

  /** After the sort, "the narrower range lies in the wider one" is the same as "one of the two
      ranges contains the other". */
  lemma IncludesIffOneContainsOther(a: Assignment, b: Assignment)
    requires WellFormed(a) && WellFormed(b)
    ensures GroupMatches([a, b], Includes) <==> IncludesAll(a, b) || IncludesAll(b, a)
  {
    SortPair(a, b);
  }

  /** Whatever the sort does, the overlap test asks whether the two ranges share an id. */
  lemma OverlapIffShared(a: Assignment, b: Assignment)
    ensures GroupMatches([a, b], Overlap) <==> exists id :: InRange(a, id) && InRange(b, id)
  {
    SortPair(a, b);
  }

  /** For well-formed ranges inclusion implies overlap. */
  lemma IncludesImpliesOverlap(g: AssignmentGroup)
    requires |g| == 2 && WellFormed(g[0]) && WellFormed(g[1])
    ensures GroupMatches(g, Includes) ==> GroupMatches(g, Overlap)
  {
    assert g == [g[0], g[1]];
    SortPair(g[0], g[1]);
    var s := SortAssignmentGroup(g);
    if GroupMatches(g, Includes) {
      assert InRange(s[1], s[1].start);
    }
  }

  /** So part 1 never counts more groups than part 2. */
  lemma IncludesCountAtMostOverlapCount(groups: seq<AssignmentGroup>)
    requires forall k :: 0 <= k < |groups| ==> |groups[k]| == 2
    requires forall k :: 0 <= k < |groups| ==> WellFormed(groups[k][0]) && WellFormed(groups[k][1])
    ensures CheckForIntersection(groups, Includes) <= CheckForIntersection(groups, Overlap)
  {
    forall k | 0 <= k < |groups|
      ensures Matcher(Includes)(groups[k]) ==> Matcher(Overlap)(groups[k])
    {
      IncludesImpliesOverlap(groups[k]);
    }
    CountWhereMonotonic(groups, Matcher(Includes), Matcher(Overlap));
  }

  /** Every line of the input holds a group of two assignments. */
  predicate ValidInput(input: string) {
    && PrepareInput(input).Some?
    && forall k :: 0 <= k < |PrepareInput(input).value| ==> |PrepareInput(input).value[k]| == 2
  }

  /** `part_1`. */
  function Part1(input: string): (r: nat)
    requires ValidInput(input)
    ensures r <= |Lines(input)|
  {
    CheckForIntersection(PrepareInput(input).value, Includes)
  }

  /** `part_2`. */
  function Part2(input: string): (r: nat)
    requires ValidInput(input)
    ensures r <= |Lines(input)|
  {
    CheckForIntersection(PrepareInput(input).value, Overlap)
  }

  // ---------------------------------------------------------------------------
  // The examples of the test module
  // ---------------------------------------------------------------------------

  /** The example inputs, written as their lines joined by newlines. */
  const ExamplePart1Lines: seq<string> :=
    ["2-4,6-8", "2-3,4-5", "5-7,7-9", "2-8,3-7", "6-6,4-6", "2-6,4-8"]
  const ExamplePart1Input: string := Join(ExamplePart1Lines, '\n')
  const ExamplePart2Input: string := Join(ExamplePart1Lines[2..], '\n')

  function G(a: nat, b: nat, c: nat, d: nat): AssignmentGroup {
    [Assignment(a, b), Assignment(c, d)]
  }

  /** The groups of `test_prepare_input`. */
  const ExampleGroups: seq<AssignmentGroup> :=
    [G(2, 4, 6, 8), G(2, 3, 4, 5), G(5, 7, 7, 9), G(2, 8, 3, 7), G(6, 6, 4, 6), G(2, 6, 4, 8)]

  lemma ExampleLinesFront()
    ensures RenderGroup(G(2, 4, 6, 8)) == "2-4,6-8"
    ensures RenderGroup(G(2, 3, 4, 5)) == "2-3,4-5"
    ensures RenderGroup(G(5, 7, 7, 9)) == "5-7,7-9"
  {
  }

  lemma ExampleLinesBack()
    ensures RenderGroup(G(2, 8, 3, 7)) == "2-8,3-7"
    ensures RenderGroup(G(6, 6, 4, 6)) == "6-6,4-6"
    ensures RenderGroup(G(2, 6, 4, 8)) == "2-6,4-8"
  {
  }

  lemma ExampleLines()
    ensures RenderGroup(G(2, 4, 6, 8)) == "2-4,6-8"
    ensures RenderGroup(G(2, 3, 4, 5)) == "2-3,4-5"
    ensures RenderGroup(G(5, 7, 7, 9)) == "5-7,7-9"
    ensures RenderGroup(G(2, 8, 3, 7)) == "2-8,3-7"
    ensures RenderGroup(G(6, 6, 4, 6)) == "6-6,4-6"
    ensures RenderGroup(G(2, 6, 4, 8)) == "2-6,4-8"
  {
    ExampleLinesFront();
    ExampleLinesBack();
  }

  lemma ExampleRendersPart1()
    ensures RenderInput(ExampleGroups) == ExamplePart1Input
  {
    ExampleLines();
    var lines := ExamplePart1Lines;
    var rendered := seq(6, k requires 0 <= k < 6 => RenderGroup(ExampleGroups[k]));
    assert rendered[0] == lines[0] && rendered[1] == lines[1] && rendered[2] == lines[2];
    assert rendered[3] == lines[3] && rendered[4] == lines[4] && rendered[5] == lines[5];
    assert rendered == lines;
  }

  lemma ExampleRendersPart2()
    ensures RenderInput(ExampleGroups[2..]) == ExamplePart2Input
  {
    ExampleLines();
    var lines := ExamplePart1Lines[2..];
    var rendered := seq(4, k requires 0 <= k < 4 => RenderGroup(ExampleGroups[2..][k]));
    assert rendered[0] == lines[0] && rendered[1] == lines[1];
    assert rendered[2] == lines[2] && rendered[3] == lines[3];
    assert rendered == lines;
  }

  /** `test_prepare_input`, and `part_1` of the first example is 2. */
  lemma ExamplePart1()
    ensures PrepareInput(ExamplePart1Input) == Some(ExampleGroups)
    ensures ValidInput(ExamplePart1Input) && Part1(ExamplePart1Input) == 2
  {
    ExampleRendersPart1();
    PrepareInputOfRender(ExampleGroups);
    ExampleCounts();
  }

  /** `part_2` of the second example is 4. */
  lemma ExamplePart2()
    ensures ValidInput(ExamplePart2Input) && Part2(ExamplePart2Input) == 4
  {
    ExampleRendersPart2();
    PrepareInputOfRender(ExampleGroups[2..]);
    ExampleCounts();
  }

  /** Which example groups match: only 2-8,3-7 and 6-6,4-6 include, and all but the first two
      groups overlap. */
  lemma ExampleMatchesFront()
    ensures !GroupMatches(G(2, 4, 6, 8), Includes) && !GroupMatches(G(2, 4, 6, 8), Overlap)
    ensures !GroupMatches(G(2, 3, 4, 5), Includes) && !GroupMatches(G(2, 3, 4, 5), Overlap)
    ensures !GroupMatches(G(5, 7, 7, 9), Includes) && GroupMatches(G(5, 7, 7, 9), Overlap)
  {
    SortPair(Assignment(2, 4), Assignment(6, 8));
    SortPair(Assignment(2, 3), Assignment(4, 5));
    SortPair(Assignment(5, 7), Assignment(7, 9));
  }

  lemma ExampleMatchesBack()
    ensures GroupMatches(G(2, 8, 3, 7), Includes) && GroupMatches(G(2, 8, 3, 7), Overlap)
    ensures GroupMatches(G(6, 6, 4, 6), Includes) && GroupMatches(G(6, 6, 4, 6), Overlap)
    ensures !GroupMatches(G(2, 6, 4, 8), Includes) && GroupMatches(G(2, 6, 4, 8), Overlap)
  {
    SortPair(Assignment(2, 8), Assignment(3, 7));
    SortPair(Assignment(6, 6), Assignment(4, 6));
    SortPair(Assignment(2, 6), Assignment(4, 8));
  }

  /** The example's groups, one by one. */
  lemma ExampleGroupsAre(gs: seq<AssignmentGroup>)
    requires gs == ExampleGroups
    ensures |gs| == 6
    ensures gs[0] == G(2, 4, 6, 8) && gs[1] == G(2, 3, 4, 5) && gs[2] == G(5, 7, 7, 9)
    ensures gs[3] == G(2, 8, 3, 7) && gs[4] == G(6, 6, 4, 6) && gs[5] == G(2, 6, 4, 8)
  {
  }

  /** Which example groups count for part 1. */
  lemma ExampleIncludes(gs: seq<AssignmentGroup>)
    requires gs == ExampleGroups
    ensures !Matcher(Includes)(gs[0]) && !Matcher(Includes)(gs[1]) && !Matcher(Includes)(gs[2])
    ensures Matcher(Includes)(gs[3]) && Matcher(Includes)(gs[4]) && !Matcher(Includes)(gs[5])
  {
    ExampleGroupsAre(gs);
    ExampleMatchesFront();
    ExampleMatchesBack();
  }

  /** Which example groups count for part 2. */
  lemma ExampleOverlaps(gs: seq<AssignmentGroup>)
    requires gs == ExampleGroups
    ensures Matcher(Overlap)(gs[2]) && Matcher(Overlap)(gs[3])
    ensures Matcher(Overlap)(gs[4]) && Matcher(Overlap)(gs[5])
  {
    ExampleGroupsAre(gs);
    ExampleMatchesFront();
    ExampleMatchesBack();
  }

  /** `ExampleMatchesFront` and `ExampleMatchesBack` phrased through the counting predicates. */
  lemma ExampleMatchers(gs: seq<AssignmentGroup>)
    requires gs == ExampleGroups
    ensures !Matcher(Includes)(gs[0]) && !Matcher(Includes)(gs[1]) && !Matcher(Includes)(gs[2])
    ensures Matcher(Includes)(gs[3]) && Matcher(Includes)(gs[4]) && !Matcher(Includes)(gs[5])
    ensures Matcher(Overlap)(gs[2]) && Matcher(Overlap)(gs[3])
    ensures Matcher(Overlap)(gs[4]) && Matcher(Overlap)(gs[5])
  {
    ExampleIncludes(gs);
    ExampleOverlaps(gs);
  }

  lemma ExampleCounts()
    ensures CheckForIntersection(ExampleGroups, Includes) == 2
    ensures CheckForIntersection(ExampleGroups[2..], Overlap) == 4
  {
    var gs := ExampleGroups;
    ExampleMatchers(gs);
    ExampleCountSteps(gs, Matcher(Includes), Matcher(Overlap));
  }

  lemma ExampleCountSteps(gs: seq<AssignmentGroup>, inc: AssignmentGroup -> bool, ovl: AssignmentGroup -> bool)
    requires |gs| == 6
    requires !inc(gs[0]) && !inc(gs[1]) && !inc(gs[2]) && inc(gs[3]) && inc(gs[4]) && !inc(gs[5])
    requires ovl(gs[2]) && ovl(gs[3]) && ovl(gs[4]) && ovl(gs[5])
    ensures CountWhere(gs, inc) == 2 && CountWhere(gs[2..], ovl) == 4
  {
    assert CountWhere(gs[5..], inc) == 0;
    assert CountWhere(gs[4..], inc) == 1;
    assert CountWhere(gs[3..], inc) == 2;
    assert CountWhere(gs[2..], inc) == 2;
    assert CountWhere(gs[1..], inc) == 2;
    assert CountWhere(gs[5..], ovl) == 1;
    assert CountWhere(gs[4..], ovl) == 2;
    assert CountWhere(gs[3..], ovl) == 3;
  }
}

=== FILE: day5.dfy ===
/** Day 5: supply stacks (src/day5/mod.rs). A drawing of crate stacks and a list of
    `move N from A to B` instructions; the crane of part 1 moves crates one at a time (the
    moved block ends up reversed), the crane of part 2 moves the block at once (it keeps its
    order). The answer is the top crate of every stack. A stack's crates are listed top first. */
module Day5 {
  import opened Wrappers
  import opened Text
  import opened Sequences

  // ---------------------------------------------------------------------------
  // Stacks
  // ---------------------------------------------------------------------------

  /** `Stack`: `crates[0]` is the top crate. */
  datatype Stack = Stack(id: nat, crates: seq<char>)

  /** `Stack::push`: the new crate goes on top. */
  function Push(s: Stack, c: char): (r: Stack)
    ensures r.id == s.id && |r.crates| == |s.crates| + 1
    ensures r.crates[0] == c && r.crates[1..] == s.crates
  {
    Stack(s.id, [c] + s.crates)
  }

  /** `Stack::pop`: the top crate, taken off; nothing for an empty stack. (The `position`
      search in the source finds the top crate itself whenever there is one.) */
  function Pop(s: Stack): (r: (Option<char>, Stack))
    ensures r.0.None? <==> |s.crates| == 0
    ensures r.0.None? ==> r.1 == s
    ensures r.0.Some? ==> r.0.value == s.crates[0] && r.1 == Stack(s.id, s.crates[1..])
  {
    if |s.crates| == 0 then (None, s) else (Some(s.crates[0]), Stack(s.id, s.crates[1..]))
  }

  /** Popping undoes pushing. */
  lemma PopPush(s: Stack, c: char)
    ensures Pop(Push(s, c)) == (Some(c), s)
  {
  }

  /** Pushing the popped crate back undoes popping. */
  lemma PushPop(s: Stack)
    requires |s.crates| > 0
    ensures Push(Pop(s).1, Pop(s).0.value) == s
  {
  }

  /** `(0..n).filter_map(|_| stack.pop())`: `n` pops, keeping the crates they return, and the
      stack they leave. */
  function PopMany(s: Stack, n: nat): (r: (seq<char>, Stack))
    ensures r.1.id == s.id
    decreases n
  {
    if n == 0 then ([], s)
    else
      var popped := Pop(s);
      var rest := PopMany(popped.1, n - 1);
      (if popped.0.Some? then [popped.0.value] + rest.0 else rest.0, rest.1)
  }

  /** `n` pops return the top `n` crates, top first, and leave the rest. */
  lemma {:induction false} PopManyTakesTop(s: Stack, n: nat)
    requires n <= |s.crates|
    ensures PopMany(s, n) == (s.crates[..n], Stack(s.id, s.crates[n..]))
    decreases n
  {
    if n > 0 {
      var t := s.crates[1..];
      PopManyTakesTop(Stack(s.id, t), n - 1);
      assert t[..n - 1] == s.crates[1..n] && t[n - 1..] == s.crates[n..];
      assert [s.crates[0]] + s.crates[1..n] == s.crates[..n];
    }
  }

  /** Popping at least as often as there are crates returns them all and empties the stack;
      the extra pops return nothing. */
  lemma {:induction false} PopManyEmpties(s: Stack, n: nat)
    requires n >= |s.crates|
    ensures PopMany(s, n) == (s.crates, Stack(s.id, []))
    decreases n
  {
    if n > 0 {
      PopManyEmpties(Pop(s).1, n - 1);
      if |s.crates| > 0 {
        assert [s.crates[0]] + s.crates[1..] == s.crates;
      }
    } else {
      assert s == Stack(s.id, []);
    }
  }

  // ---------------------------------------------------------------------------
  // Instructions
  // ---------------------------------------------------------------------------

  /** `Instruction`: move `count` crates from stack `from` to stack `to` (numbered from 1). */
  datatype Instruction = Instruction(count: nat, from: nat, to: nat)

  /** `s.parse::<u8>()`: a value that does not fit in a byte is an error. */
  function ParseByte(s: string): (r: Option<nat>)
    ensures r.Some? <==> ParseUnsigned(s).Some? && ParseUnsigned(s).value < 256
    ensures r.Some? ==> r.value == ParseUnsigned(s).value
  {
    match ParseUnsigned(s)
    case Some(v) => if v < 256 then Some(v) else None
    case None => None
  }

  /** The trimmed pieces of a split on a string (`split(sep).map(str::trim)`). */
  function SplitTrimmed(s: string, sep: string): (r: seq<string>)
    requires |sep| > 0
    ensures |r| == |SplitOn(s, sep)|
    ensures forall i :: 0 <= i < |r| ==> r[i] == Trim(SplitOn(s, sep)[i])
  {
    var pieces := SplitOn(s, sep);
    seq(|pieces|, i requires 0 <= i < |pieces| => Trim(pieces[i]))
  }

  /** `Instruction::from`. Indexing a missing piece and `unwrap` on a failed parse panic in
      the source; both are `None` here. */
  function ParseInstruction(line: string): (r: Option<Instruction>)
    ensures |SplitOn(line, "from")| < 2 ==> r.None?
    ensures r.Some? ==> r.value.count < 256 && r.value.from < 256 && r.value.to < 256
  {
    var split := SplitTrimmed(line, "from");
    if |split| < 2 then None
    else
      var fromTo := SplitTrimmed(split[1], "to");
      if |fromTo| < 2 then None
      else
        var count := ParseByte(Replace(split[0], "move ", ""));
        var from := ParseByte(fromTo[0]);
        var to := ParseByte(Trim(Replace(fromTo[1], "to ", "")));
        if count.Some? && from.Some? && to.Some? then
          Some(Instruction(count.value, from.value, to.value))
        else None
  }

  /** The text of an instruction, as the puzzle writes it. */
  function RenderInstruction(i: Instruction): string {
    "move " + NatToString(i.count) + " from " + NatToString(i.from) + " to " + NatToString(i.to)
  }

  /** `parse_instructions`: one instruction per line of the trimmed text. */
  function ParseInstructions(input: string): (r: Option<seq<Instruction>>)
    ensures r.Some? <==> forall i :: 0 <= i < |Lines(input)| ==> ParseInstruction(Lines(input)[i]).Some?
    ensures r.Some? ==> |r.value| == |Lines(input)|
    ensures r.Some? ==> forall i :: 0 <= i < |r.value| ==> r.value[i] == ParseInstruction(Lines(input)[i]).value
  {
    ParseAll(Lines(input), ParseInstruction)
  }

  // ---------------------------------------------------------------------------
  // Reading an instruction back
  // ---------------------------------------------------------------------------

  /** A string without the first character of `sep` holds no occurrence of `sep`. */
  lemma NoMatchInWithoutFirst(s: string, sep: string)
    requires |sep| > 0 && sep[0] !in s
    ensures NoMatchIn(s, sep)
  {
    forall i | 0 <= i <= |s|
      ensures !OccursAt(s, sep, i)
    {
      if i + |sep| <= |s| {
        assert s[i..i + |sep|][0] == s[i] && s[i] in s;
      }
    }
  }

  /** Nor does an occurrence of `sep` start inside it when `sep` follows it. */
  lemma NoMatchBeforeWithoutFirst(p: string, sep: string)
    requires |sep| > 0 && sep[0] !in p
    ensures NoMatchBefore(p, sep)
  {
    forall i | 0 <= i < |p|
      ensures !OccursAt(p + sep, sep, i)
    {
      if i + |sep| <= |p + sep| {
        assert (p + sep)[i..i + |sep|][0] == p[i] && p[i] in p;
      }
    }
  }

  /** Two strings without the first character of `sep`, joined by it, split back into both. */
  lemma SplitAround(a: string, sep: string, b: string)
    requires |sep| > 0 && sep[0] !in a && sep[0] !in b
    ensures SplitOn(a + sep + b, sep) == [a, b]
  {
    NoMatchBeforeWithoutFirst(a, sep);
    NoMatchInWithoutFirst(b, sep);
    SplitOnAfterPiece(a, sep, b);
    SplitOnSinglePiece(b, sep);
  }

  /** A non-empty string that starts and ends with a non-blank character. */
  predicate Plain(s: string) {
    |s| > 0 && !IsWhitespace(s[0]) && !IsWhitespace(s[|s| - 1])
  }

  /** Trimming a plain string with a single space on either side. */
  lemma TrimSpaced(s: string)
    requires Plain(s)
    ensures Trim(s + " ") == s && Trim(" " + s) == s
  {
    assert TrimStart(s + " ") == s + " ";
    assert (s + " ")[..|s|] == s;
    assert TrimEnd(s + " ") == TrimEnd(s);
    assert (" " + s)[1..] == s;
    assert TrimStart(" " + s) == TrimStart(s);
    TrimUnchanged(s);
  }

  /** A decimal rendering is a plain run of digits without the letters of the keywords. */
  lemma NumberText(n: nat)
    ensures var t := NatToString(n);
            Plain(t) && 'f' !in t && 't' !in t && 'm' !in t && Trim(t) == t
  {
    var t := NatToString(n);
    assert forall i :: 0 <= i < |t| ==> IsDigit(t[i]);
    TrimUnchanged(t);
  }

  /** Splitting at a keyword with a space on either side keeps the spaces. */
  lemma SplitSpaced(a: string, sep: string, b: string)
    requires |sep| > 0 && sep[0] != ' ' && sep[0] !in a && sep[0] !in b
    ensures SplitOn(a + " " + sep + " " + b, sep) == [a + " ", " " + b]
  {
    assert a + " " + sep + " " + b == (a + " ") + sep + (" " + b);
    assert sep[0] !in a + " " && sep[0] !in " " + b;
    SplitAround(a + " ", sep, " " + b);
  }

  /** The trimmed pieces of such a split are the two plain strings. */
  lemma SplitTrimmedSpaced(a: string, sep: string, b: string)
    requires |sep| > 0 && sep[0] != ' ' && sep[0] !in a && sep[0] !in b && Plain(a) && Plain(b)
    ensures SplitTrimmed(a + " " + sep + " " + b, sep) == [a, b]
  {
    SplitSpaced(a, sep, b);
    TrimSpaced(a);
    TrimSpaced(b);
  }

  /** `A to B` splits at `to` into `A` and `B`, both trimmed. */
  lemma SplitFromTo(a: string, b: string)
    requires Plain(a) && Plain(b) && 't' !in a && 't' !in b
    ensures SplitTrimmed(a + " to " + b, "to") == [a, b]
  {
    assert a + " to " + b == a + " " + "to" + " " + b;
    SplitTrimmedSpaced(a, "to", b);
  }

  /** The text after `from` trims to `A to B`. */
  lemma TrimFromTo(a: string, b: string)
    requires Plain(a) && Plain(b)
    ensures Trim(" " + a + " to " + b) == a + " to " + b
  {
    var body := a + " to " + b;
    assert body[0] == a[0] && body[|body| - 1] == b[|b| - 1];
    assert " " + a + " to " + b == " " + body;
    TrimSpaced(body);
  }

  /** The count's text `move N` loses its keyword to `replace`. */
  lemma ParseCountText(s: string)
    requires 'm' !in s
    ensures Replace("move " + s, "move ", "") == s
  {
    assert "move " + s == [] + "move " + s;
    SplitAround([], "move ", s);
    assert JoinOn([[], s], "") == [] + "" + s;
  }

  /** The destination's text has no `to ` to remove. */
  lemma ParseToText(s: string)
    requires 't' !in s && Trim(s) == s
    ensures Trim(Replace(s, "to ", "")) == s
  {
    NoMatchInWithoutFirst(s, "to ");
    SplitOnSinglePiece(s, "to ");
  }

  /** The rendering splits at `from` into the count's part and the `A to B` part. */
  lemma SplitAtFrom(c: string, a: string, b: string)
    requires Plain(c) && Plain(a) && Plain(b) && 'f' !in c && 'f' !in a && 'f' !in b
    ensures SplitTrimmed("move " + c + " from " + a + " to " + b, "from") == ["move " + c, a + " to " + b]
  {
    var m, t := "move " + c, a + " to " + b;
    assert "move " + c + " from " + a + " to " + b == m + " " + "from" + " " + t;
    MovePlain(c);
    ToPlain(a, b);
    SplitTrimmedSpaced(m, "from", t);
  }

  /** The count's part is plain and has no `f`. */
  lemma MovePlain(c: string)
    requires Plain(c) && 'f' !in c
    ensures var m := "move " + c; Plain(m) && 'f' !in m
  {
    var m := "move " + c;
    assert m[0] == 'm' && m[|m| - 1] == c[|c| - 1];
    assert 'f' !in "move ";
  }

  /** The `A to B` part is plain and has no `f`. */
  lemma ToPlain(a: string, b: string)
    requires Plain(a) && Plain(b) && 'f' !in a && 'f' !in b
    ensures var t := a + " to " + b; Plain(t) && 'f' !in t
  {
    var t := a + " to " + b;
    assert t[0] == a[0] && t[|t| - 1] == b[|b| - 1];
    assert 'f' !in " to ";
  }

  /** `Instruction::from` reads back the text of an instruction whose numbers fit in a byte. */
  lemma ParseInstructionOfRender(i: Instruction)
    requires i.count < 256 && i.from < 256 && i.to < 256
    ensures ParseInstruction(RenderInstruction(i)) == Some(i)
  {
    var sc, sf, st := NatToString(i.count), NatToString(i.from), NatToString(i.to);
    NumberText(i.count);
    NumberText(i.from);
    NumberText(i.to);
    SplitAtFrom(sc, sf, st);
    SplitFromTo(sf, st);
    ParseCountText(sc);
    ParseToText(st);
    ParseUnsignedRoundTrip(i.count);
    ParseUnsignedRoundTrip(i.from);
    ParseUnsignedRoundTrip(i.to);
  }

  // ---------------------------------------------------------------------------
  // Reading the drawing of the stacks
  // ---------------------------------------------------------------------------

  /** `chunks(4)`: consecutive pieces of four characters, the last one possibly shorter. */
  function Chunks(s: string): (r: seq<string>)
    ensures forall i :: 0 <= i < |r| ==> 0 < |r[i]| <= 4
    ensures forall i :: 0 <= i < |r| - 1 ==> |r[i]| == 4
    decreases |s|
  {
    if |s| == 0 then [] else if |s| <= 4 then [s] else [s[..4]] + Chunks(s[4..])
  }

  /** The chunks are the row, cut up. */
  lemma {:induction false} ChunksConcat(s: string)
    ensures Concat(Chunks(s)) == s
    decreases |s|
  {
    if |s| > 4 {
      ChunksConcat(s[4..]);
      assert s == s[..4] + s[4..];
    }
  }

  /** The pieces one after the other. */
  function Concat(pieces: seq<string>): string {
    if |pieces| == 0 then [] else pieces[0] + Concat(pieces[1..])
  }

  /** A cell of the drawing: blank cells become the placeholder `[ ]`, others are trimmed. */
  function Cell(chunk: string): (r: string)
    ensures |r| > 0
  {
    if |Trim(chunk)| == 0 then "[ ]" else Trim(chunk)
  }

  /** One row of the drawing, cut into cells. */
  function RowCells(row: string): (r: seq<string>)
    ensures |r| == |Chunks(row)|
    ensures forall x :: 0 <= x < |r| ==> r[x] == Cell(Chunks(row)[x])
  {
    var chunks := Chunks(row);
    seq(|chunks|, x requires 0 <= x < |chunks| => Cell(chunks[x]))
  }

  /** `parse_crates`: every line but the last (the stack numbers), cut into cells. */
  function ParseCrates(input: string): (r: seq<seq<string>>)
    ensures |r| == |Split(input, '\n')| - 1
    ensures forall y :: 0 <= y < |r| ==> r[y] == RowCells(Split(input, '\n')[y])
  {
    var lines := Split(input, '\n');
    seq(|lines| - 1, y requires 0 <= y < |lines| - 1 => RowCells(lines[y]))
  }

  /** The characters of `s` that are not whitespace, in order (`filter(!is_whitespace)`). */
  function NonBlank(s: seq<char>): (r: seq<char>)
    ensures |r| <= |s|
    ensures forall i :: 0 <= i < |r| ==> !IsWhitespace(r[i])
    ensures forall c :: c in r <==> c in s && !IsWhitespace(c)
  {
    if |s| == 0 then []
    else if IsWhitespace(s[0]) then NonBlank(s[1..])
    else [s[0]] + NonBlank(s[1..])
  }

  /** Filtering distributes over concatenation. */
  lemma {:induction false} NonBlankAppend(a: seq<char>, b: seq<char>)
    ensures NonBlank(a + b) == NonBlank(a) + NonBlank(b)
  {
    if |a| == 0 {
      assert a + b == b;
    } else {
      assert (a + b)[1..] == a[1..] + b;
      NonBlankAppend(a[1..], b);
    }
  }

  /** Every cell `construct_stacks` reads exists and has a second character. */
  predicate Drawable(rows: seq<seq<string>>) {
    && |rows| >= 1
    && (forall y :: 0 <= y < |rows| ==> |rows[0]| <= |rows[y]|)
    && (forall y, x :: 0 <= y < |rows| && 0 <= x < |rows[0]| ==> |rows[y][x]| >= 2)
  }

  /** The labels of column `x`, top row first. */
  function Labels(rows: seq<seq<string>>, x: nat): (r: seq<char>)
    requires Drawable(rows) && x < |rows[0]|
    ensures |r| == |rows|
    ensures forall y :: 0 <= y < |rows| ==> r[y] == rows[y][x][1]
  {
    seq(|rows|, y requires 0 <= y < |rows| => rows[y][x][1])
  }

  /** `construct_stacks`: one stack per cell of the top row; its crates are the labels of
      the column that are not blank, top first. The id is the column index as a byte. */
  function ConstructStacks(rows: seq<seq<string>>): (r: seq<Stack>)
    requires Drawable(rows)
    ensures |r| == |rows[0]|
    ensures forall x :: 0 <= x < |r| ==> r[x].id == x % 256
    ensures forall x :: 0 <= x < |r| ==> forall c :: c in r[x].crates <==>
              !IsWhitespace(c) && exists y :: 0 <= y < |rows| && rows[y][x][1] == c
  {
    seq(|rows[0]|, x requires 0 <= x < |rows[0]| => Stack(x % 256, NonBlank(Labels(rows, x))))
  }

  /** `prepare_input`: the non-empty parts between blank lines; the first is the drawing,
      the second the instructions. */
  function Parts(input: string): seq<string> {
    Filter(SplitOn(input, "\n\n"))
  }

  /** `filter(|part| !part.is_empty())`. */
  function Filter(parts: seq<string>): (r: seq<string>)
    ensures forall i :: 0 <= i < |r| ==> |r[i]| > 0
    ensures forall p :: p in r <==> p in parts && |p| > 0
  {
    if |parts| == 0 then []
    else if |parts[0]| == 0 then Filter(parts[1..])
    else [parts[0]] + Filter(parts[1..])
  }

  /** Filtering distributes over concatenation: the kept parts stay in their order. */
  lemma {:induction false} FilterAppend(a: seq<string>, b: seq<string>)
    ensures Filter(a + b) == Filter(a) + Filter(b)
  {
    if |a| == 0 {
      assert a + b == b;
    } else {
      assert (a + b)[1..] == a[1..] + b;
      FilterAppend(a[1..], b);
    }
  }

  /** A list of non-empty parts passes the filter unchanged. */
  lemma {:induction false} FilterKeeps(parts: seq<string>)
    requires forall i :: 0 <= i < |parts| ==> |parts[i]| > 0
    ensures Filter(parts) == parts
  {
    if |parts| > 0 {
      FilterKeeps(parts[1..]);
    }
  }

  /** A list of empty parts is filtered away entirely. */
  lemma {:induction false} FilterDrops(parts: seq<string>)
    requires forall i :: 0 <= i < |parts| ==> |parts[i]| == 0
    ensures Filter(parts) == []
  {
    if |parts| > 0 {
      FilterDrops(parts[1..]);
    }
  }

  /** `prepare_input`, or `None` where the source panics: fewer than two parts, a drawing
      with a missing cell, or a line that is not an instruction. The stacks are the top row's
      cells and the instructions the lines of the second part. */
  function PrepareInput(input: string): (r: Option<(seq<Stack>, seq<Instruction>)>)
    ensures r.Some? <==> |Parts(input)| >= 2 && Drawable(ParseCrates(Parts(input)[0]))
                         && ParseInstructions(Parts(input)[1]).Some?
    ensures r.Some? ==> |r.value.0| == |ParseCrates(Parts(input)[0])[0]|
                        && |r.value.1| == |Lines(Parts(input)[1])|
    ensures r.Some? ==> forall x :: 0 <= x < |r.value.0| ==> r.value.0[x].id == x % 256
    ensures r.Some? ==> r.value.0 == ConstructStacks(ParseCrates(Parts(input)[0]))
                        && Some(r.value.1) == ParseInstructions(Parts(input)[1])
  {
    var parts := Parts(input);
    if |parts| < 2 then None
    else
      var rows := ParseCrates(parts[0]);
      if !Drawable(rows) then None
      else
        match ParseInstructions(parts[1])
        case None => None
        case Some(instructions) => Some((ConstructStacks(rows), instructions))
  }

  // ---------------------------------------------------------------------------
  // Moving crates
  // ---------------------------------------------------------------------------

  /** The instruction indexes existing stacks: `to` always (`stacks[to - 1]`), `from` only
      when a crate is to be popped, since the pop closure never runs for a count of 0. */
  predicate Applicable(i: Instruction, n: nat) {
    1 <= i.to <= n && (i.count == 0 || 1 <= i.from <= n)
  }

  /** The crates moved by an instruction: the popped crates, reversed for part 1. */
  function Moved(popped: seq<char>, part: nat): (r: seq<char>)
    ensures |r| == |popped|
  {
    if part == 1 then Reverse(popped) else popped
  }

  /** The crates `count` pops return, top first. */
  function Popped(stacks: seq<Stack>, i: Instruction): seq<char>
    requires Applicable(i, |stacks|)
  {
    if i.count == 0 then [] else PopMany(stacks[i.from - 1], i.count).0
  }

  /** The stacks after the pops. */
  function AfterPop(stacks: seq<Stack>, i: Instruction): (r: seq<Stack>)
    requires Applicable(i, |stacks|)
    ensures |r| == |stacks|
  {
    if i.count == 0 then stacks else stacks[i.from - 1 := PopMany(stacks[i.from - 1], i.count).1]
  }

  /** Crates pushed onto stack `to`, so that `crates` ends up on top in its order. */
  function Put(stacks: seq<Stack>, to: nat, crates: seq<char>): (r: seq<Stack>)
    requires 1 <= to <= |stacks|
    ensures |r| == |stacks|
  {
    stacks[to - 1 := Stack(stacks[to - 1].id, crates + stacks[to - 1].crates)]
  }

  /** The body of `execute`'s loop for one instruction: pop, reverse for part 1, and put the
      crates on top of the destination as it is after the pops. */
  function Step(stacks: seq<Stack>, i: Instruction, part: nat): (r: seq<Stack>)
    requires Applicable(i, |stacks|)
    ensures |r| == |stacks|
  {
    Put(AfterPop(stacks, i), i.to, Moved(Popped(stacks, i), part))
  }

  /** A step keeps every stack's id, and touches no stack but its source and destination. */
  lemma StepKeepsOthers(stacks: seq<Stack>, i: Instruction, part: nat)
    requires Applicable(i, |stacks|)
    ensures var r := Step(stacks, i, part);
            forall k :: 0 <= k < |r| ==> r[k].id == stacks[k].id
    ensures var r := Step(stacks, i, part);
            forall k :: 0 <= k < |r| && k != i.to - 1 && (i.count == 0 || k != i.from - 1) ==>
              r[k] == stacks[k]
  {
  }

  /** The number of crates an instruction moves: `count`, or all of the source stack when it
      holds fewer. */
  function Taken(stacks: seq<Stack>, i: Instruction): (k: nat)
    requires Applicable(i, |stacks|)
    ensures i.count == 0 ==> k == 0
    ensures i.count > 0 ==> k <= |stacks[i.from - 1].crates| && k <= i.count
    ensures i.count > 0 && k < i.count ==> k == |stacks[i.from - 1].crates|
  {
    if i.count == 0 then 0
    else if i.count <= |stacks[i.from - 1].crates| then i.count
    else |stacks[i.from - 1].crates|
  }

  /** The pops take the top `Taken` crates off the source. */
  lemma PopsTakeTop(stacks: seq<Stack>, i: Instruction)
    requires Applicable(i, |stacks|) && i.count > 0
    ensures var src := stacks[i.from - 1];
            var k := Taken(stacks, i);
            Popped(stacks, i) == src.crates[..k]
            && AfterPop(stacks, i) == stacks[i.from - 1 := Stack(src.id, src.crates[k..])]
  {
    var src := stacks[i.from - 1];
    if i.count <= |src.crates| {
      PopManyTakesTop(src, i.count);
    } else {
      PopManyEmpties(src, i.count);
      assert src.crates[..|src.crates|] == src.crates && src.crates[|src.crates|..] == [];
    }
  }

  /** A count of 0 changes nothing. */
  lemma StepNothing(stacks: seq<Stack>, i: Instruction, part: nat)
    requires Applicable(i, |stacks|) && i.count == 0
    ensures Step(stacks, i, part) == stacks
  {
    var dest := stacks[i.to - 1];
    assert AfterPop(stacks, i) == stacks && Popped(stacks, i) == [];
    assert Moved([], part) + dest.crates == dest.crates;
    assert stacks[i.to - 1 := Stack(dest.id, dest.crates)] == stacks;
  }

  /** The stacks after `m` crates went from the top of stack `from` to the top of stack `to`
      (reversed in part 1); every other stack is as it was. */
  function Shifted(stacks: seq<Stack>, from: nat, to: nat, m: nat, part: nat): (r: seq<Stack>)
    requires 1 <= from <= |stacks| && 1 <= to <= |stacks| && from != to
    requires m <= |stacks[from - 1].crates|
    ensures |r| == |stacks|
  {
    var src := stacks[from - 1];
    Put(stacks[from - 1 := Stack(src.id, src.crates[m..])], to, Moved(src.crates[..m], part))
  }

  /** What a shift does to each stack. */
  lemma ShiftedParts(stacks: seq<Stack>, from: nat, to: nat, m: nat, part: nat)
    requires 1 <= from <= |stacks| && 1 <= to <= |stacks| && from != to
    requires m <= |stacks[from - 1].crates|
    ensures var src, dest, r := stacks[from - 1], stacks[to - 1], Shifted(stacks, from, to, m, part);
            && r[from - 1] == Stack(src.id, src.crates[m..])
            && r[to - 1] == Stack(dest.id, Moved(src.crates[..m], part) + dest.crates)
            && forall x :: 0 <= x < |stacks| && x != from - 1 && x != to - 1 ==> r[x] == stacks[x]
  {
  }

  /** Between two different stacks, a step shifts its `Taken` crates: the source loses its
      top crates and the destination gains them on top, reversed in part 1. */
  lemma StepBetween(stacks: seq<Stack>, i: Instruction, part: nat)
    requires Applicable(i, |stacks|) && i.count > 0 && i.from != i.to
    ensures Step(stacks, i, part) == Shifted(stacks, i.from, i.to, Taken(stacks, i), part)
  {
    PopsTakeTop(stacks, i);
  }

  /** On one stack, a step puts the top `Taken` crates back on the rest, reversed in part 1;
      every other stack is as it was. */
  lemma StepWithin(stacks: seq<Stack>, i: Instruction, part: nat)
    requires Applicable(i, |stacks|) && i.count > 0 && i.from == i.to
    ensures var src := stacks[i.from - 1];
            var k := Taken(stacks, i);
            Step(stacks, i, part) == stacks[i.from - 1 := Stack(src.id, Moved(src.crates[..k], part) + src.crates[k..])]
  {
    PopsTakeTop(stacks, i);
  }

  /** All crates on the stacks, as a multiset. */
  function AllCrates(stacks: seq<Stack>): multiset<char> {
    if |stacks| == 0 then multiset{} else multiset(stacks[0].crates) + AllCrates(stacks[1..])
  }

  /** Replacing one stack swaps its crates in the multiset of all crates. */
  lemma {:induction false} AllCratesUpdate(stacks: seq<Stack>, j: nat, s: Stack)
    requires j < |stacks|
    ensures AllCrates(stacks[j := s]) + multiset(stacks[j].crates) == AllCrates(stacks) + multiset(s.crates)
  {
    var u := stacks[j := s];
    if j == 0 {
      assert u[1..] == stacks[1..];
      assert AllCrates(u) == multiset(s.crates) + AllCrates(stacks[1..]);
    } else {
      var tail := stacks[1..];
      assert u[0] == stacks[0] && u[1..] == tail[j - 1 := s];
      assert tail[j - 1] == stacks[j];
      AllCratesUpdate(tail, j - 1, s);
      var h := multiset(stacks[0].crates);
      assert AllCrates(u) == h + AllCrates(tail[j - 1 := s]);
      assert AllCrates(stacks) == h + AllCrates(tail);
      calc {
        AllCrates(u) + multiset(stacks[j].crates);
        h + (AllCrates(tail[j - 1 := s]) + multiset(tail[j - 1].crates));
        h + (AllCrates(tail) + multiset(s.crates));
        AllCrates(stacks) + multiset(s.crates);
      }
    }
  }

  /** A sequence's elements are those of a prefix and the matching suffix. */
  lemma MultisetSplit(x: seq<char>, k: nat)
    requires k <= |x|
    ensures multiset(x) == multiset(x[..k]) + multiset(x[k..])
  {
    assert x == x[..k] + x[k..];
  }

  /** Popping at least once takes the top crates off the source stack. */
  lemma PopsConserveSome(stacks: seq<Stack>, i: Instruction)
    requires Applicable(i, |stacks|) && i.count > 0
    ensures AllCrates(AfterPop(stacks, i)) + multiset(Popped(stacks, i)) == AllCrates(stacks)
  {
    var src := stacks[i.from - 1];
    var k := Taken(stacks, i);
    var rest := Stack(src.id, src.crates[k..]);
    PopsTakeTop(stacks, i);
    AllCratesUpdate(stacks, i.from - 1, rest);
    MultisetSplit(src.crates, k);
    MultisetCancel(AllCrates(AfterPop(stacks, i)) + multiset(src.crates[..k]), AllCrates(stacks), multiset(rest.crates));
  }

  /** The pops take crates off the stacks without losing any. */
  lemma PopsConserve(stacks: seq<Stack>, i: Instruction)
    requires Applicable(i, |stacks|)
    ensures AllCrates(AfterPop(stacks, i)) + multiset(Popped(stacks, i)) == AllCrates(stacks)
  {
    if i.count > 0 {
      PopsConserveSome(stacks, i);
    }
  }

  /** The moved crates are the popped ones, in some order. */
  lemma MovedMultiset(popped: seq<char>, part: nat)
    ensures multiset(Moved(popped, part)) == multiset(popped)
  {
    if part == 1 {
      ReverseMultiset(popped);
    }
  }

  /** Putting crates on top of one stack adds them to the crates on the stacks. */
  lemma PlaceConserves(after: seq<Stack>, popped: seq<char>, moved: seq<char>, to: nat)
    requires 1 <= to <= |after| && multiset(moved) == multiset(popped)
    ensures AllCrates(Put(after, to, moved)) == AllCrates(after) + multiset(popped)
  {
    var dest := after[to - 1];
    var placed := Stack(dest.id, moved + dest.crates);
    var r := AllCrates(Put(after, to, moved));
    AllCratesUpdate(after, to - 1, placed);
    assert r + multiset(dest.crates) == (AllCrates(after) + multiset(popped)) + multiset(dest.crates);
    MultisetCancel(r, AllCrates(after) + multiset(popped), multiset(dest.crates));
  }

  /** The destination receives exactly the popped crates. */
  lemma StepPlaces(stacks: seq<Stack>, i: Instruction, part: nat)
    requires Applicable(i, |stacks|)
    ensures AllCrates(Step(stacks, i, part)) == AllCrates(AfterPop(stacks, i)) + multiset(Popped(stacks, i))
  {
    MovedMultiset(Popped(stacks, i), part);
    PlaceConserves(AfterPop(stacks, i), Popped(stacks, i), Moved(Popped(stacks, i), part), i.to);
  }

  /** Every instruction keeps the crates: none is lost or created. */
  lemma StepConserves(stacks: seq<Stack>, i: Instruction, part: nat)
    requires Applicable(i, |stacks|)
    ensures AllCrates(Step(stacks, i, part)) == AllCrates(stacks)
  {
    StepPlaces(stacks, i, part);
    PopsConserve(stacks, i);
  }

  /** `execute`'s loop: the instructions in order. */
  function Run(stacks: seq<Stack>, instructions: seq<Instruction>, part: nat): (r: seq<Stack>)
    requires forall k :: 0 <= k < |instructions| ==> Applicable(instructions[k], |stacks|)
    ensures |r| == |stacks|
    ensures forall k :: 0 <= k < |r| ==> r[k].id == stacks[k].id
    decreases |instructions|
  {
    if |instructions| == 0 then stacks
    else
      StepKeepsOthers(stacks, instructions[0], part);
      Run(Step(stacks, instructions[0], part), instructions[1..], part)
  }

  /** The whole run keeps the crates. */
  lemma {:induction false} RunConserves(stacks: seq<Stack>, instructions: seq<Instruction>, part: nat)
    requires forall k :: 0 <= k < |instructions| ==> Applicable(instructions[k], |stacks|)
    ensures AllCrates(Run(stacks, instructions, part)) == AllCrates(stacks)
    decreases |instructions|
  {
    if |instructions| > 0 {
      StepConserves(stacks, instructions[0], part);
      RunConserves(Step(stacks, instructions[0], part), instructions[1..], part);
    }
  }

  // ---------------------------------------------------------------------------
  // The two cranes against moving one crate at a time
  // ---------------------------------------------------------------------------

  /** One crate from the top of stack `from` to the top of stack `to`, if there is one. */
  function MoveOne(stacks: seq<Stack>, from: nat, to: nat): (r: seq<Stack>)
    requires 1 <= from <= |stacks| && 1 <= to <= |stacks|
    ensures |r| == |stacks|
  {
    match Pop(stacks[from - 1]).0
    case None => stacks
    case Some(c) =>
      var popped := stacks[from - 1 := Pop(stacks[from - 1]).1];
      popped[to - 1 := Push(popped[to - 1], c)]
  }

  /** `n` single-crate moves. */
  function MoveEach(stacks: seq<Stack>, n: nat, from: nat, to: nat): (r: seq<Stack>)
    requires 1 <= from <= |stacks| && 1 <= to <= |stacks|
    ensures |r| == |stacks|
    decreases n
  {
    if n == 0 then stacks else MoveEach(MoveOne(stacks, from, to), n - 1, from, to)
  }

  /** Moving from an empty stack changes nothing. */
  lemma {:induction false} MoveEachEmpty(stacks: seq<Stack>, n: nat, from: nat, to: nat)
    requires 1 <= from <= |stacks| && 1 <= to <= |stacks| && |stacks[from - 1].crates| == 0
    ensures MoveEach(stacks, n, from, to) == stacks
    decreases n
  {
    if n > 0 {
      MoveEachEmpty(stacks, n - 1, from, to);
    }
  }

  /** `a + b` single moves are `a` moves and then `b`. */
  lemma {:induction false} MoveEachSplit(stacks: seq<Stack>, a: nat, b: nat, from: nat, to: nat)
    requires 1 <= from <= |stacks| && 1 <= to <= |stacks|
    ensures MoveEach(stacks, a + b, from, to) == MoveEach(MoveEach(stacks, a, from, to), b, from, to)
    decreases a
  {
    if a > 0 {
      MoveEachSplit(MoveOne(stacks, from, to), a - 1, b, from, to);
    }
  }

  /** Shifting no crate changes nothing. */
  lemma ShiftedNone(stacks: seq<Stack>, from: nat, to: nat, part: nat)
    requires 1 <= from <= |stacks| && 1 <= to <= |stacks| && from != to
    ensures Shifted(stacks, from, to, 0, part) == stacks
  {
    var src, dest := stacks[from - 1], stacks[to - 1];
    assert src.crates[0..] == src.crates;
    assert Moved(src.crates[..0], part) + dest.crates == dest.crates;
    assert stacks[from - 1 := src][to - 1 := dest] == stacks;
  }

  /** A single move off a non-empty stack shifts one crate. */
  lemma MoveOneShifts(stacks: seq<Stack>, from: nat, to: nat)
    requires 1 <= from <= |stacks| && 1 <= to <= |stacks| && from != to
    requires |stacks[from - 1].crates| > 0
    ensures MoveOne(stacks, from, to) == Shifted(stacks, from, to, 1, 1)
  {
    var src := stacks[from - 1].crates;
    assert Reverse(src[..1]) == [src[0]];
  }

  /** The crates a shift of `a` and then `b` puts on the destination: the top `a + b` of the
      source, reversed. */
  lemma ShiftedBlocks(src: seq<char>, a: nat, b: nat)
    requires a + b <= |src|
    ensures Reverse(src[a..][..b]) + Reverse(src[..a]) == Reverse(src[..a + b])
  {
    assert src[..a + b] == src[..a] + src[a..][..b];
    ReverseAppend(src[..a], src[a..][..b]);
  }

  /** Part 1 shifts compose: `a` crates and then `b` crates are `a + b` crates. */
  lemma ShiftedTwice(stacks: seq<Stack>, from: nat, to: nat, a: nat, b: nat)
    requires 1 <= from <= |stacks| && 1 <= to <= |stacks| && from != to
    requires a + b <= |stacks[from - 1].crates|
    ensures var mid := Shifted(stacks, from, to, a, 1);
            b <= |mid[from - 1].crates| && Shifted(mid, from, to, b, 1) == Shifted(stacks, from, to, a + b, 1)
  {
    var src, dest := stacks[from - 1], stacks[to - 1];
    var mid := Shifted(stacks, from, to, a, 1);
    assert mid[from - 1] == Stack(src.id, src.crates[a..]);
    assert mid[to - 1] == Stack(dest.id, Reverse(src.crates[..a]) + dest.crates);
    assert src.crates[a..][b..] == src.crates[a + b..];
    ShiftedBlocks(src.crates, a, b);
    var top := Reverse(src.crates[a..][..b]);
    assert top + (Reverse(src.crates[..a]) + dest.crates) == Reverse(src.crates[..a + b]) + dest.crates;
    var fin, goal := Shifted(mid, from, to, b, 1), Shifted(stacks, from, to, a + b, 1);
    forall x | 0 <= x < |stacks|
      ensures fin[x] == goal[x]
    {
    }
  }

  /** `m` single moves shift `m` crates. */
  lemma {:induction false} MoveEachShifts(stacks: seq<Stack>, m: nat, from: nat, to: nat)
    requires 1 <= from <= |stacks| && 1 <= to <= |stacks| && from != to
    requires m <= |stacks[from - 1].crates|
    ensures MoveEach(stacks, m, from, to) == Shifted(stacks, from, to, m, 1)
    decreases m
  {
    if m == 0 {
      ShiftedNone(stacks, from, to, 1);
    } else {
      MoveOneShifts(stacks, from, to);
      ShiftedTwice(stacks, from, to, 1, m - 1);
      MoveEachShifts(Shifted(stacks, from, to, 1, 1), m - 1, from, to);
    }
  }

  /** Once the source is empty, further single moves change nothing. */
  lemma MoveEachMore(stacks: seq<Stack>, m: nat, n: nat, from: nat, to: nat)
    requires 1 <= from <= |stacks| && 1 <= to <= |stacks| && from != to
    requires m == |stacks[from - 1].crates| && m <= n
    ensures MoveEach(stacks, n, from, to) == Shifted(stacks, from, to, m, 1)
  {
    MoveEachSplit(stacks, m, n - m, from, to);
    MoveEachShifts(stacks, m, from, to);
    MoveEachEmpty(Shifted(stacks, from, to, m, 1), n - m, from, to);
  }

  /** A part 1 step between different stacks is a shift of its `Taken` crates, also when it
      moves none. */
  lemma Part1Shifts(stacks: seq<Stack>, n: nat, from: nat, to: nat)
    requires 1 <= from <= |stacks| && 1 <= to <= |stacks| && from != to
    ensures var i := Instruction(n, from, to);
            Step(stacks, i, 1) == Shifted(stacks, from, to, Taken(stacks, i), 1)
  {
    var i := Instruction(n, from, to);
    if n == 0 {
      StepNothing(stacks, i, 1);
      ShiftedNone(stacks, from, to, 1);
    } else {
      StepBetween(stacks, i, 1);
    }
  }

  /** Part 1's crane is a crane that moves one crate at a time, between different stacks. */
  lemma Part1MovesOneAtATime(stacks: seq<Stack>, n: nat, from: nat, to: nat)
    requires 1 <= from <= |stacks| && 1 <= to <= |stacks| && from != to
    ensures Step(stacks, Instruction(n, from, to), 1) == MoveEach(stacks, n, from, to)
  {
    var k := Taken(stacks, Instruction(n, from, to));
    Part1Shifts(stacks, n, from, to);
    if k == n {
      MoveEachShifts(stacks, n, from, to);
    } else {
      MoveEachMore(stacks, k, n, from, to);
    }
  }

  /** Shifting `k` crates onto an empty spare stack and from there on to the destination
      moves the block in its order, and leaves the spare stack empty again. */
  lemma ThroughSpare(stacks: seq<Stack>, from: nat, to: nat, spare: nat, k: nat)
    requires 1 <= from <= |stacks| && 1 <= to <= |stacks| && 1 <= spare <= |stacks|
    requires from != to && spare != from && spare != to
    requires |stacks[spare - 1].crates| == 0 && k <= |stacks[from - 1].crates|
    ensures var mid := Shifted(stacks, from, spare, k, 1);
            k <= |mid[spare - 1].crates| && Shifted(mid, spare, to, k, 1) == Shifted(stacks, from, to, k, 2)
  {
    var src := stacks[from - 1];
    var block := src.crates[..k];
    var base := stacks[from - 1 := Stack(src.id, src.crates[k..])];
    var mid := Put(base, spare, Reverse(block));
    assert mid == Shifted(stacks, from, spare, k, 1);
    SpareHoldsBlock(base, spare, block);
    ReverseReverse(block);
    assert Moved(Reverse(block)[..k], 1) == Moved(block, 2);
  }

  /** Putting a stack back as it was undoes pushing onto it. */
  lemma PutUndo(stacks: seq<Stack>, to: nat, crates: seq<char>)
    requires 1 <= to <= |stacks|
    ensures Put(stacks, to, crates)[to - 1 := stacks[to - 1]] == stacks
  {
  }

  /** Pushing a reversed block onto an empty stack and taking it all off again. */
  lemma SpareHoldsBlock(base: seq<Stack>, spare: nat, block: seq<char>)
    requires 1 <= spare <= |base| && |base[spare - 1].crates| == 0
    ensures var mid := Put(base, spare, Reverse(block));
            && mid[spare - 1].crates == Reverse(block)
            && mid[spare - 1 := Stack(mid[spare - 1].id, Reverse(block)[|block|..])] == base
  {
    var sp := base[spare - 1];
    assert Reverse(block) + sp.crates == Reverse(block);
    assert Stack(sp.id, Reverse(block)[|block|..]) == sp;
    PutUndo(base, spare, Reverse(block));
  }

  /** The spare stack holds the block after the first leg. */
  lemma FirstLeg(stacks: seq<Stack>, n: nat, from: nat, to: nat, spare: nat)
    requires 1 <= from <= |stacks| && 1 <= to <= |stacks| && 1 <= spare <= |stacks|
    requires from != to && spare != from && spare != to && n > 0
    requires |stacks[spare - 1].crates| == 0
    ensures var k := Taken(stacks, Instruction(n, from, to));
            var mid := Shifted(stacks, from, spare, k, 1);
            && MoveEach(stacks, n, from, spare) == mid
            && Taken(mid, Instruction(n, spare, to)) == k
  {
    var k := Taken(stacks, Instruction(n, from, to));
    assert Taken(stacks, Instruction(n, from, spare)) == k;
    Part1MovesOneAtATime(stacks, n, from, spare);
    Part1Shifts(stacks, n, from, spare);
    var mid := Shifted(stacks, from, spare, k, 1);
    assert |mid[spare - 1].crates| == k;
  }

  /** Part 2's crane, moving at least one crate, through a spare stack. */
  lemma Part2ThroughSpareSome(stacks: seq<Stack>, n: nat, from: nat, to: nat, spare: nat)
    requires 1 <= from <= |stacks| && 1 <= to <= |stacks| && 1 <= spare <= |stacks|
    requires from != to && spare != from && spare != to && n > 0
    requires |stacks[spare - 1].crates| == 0
    ensures Step(stacks, Instruction(n, from, to), 2)
            == MoveEach(MoveEach(stacks, n, from, spare), n, spare, to)
  {
    var k := Taken(stacks, Instruction(n, from, to));
    var mid := Shifted(stacks, from, spare, k, 1);
    FirstLeg(stacks, n, from, to, spare);
    Part1MovesOneAtATime(mid, n, spare, to);
    Part1Shifts(mid, n, spare, to);
    ThroughSpare(stacks, from, to, spare, k);
    StepBetween(stacks, Instruction(n, from, to), 2);
  }

  /** Part 2's crane is a crane that moves one crate at a time through an empty spare stack:
      the block is reversed onto the spare stack and reversed back onto the destination. */
  lemma Part2ThroughSpareStack(stacks: seq<Stack>, n: nat, from: nat, to: nat, spare: nat)
    requires 1 <= from <= |stacks| && 1 <= to <= |stacks| && 1 <= spare <= |stacks|
    requires from != to && spare != from && spare != to
    requires |stacks[spare - 1].crates| == 0
    ensures Step(stacks, Instruction(n, from, to), 2)
            == MoveEach(MoveEach(stacks, n, from, spare), n, spare, to)
  {
    if n == 0 {
      StepNothing(stacks, Instruction(n, from, to), 2);
    } else {
      Part2ThroughSpareSome(stacks, n, from, to, spare);
    }
  }

  /** Part 1 with both ends on the same stack turns its top `Taken` crates upside down;
      part 2 leaves the stack as it was. */
  lemma SameStack(stacks: seq<Stack>, n: nat, at: nat)
    requires 1 <= at <= |stacks|
    ensures var src := stacks[at - 1];
            var k := Taken(stacks, Instruction(n, at, at));
            Step(stacks, Instruction(n, at, at), 1) == stacks[at - 1 := Stack(src.id, Reverse(src.crates[..k]) + src.crates[k..])]
    ensures Step(stacks, Instruction(n, at, at), 2) == stacks
  {
    var i := Instruction(n, at, at);
    if n == 0 {
      SameStackNothing(stacks, at);
    } else {
      var src, k := stacks[at - 1], Taken(stacks, i);
      StepWithin(stacks, i, 1);
      assert Moved(src.crates[..k], 1) == Reverse(src.crates[..k]);
      StepWithin(stacks, i, 2);
      SameBlockBack(stacks, at, k);
    }
  }

  /** With no crate moved, the reversal of part 1 is empty too. */
  lemma SameStackNothing(stacks: seq<Stack>, at: nat)
    requires 1 <= at <= |stacks|
    ensures var src := stacks[at - 1];
            && Step(stacks, Instruction(0, at, at), 1) == stacks[at - 1 := Stack(src.id, Reverse(src.crates[..0]) + src.crates[0..])]
            && Step(stacks, Instruction(0, at, at), 2) == stacks
  {
    var src := stacks[at - 1];
    StepNothing(stacks, Instruction(0, at, at), 1);
    StepNothing(stacks, Instruction(0, at, at), 2);
    assert Reverse(src.crates[..0]) + src.crates[0..] == src.crates;
  }

  /** Putting a stack's top block back in its order gives the stacks back. */
  lemma SameBlockBack(stacks: seq<Stack>, at: nat, k: nat)
    requires 1 <= at <= |stacks| && k <= |stacks[at - 1].crates|
    ensures var src := stacks[at - 1];
            stacks[at - 1 := Stack(src.id, Moved(src.crates[..k], 2) + src.crates[k..])] == stacks
  {
    var src := stacks[at - 1];
    assert src.crates[..k] + src.crates[k..] == src.crates;
  }

  // ---------------------------------------------------------------------------
  // The answer
  // ---------------------------------------------------------------------------

  /** The top crate of every stack, in stack order; `first().unwrap()` panics on an empty
      stack. */
  function Tops(stacks: seq<Stack>): (r: string)
    requires forall k :: 0 <= k < |stacks| ==> |stacks[k].crates| > 0
    ensures |r| == |stacks|
    ensures forall k :: 0 <= k < |r| ==> r[k] == stacks[k].crates[0]
  {
    seq(|stacks|, k requires 0 <= k < |stacks| => stacks[k].crates[0])
  }

  /** `execute` on prepared stacks and instructions. */
  predicate Executable(stacks: seq<Stack>, instructions: seq<Instruction>, part: nat) {
    && (forall k :: 0 <= k < |instructions| ==> Applicable(instructions[k], |stacks|))
    && var r := Run(stacks, instructions, part);
       forall k :: 0 <= k < |r| ==> |r[k].crates| > 0
  }

  /** `execute`: one top crate per stack, each one of the crates of the drawing. */
  function Execute(input: string, part: nat): (r: string)
    requires PrepareInput(input).Some?
    requires Executable(PrepareInput(input).value.0, PrepareInput(input).value.1, part)
    ensures |r| == |PrepareInput(input).value.0|
    ensures forall k :: 0 <= k < |r| ==> r[k] in AllCrates(PrepareInput(input).value.0)
  {
    var stacks := PrepareInput(input).value.0;
    var instructions := PrepareInput(input).value.1;
    TopsOfRun(stacks, instructions, part);
    Tops(Run(stacks, instructions, part))
  }

  /** `part_1`: the crane of part 1 leaves the crates of the drawing on the stacks, and the
      answer is one top crate per stack. */
  function Part1(input: string): (r: string)
    requires PrepareInput(input).Some?
    requires Executable(PrepareInput(input).value.0, PrepareInput(input).value.1, 1)
    ensures |r| == |PrepareInput(input).value.0|
    ensures forall k :: 0 <= k < |r| ==> r[k] in AllCrates(PrepareInput(input).value.0)
  {
    Execute(input, 1)
  }

  /** `part_2`, likewise. */
  function Part2(input: string): (r: string)
    requires PrepareInput(input).Some?
    requires Executable(PrepareInput(input).value.0, PrepareInput(input).value.1, 2)
    ensures |r| == |PrepareInput(input).value.0|
    ensures forall k :: 0 <= k < |r| ==> r[k] in AllCrates(PrepareInput(input).value.0)
  {
    Execute(input, 2)
  }

  /** The answer of a run has one character per stack, each one of the starting crates. */
  lemma TopsOfRun(stacks: seq<Stack>, instructions: seq<Instruction>, part: nat)
    requires Executable(stacks, instructions, part)
    ensures var r := Tops(Run(stacks, instructions, part));
            |r| == |stacks| && forall k :: 0 <= k < |r| ==> r[k] in AllCrates(stacks)
  {
    TopsAreCrates(stacks, instructions, part);
  }

  /** A stack's crates are among all the crates. */
  lemma {:induction false} StackInAllCrates(stacks: seq<Stack>, k: nat)
    requires k < |stacks|
    ensures multiset(stacks[k].crates) <= AllCrates(stacks)
  {
    if k > 0 {
      StackInAllCrates(stacks[1..], k - 1);
    }
  }

  /** Every top crate at the end was on some stack at the start. */
  lemma TopsAreCrates(stacks: seq<Stack>, instructions: seq<Instruction>, part: nat)
    requires Executable(stacks, instructions, part)
    ensures var r := Run(stacks, instructions, part);
            forall k :: 0 <= k < |r| ==> r[k].crates[0] in AllCrates(stacks)
  {
    var r := Run(stacks, instructions, part);
    RunConserves(stacks, instructions, part);
    forall k | 0 <= k < |r|
      ensures r[k].crates[0] in AllCrates(stacks)
    {
      StackInAllCrates(r, k);
      assert r[k].crates[0] in multiset(r[k].crates);
    }
  }

  // ---------------------------------------------------------------------------
  // The example of the test module
  // ---------------------------------------------------------------------------

  /** The example input, written as the lines of the drawing and of the instructions. */
  const ExampleDrawing: seq<string> := ["    [D]    ", "[N] [C]    ", "[Z] [M] [P]", " 1   2   3 "]
  const ExampleMoves: seq<string> :=
    ["move 1 from 2 to 1", "move 3 from 1 to 3", "move 2 from 2 to 1", "move 1 from 1 to 2"]
  const ExampleInput: string := Join(ExampleDrawing, '\n') + "\n\n" + Join(ExampleMoves, '\n')

  /** The cells, stacks and instructions the example stands for. */
  const ExampleRows: seq<seq<string>> := [["[ ]", "[D]", "[ ]"], ["[N]", "[C]", "[ ]"], ["[Z]", "[M]", "[P]"]]
  const ExampleStacks: seq<Stack> := [Stack(0, "NZ"), Stack(1, "DCM"), Stack(2, "P")]
  const ExampleInstructions: seq<Instruction> :=
    [Instruction(1, 2, 1), Instruction(3, 1, 3), Instruction(2, 2, 1), Instruction(1, 1, 2)]

  /** `execute`'s loop takes the instructions one by one. */
  lemma RunFirst(stacks: seq<Stack>, instructions: seq<Instruction>, part: nat)
    requires |instructions| > 0
    requires forall k :: 0 <= k < |instructions| ==> Applicable(instructions[k], |stacks|)
    ensures Run(stacks, instructions, part) == Run(Step(stacks, instructions[0], part), instructions[1..], part)
  {
  }

  /** A shift written out as the two stacks it changes. */
  lemma ShiftedIs(stacks: seq<Stack>, from: nat, to: nat, m: nat, part: nat, rest: seq<char>, moved: seq<char>)
    requires 1 <= from <= |stacks| && 1 <= to <= |stacks| && from != to
    requires m <= |stacks[from - 1].crates|
    requires rest == stacks[from - 1].crates[m..]
    requires moved == Moved(stacks[from - 1].crates[..m], part)
    ensures Shifted(stacks, from, to, m, part)
         == stacks[from - 1 := Stack(stacks[from - 1].id, rest)][to - 1 := Stack(stacks[to - 1].id, moved + stacks[to - 1].crates)]
  {
    var base := stacks[from - 1 := Stack(stacks[from - 1].id, rest)];
    assert base[to - 1] == stacks[to - 1];
  }

  /** A step that finds enough crates takes exactly its count. */
  lemma StepShiftsCount(stacks: seq<Stack>, i: Instruction, part: nat)
    requires Applicable(i, |stacks|) && i.count > 0 && i.from != i.to
    requires i.count <= |stacks[i.from - 1].crates|
    ensures Step(stacks, i, part) == Shifted(stacks, i.from, i.to, i.count, part)
  {
    StepBetween(stacks, i, part);
  }

  /** A step between different stacks that takes `rest` off and puts `moved` on, on concrete
      stacks. */
  lemma ExampleStep(stacks: seq<Stack>, i: Instruction, part: nat, rest: seq<char>, moved: seq<char>)
    requires Applicable(i, |stacks|) && i.count > 0 && i.from != i.to
    requires i.count <= |stacks[i.from - 1].crates|
    requires rest == stacks[i.from - 1].crates[i.count..]
    requires moved == Moved(stacks[i.from - 1].crates[..i.count], part)
    ensures Step(stacks, i, part)
         == stacks[i.from - 1 := Stack(stacks[i.from - 1].id, rest)][i.to - 1 := Stack(stacks[i.to - 1].id, moved + stacks[i.to - 1].crates)]
  {
    StepShiftsCount(stacks, i, part);
    ShiftedIs(stacks, i.from, i.to, i.count, part, rest, moved);
  }

  /** The stacks after each instruction: part 1 ends with C, M and Z on top ... */
  const ExampleAfter1: seq<seq<Stack>> := [
    [Stack(0, "DNZ"), Stack(1, "CM"), Stack(2, "P")],
    [Stack(0, ""), Stack(1, "CM"), Stack(2, "ZNDP")],
    [Stack(0, "MC"), Stack(1, ""), Stack(2, "ZNDP")],
    [Stack(0, "C"), Stack(1, "M"), Stack(2, "ZNDP")]]

  /** ... and part 2 with M, C and D. */
  const ExampleAfter2: seq<seq<Stack>> := [
    [Stack(0, "DNZ"), Stack(1, "CM"), Stack(2, "P")],
    [Stack(0, ""), Stack(1, "CM"), Stack(2, "DNZP")],
    [Stack(0, "CM"), Stack(1, ""), Stack(2, "DNZP")],
    [Stack(0, "M"), Stack(1, "C"), Stack(2, "DNZP")]]

  /** Three crates reversed, and the first two of them. */
  lemma ReverseThree(a: char, b: char, c: char)
    ensures Reverse([a, b, c]) == [c, b, a] && Reverse([a, b]) == [b, a]
  {
  }

  lemma ExampleStep1()
    ensures Step(ExampleStacks, ExampleInstructions[0], 1) == ExampleAfter1[0]
    ensures Step(ExampleStacks, ExampleInstructions[0], 2) == ExampleAfter2[0]
  {
    var s := ExampleStacks;
    assert s[1].crates[1..] == "CM" && s[1].crates[..1] == "D" && Reverse("D") == "D";
    ExampleStep(s, ExampleInstructions[0], 1, "CM", "D");
    ExampleStep(s, ExampleInstructions[0], 2, "CM", "D");
    assert s[1 := Stack(1, "CM")] == [Stack(0, "NZ"), Stack(1, "CM"), Stack(2, "P")];
    assert "D" + "NZ" == "DNZ";
  }

  lemma ExampleStep2Part1()
    ensures Step(ExampleAfter1[0], ExampleInstructions[1], 1) == ExampleAfter1[1]
  {
    var s := ExampleAfter1[0];
    assert s[0].crates[3..] == "" && s[0].crates[..3] == "DNZ";
    ReverseThree('D', 'N', 'Z');
    ExampleStep(s, ExampleInstructions[1], 1, "", "ZND");
    assert s[0 := Stack(0, "")] == [Stack(0, ""), Stack(1, "CM"), Stack(2, "P")];
    assert "ZND" + "P" == "ZNDP";
  }

  lemma ExampleStep3Part1()
    ensures Step(ExampleAfter1[1], ExampleInstructions[2], 1) == ExampleAfter1[2]
  {
    var s := ExampleAfter1[1];
    assert s[1].crates[2..] == "" && s[1].crates[..2] == "CM";
    ReverseThree('C', 'M', 'Z');
    ExampleStep(s, ExampleInstructions[2], 1, "", "MC");
    assert s[1 := Stack(1, "")] == [Stack(0, ""), Stack(1, ""), Stack(2, "ZNDP")];
    assert "MC" + "" == "MC";
  }

  lemma ExampleStep4Part1()
    ensures Step(ExampleAfter1[2], ExampleInstructions[3], 1) == ExampleAfter1[3]
  {
    var s := ExampleAfter1[2];
    assert s[0].crates[1..] == "C" && s[0].crates[..1] == "M" && Reverse("M") == "M";
    ExampleStep(s, ExampleInstructions[3], 1, "C", "M");
    assert s[0 := Stack(0, "C")] == [Stack(0, "C"), Stack(1, ""), Stack(2, "ZNDP")];
    assert "M" + "" == "M";
  }

  lemma ExampleStep2Part2()
    ensures Step(ExampleAfter2[0], ExampleInstructions[1], 2) == ExampleAfter2[1]
  {
    var s := ExampleAfter2[0];
    assert s[0].crates[3..] == "" && s[0].crates[..3] == "DNZ";
    ExampleStep(s, ExampleInstructions[1], 2, "", "DNZ");
    assert s[0 := Stack(0, "")] == [Stack(0, ""), Stack(1, "CM"), Stack(2, "P")];
    assert "DNZ" + "P" == "DNZP";
  }

  lemma ExampleStep3Part2()
    ensures Step(ExampleAfter2[1], ExampleInstructions[2], 2) == ExampleAfter2[2]
  {
    var s := ExampleAfter2[1];
    assert s[1].crates[2..] == "" && s[1].crates[..2] == "CM";
    ExampleStep(s, ExampleInstructions[2], 2, "", "CM");
    assert s[1 := Stack(1, "")] == [Stack(0, ""), Stack(1, ""), Stack(2, "DNZP")];
    assert "CM" + "" == "CM";
  }

  lemma ExampleStep4Part2()
    ensures Step(ExampleAfter2[2], ExampleInstructions[3], 2) == ExampleAfter2[3]
  {
    var s := ExampleAfter2[2];
    assert s[0].crates[1..] == "M" && s[0].crates[..1] == "C";
    ExampleStep(s, ExampleInstructions[3], 2, "M", "C");
    assert s[0 := Stack(0, "M")] == [Stack(0, "M"), Stack(1, ""), Stack(2, "DNZP")];
    assert "C" + "" == "C";
  }

  /** Every instruction of the example names existing stacks. */
  lemma ExampleApplicable()
    ensures forall k :: 0 <= k < |ExampleInstructions| ==> Applicable(ExampleInstructions[k], 3)
  {
  }

  /** The run of part 1, instruction by instruction. */
  lemma ExampleRunPart1()
    ensures Run(ExampleStacks, ExampleInstructions, 1) == ExampleAfter1[3]
  {
    var ins := ExampleInstructions;
    ExampleApplicable();
    ExampleStep1();
    ExampleStep2Part1();
    ExampleStep3Part1();
    ExampleStep4Part1();
    RunFirst(ExampleStacks, ins, 1);
    RunFirst(ExampleAfter1[0], ins[1..], 1);
    RunFirst(ExampleAfter1[1], ins[2..], 1);
    RunFirst(ExampleAfter1[2], ins[3..], 1);
    assert ins[1..][1..] == ins[2..] && ins[2..][1..] == ins[3..] && ins[3..][1..] == [];
  }

  /** The run of part 2, instruction by instruction. */
  lemma ExampleRunPart2()
    ensures Run(ExampleStacks, ExampleInstructions, 2) == ExampleAfter2[3]
  {
    var ins := ExampleInstructions;
    ExampleApplicable();
    ExampleStep1();
    ExampleStep2Part2();
    ExampleStep3Part2();
    ExampleStep4Part2();
    RunFirst(ExampleStacks, ins, 2);
    RunFirst(ExampleAfter2[0], ins[1..], 2);
    RunFirst(ExampleAfter2[1], ins[2..], 2);
    RunFirst(ExampleAfter2[2], ins[3..], 2);
    assert ins[1..][1..] == ins[2..] && ins[2..][1..] == ins[3..] && ins[3..][1..] == [];
  }

  /** No line of the example holds a line break, and none is empty. */
  lemma ExampleLinesClean()
    ensures forall k :: 0 <= k < |ExampleDrawing| ==> |ExampleDrawing[k]| > 0 && '\n' !in ExampleDrawing[k]
    ensures forall k :: 0 <= k < |ExampleMoves| ==> |ExampleMoves[k]| > 0 && '\n' !in ExampleMoves[k]
  {
  }

  /** The drawing holds no blank line and does not end in a line break. */
  lemma ExampleDrawingSeparates()
    ensures NoMatchBefore(Join(ExampleDrawing, '\n'), "\n\n") && |Join(ExampleDrawing, '\n')| > 0
  {
    ExampleLinesClean();
    JoinNoDoubleSep(ExampleDrawing, '\n');
    JoinEnds(ExampleDrawing, '\n');
    NoMatchBeforeDoubleSep(Join(ExampleDrawing, '\n'), '\n');
  }

  /** The instructions hold no blank line. */
  lemma ExampleMovesWhole()
    ensures NoMatchIn(Join(ExampleMoves, '\n'), "\n\n") && |Join(ExampleMoves, '\n')| > 0
  {
    ExampleLinesClean();
    JoinNoDoubleSep(ExampleMoves, '\n');
    JoinEnds(ExampleMoves, '\n');
  }

  /** Two non-empty parts pass the filter. */
  lemma FilterTwo(d: string, m: string)
    requires |d| > 0 && |m| > 0
    ensures Filter([d, m]) == [d, m]
  {
    FilterKeeps([d, m]);
  }

  /** Two pieces without a blank line in them, joined by one, are the two parts. */
  lemma PartsOfTwo(d: string, m: string)
    requires |d| > 0 && |m| > 0
    requires NoMatchBefore(d, "\n\n") && NoMatchIn(m, "\n\n")
    ensures Parts(d + "\n\n" + m) == [d, m]
  {
    SplitOnAfterPiece(d, "\n\n", m);
    SplitOnSinglePiece(m, "\n\n");
    FilterTwo(d, m);
  }

  /** The input falls apart at its blank line into the drawing and the instructions. */
  lemma ExampleParts()
    ensures Parts(ExampleInput) == [Join(ExampleDrawing, '\n'), Join(ExampleMoves, '\n')]
  {
    ExampleDrawingSeparates();
    ExampleMovesWhole();
    PartsOfTwo(Join(ExampleDrawing, '\n'), Join(ExampleMoves, '\n'));
  }

  /** A full chunk comes off the front of a longer row. */
  lemma ChunksFront(a: string, rest: string)
    requires |a| == 4 && |rest| > 0
    ensures Chunks(a + rest) == [a] + Chunks(rest)
  {
    assert (a + rest)[..4] == a && (a + rest)[4..] == rest;
  }

  /** A row of three cells: two full chunks and a last one. */
  lemma ChunksOfThree(a: string, b: string, c: string)
    requires |a| == 4 && |b| == 4 && 0 < |c| <= 4
    ensures Chunks(a + b + c) == [a, b, c]
  {
    ChunksFront(b, c);
    assert a + b + c == a + (b + c);
    ChunksFront(a, b + c);
  }

  /** A blank chunk is an empty cell. */
  lemma CellBlank(s: string)
    requires forall i :: 0 <= i < |s| ==> IsWhitespace(s[i])
    ensures Cell(s) == "[ ]"
  {
  }

  /** A labelled chunk is its label in brackets. */
  lemma CellLabel(c: char)
    requires !IsWhitespace(c)
    ensures Cell(['[', c, ']', ' ']) == ['[', c, ']'] && Cell(['[', c, ']']) == ['[', c, ']']
  {
    var l := ['[', c, ']'];
    assert ['[', c, ']', ' '] == l + " ";
    TrimSpaced(l);
    TrimUnchanged(l);
  }

  /** A row of three chunks reads as their three cells. */
  lemma RowCellsOfThree(a: string, b: string, c: string)
    requires |a| == 4 && |b| == 4 && 0 < |c| <= 4
    ensures RowCells(a + b + c) == [Cell(a), Cell(b), Cell(c)]
  {
    ChunksOfThree(a, b, c);
  }

  /** The labelled cells of the top two rows. */
  lemma ExampleUpperCells()
    ensures Cell("[D] ") == "[D]" && Cell("[N] ") == "[N]" && Cell("[C] ") == "[C]"
  {
    assert "[D] " == ['[', 'D', ']', ' '] && "[N] " == ['[', 'N', ']', ' '];
    assert "[C] " == ['[', 'C', ']', ' '];
    CellLabel('D');
    CellLabel('N');
    CellLabel('C');
  }

  /** The labelled cells of the bottom row. */
  lemma ExampleLowerCells()
    ensures Cell("[Z] ") == "[Z]" && Cell("[M] ") == "[M]" && Cell("[P]") == "[P]"
  {
    assert "[Z] " == ['[', 'Z', ']', ' '] && "[M] " == ['[', 'M', ']', ' '];
    assert "[P]" == ['[', 'P', ']'];
    CellLabel('Z');
    CellLabel('M');
    CellLabel('P');
  }

  /** The blank cells of the drawing. */
  lemma ExampleBlankCells()
    ensures Cell("    ") == "[ ]" && Cell("   ") == "[ ]"
  {
    CellBlank("    ");
    CellBlank("   ");
  }

  lemma ExampleRowCells0()
    ensures RowCells(ExampleDrawing[0]) == ExampleRows[0]
  {
    assert ExampleDrawing[0] == "    " + "[D] " + "   ";
    RowCellsOfThree("    ", "[D] ", "   ");
    ExampleUpperCells();
    ExampleBlankCells();
  }

  lemma ExampleRowCells1()
    ensures RowCells(ExampleDrawing[1]) == ExampleRows[1]
  {
    assert ExampleDrawing[1] == "[N] " + "[C] " + "   ";
    RowCellsOfThree("[N] ", "[C] ", "   ");
    ExampleUpperCells();
    ExampleBlankCells();
  }

  lemma ExampleRowCells2()
    ensures RowCells(ExampleDrawing[2]) == ExampleRows[2]
  {
    assert ExampleDrawing[2] == "[Z] " + "[M] " + "[P]";
    RowCellsOfThree("[Z] ", "[M] ", "[P]");
    ExampleLowerCells();
  }

  /** The drawing's lines but the last, each read as a row of cells. */
  lemma ParseCratesOfJoin(lines: seq<string>)
    requires |lines| >= 1
    requires forall k :: 0 <= k < |lines| ==> '\n' !in lines[k]
    ensures |ParseCrates(Join(lines, '\n'))| == |lines| - 1
    ensures forall y :: 0 <= y < |lines| - 1 ==> ParseCrates(Join(lines, '\n'))[y] == RowCells(lines[y])
  {
    SplitJoin(lines, '\n');
  }

  /** The example's drawing reads as its three rows of cells. */
  lemma ExampleCrates()
    ensures ParseCrates(Join(ExampleDrawing, '\n')) == ExampleRows
  {
    ExampleLinesClean();
    ParseCratesOfJoin(ExampleDrawing);
    ExampleRowCells0();
    ExampleRowCells1();
    ExampleRowCells2();
  }

  lemma ExampleDrawable()
    ensures Drawable(ExampleRows)
  {
  }

  /** The labels of the example's three columns. */
  lemma ExampleLabels()
    ensures Drawable(ExampleRows)
    ensures Labels(ExampleRows, 0) == " NZ" && Labels(ExampleRows, 1) == "DCM" && Labels(ExampleRows, 2) == "  P"
  {
    ExampleDrawable();
  }

  /** Filtering keeps a run of labels whole. */
  lemma {:induction false} NonBlankKeeps(s: seq<char>)
    requires forall i :: 0 <= i < |s| ==> !IsWhitespace(s[i])
    ensures NonBlank(s) == s
  {
    if |s| > 0 {
      NonBlankKeeps(s[1..]);
    }
  }

  /** Filtering drops a run of blanks. */
  lemma {:induction false} NonBlankDrops(s: seq<char>)
    requires forall i :: 0 <= i < |s| ==> IsWhitespace(s[i])
    ensures NonBlank(s) == []
  {
    if |s| > 0 {
      NonBlankDrops(s[1..]);
    }
  }

  /** A column of blanks above labels builds a stack of those labels. */
  lemma ColumnStack(rows: seq<seq<string>>, x: nat, blanks: seq<char>, labels: seq<char>)
    requires Drawable(rows) && x < |rows[0]|
    requires Labels(rows, x) == blanks + labels
    requires forall i :: 0 <= i < |blanks| ==> IsWhitespace(blanks[i])
    requires forall i :: 0 <= i < |labels| ==> !IsWhitespace(labels[i])
    ensures ConstructStacks(rows)[x] == Stack(x % 256, labels)
  {
    NonBlankAppend(blanks, labels);
    NonBlankDrops(blanks);
    NonBlankKeeps(labels);
  }

  /** Three columns build three stacks. */
  lemma ThreeColumns(rows: seq<seq<string>>, labels: seq<seq<char>>)
    requires Drawable(rows) && |rows[0]| == 3 && |labels| == 3
    requires forall x :: 0 <= x < 3 ==> ConstructStacks(rows)[x] == Stack(x, labels[x])
    ensures ConstructStacks(rows) == [Stack(0, labels[0]), Stack(1, labels[1]), Stack(2, labels[2])]
  {
  }

  /** A column of labels only builds a stack of all of them. */
  lemma ColumnStackFull(rows: seq<seq<string>>, x: nat, labels: seq<char>)
    requires Drawable(rows) && x < |rows[0]|
    requires Labels(rows, x) == labels
    requires forall i :: 0 <= i < |labels| ==> !IsWhitespace(labels[i])
    ensures ConstructStacks(rows)[x] == Stack(x % 256, labels)
  {
    NonBlankKeeps(labels);
  }

  lemma ExampleColumn0()
    ensures Drawable(ExampleRows) && ConstructStacks(ExampleRows)[0] == Stack(0, "NZ")
  {
    ExampleLabels();
    assert " NZ" == " " + "NZ";
    ColumnStack(ExampleRows, 0, " ", "NZ");
  }

  lemma ExampleColumn1()
    ensures Drawable(ExampleRows) && ConstructStacks(ExampleRows)[1] == Stack(1, "DCM")
  {
    ExampleLabels();
    ColumnStackFull(ExampleRows, 1, "DCM");
  }

  lemma ExampleColumn2()
    ensures Drawable(ExampleRows) && ConstructStacks(ExampleRows)[2] == Stack(2, "P")
  {
    ExampleLabels();
    assert "  P" == "  " + "P";
    ColumnStack(ExampleRows, 2, "  ", "P");
  }

  /** The example's rows build its three stacks. */
  lemma ExampleConstruct()
    ensures Drawable(ExampleRows) && ConstructStacks(ExampleRows) == ExampleStacks
  {
    ExampleColumn0();
    ExampleColumn1();
    ExampleColumn2();
    ThreeColumns(ExampleRows, ["NZ", "DCM", "P"]);
  }

  /** An instruction with one-digit fields is written with one digit each. */
  lemma RenderDigits(i: Instruction)
    requires i.count < 10 && i.from < 10 && i.to < 10
    ensures RenderInstruction(i)
         == "move " + [DigitChar(i.count)] + " from " + [DigitChar(i.from)] + " to " + [DigitChar(i.to)]
  {
  }

  /** The example's lines are its instructions written out. */
  lemma ExampleRendered(k: nat)
    requires k < 4
    ensures RenderInstruction(ExampleInstructions[k]) == ExampleMoves[k]
  {
    RenderDigits(ExampleInstructions[k]);
  }

  /** The example's instructions read back. */
  lemma ExampleParsedMoves()
    ensures ParseInstructions(Join(ExampleMoves, '\n')) == Some(ExampleInstructions)
  {
    ExampleLinesClean();
    LinesOfJoin(ExampleMoves);
    forall k | 0 <= k < |ExampleMoves|
      ensures ParseInstruction(ExampleMoves[k]) == Some(ExampleInstructions[k])
    {
      ExampleRendered(k);
      ParseInstructionOfRender(ExampleInstructions[k]);
    }
    ParseAllOf(ExampleMoves, ParseInstruction, ExampleInstructions);
  }

  /** An input whose two parts read as a drawing and instructions prepares to them. */
  lemma PrepareInputOf(input: string, rows: seq<seq<string>>, stacks: seq<Stack>, instructions: seq<Instruction>)
    requires |Parts(input)| >= 2
    requires ParseCrates(Parts(input)[0]) == rows && Drawable(rows) && ConstructStacks(rows) == stacks
    requires ParseInstructions(Parts(input)[1]) == Some(instructions)
    ensures PrepareInput(input) == Some((stacks, instructions))
  {
  }

  /** The example input prepares to its stacks and instructions. */
  lemma ExamplePrepareInput()
    ensures PrepareInput(ExampleInput) == Some((ExampleStacks, ExampleInstructions))
  {
    ExampleParts();
    ExampleCrates();
    ExampleConstruct();
    ExampleParsedMoves();
    PrepareInputOf(ExampleInput, ExampleRows, ExampleStacks, ExampleInstructions);
  }

  /** An executable run from prepared stacks answers with its final tops. */
  lemma AnswerOf(input: string, stacks: seq<Stack>, instructions: seq<Instruction>, part: nat, after: seq<Stack>)
    requires PrepareInput(input) == Some((stacks, instructions))
    requires Executable(stacks, instructions, part) && Run(stacks, instructions, part) == after
    ensures forall k :: 0 <= k < |after| ==> |after[k].crates| > 0
    ensures part == 1 ==> Part1(input) == Tops(after)
    ensures part == 2 ==> Part2(input) == Tops(after)
  {
  }

  lemma ExampleTops()
    ensures Tops(ExampleAfter1[3]) == "CMZ" && Tops(ExampleAfter2[3]) == "MCD"
  {
  }

  /** The example's instructions run to the end on both cranes. */
  lemma ExampleExecutable()
    ensures Executable(ExampleStacks, ExampleInstructions, 1)
    ensures Executable(ExampleStacks, ExampleInstructions, 2)
  {
    ExampleApplicable();
    ExampleRunPart1();
    ExampleRunPart2();
  }

  /** The example's answer to part 1, for any input that prepares like the example's. */
  lemma ExampleAnswer1(input: string)
    requires PrepareInput(input) == Some((ExampleStacks, ExampleInstructions))
    ensures Executable(ExampleStacks, ExampleInstructions, 1) && Part1(input) == "CMZ"
  {
    ExampleExecutable();
    ExampleRunPart1();
    AnswerOf(input, ExampleStacks, ExampleInstructions, 1, ExampleAfter1[3]);
    ExampleTops();
  }

  /** Likewise for part 2. */
  lemma ExampleAnswer2(input: string)
    requires PrepareInput(input) == Some((ExampleStacks, ExampleInstructions))
    ensures Executable(ExampleStacks, ExampleInstructions, 2) && Part2(input) == "MCD"
  {
    ExampleExecutable();
    ExampleRunPart2();
    AnswerOf(input, ExampleStacks, ExampleInstructions, 2, ExampleAfter2[3]);
    ExampleTops();
  }

  /** The example's answer to part 1: the crane moves one crate at a time. */
  lemma ExamplePart1()
    ensures PrepareInput(ExampleInput) == Some((ExampleStacks, ExampleInstructions))
    ensures Executable(ExampleStacks, ExampleInstructions, 1) && Part1(ExampleInput) == "CMZ"
  {
    ExamplePrepareInput();
    ExampleAnswer1(ExampleInput);
  }

  /** The example's answer to part 2: the crane moves blocks of crates. */
  lemma ExamplePart2()
    ensures PrepareInput(ExampleInput) == Some((ExampleStacks, ExampleInstructions))
    ensures Executable(ExampleStacks, ExampleInstructions, 2) && Part2(ExampleInput) == "MCD"
  {
    ExamplePrepareInput();
    ExampleAnswer2(ExampleInput);
  }
}

=== FILE: day6.dfy ===
/** Day 6: the start-of-packet and start-of-message markers of a datastream (src/day6/mod.rs).
    `execute` scans the windows of `unique_count` characters from the left and reports the
    position just after the first window whose characters are pairwise different. */
module Day6 {
  import opened Wrappers
  import opened Sequences

  /** The number of different values in `w`: the length of the window after `sort_unstable`
      and `dedup`. */
  function DistinctCount<T(==)>(w: seq<T>): (r: nat)
    ensures r <= |w|
  {
    if |w| == 0 then 0
    else if w[0] in w[1..] then DistinctCount(w[1..])
    else 1 + DistinctCount(w[1..])
  }

  /** The window `s[e-k..e]` ends a marker of `k` different characters. */
  predicate MarkerEndsAt<T(==)>(s: seq<T>, k: nat, e: int) {
    k <= e <= |s| && Distinct(s[e - k..e])
  }

  /** `e` ends the first marker of `s`: no window ending earlier is a marker. */
  ghost predicate IsFirstMarker<T>(s: seq<T>, k: nat, e: int) {
    MarkerEndsAt(s, k, e) && forall e' :: k <= e' < e ==> !MarkerEndsAt(s, k, e')
  }

  /** `execute` neither finds its window past the end of the input (where slicing panics) nor
      runs off the loop with a non-empty input: a marker starts at some index of the input. */
  ghost predicate HasMarker<T>(s: seq<T>, k: nat) {
    exists e :: MarkerEndsAt(s, k, e) && e - k < |s|
  }

  /** The count of different values is the window length exactly when the window has no
      repeated value. */
  lemma {:induction false} DistinctCountIff<T>(w: seq<T>)
    ensures DistinctCount(w) == |w| <==> Distinct(w)
  {
    if |w| > 0 {
      DistinctCountIff(w[1..]);
      if w[0] in w[1..] {
        var j :| 0 <= j < |w[1..]| && w[1..][j] == w[0];
        assert w[0] == w[j + 1];
      } else {
        if Distinct(w[1..]) {
          forall i, j | 0 <= i < j < |w|
            ensures w[i] != w[j]
          {
            if i == 0 {
              assert w[j] == w[1..][j - 1];
            } else {
              assert w[i] == w[1..][i - 1] && w[j] == w[1..][j - 1];
            }
          }
        } else {
          var i, j :| 0 <= i < j < |w[1..]| && w[1..][i] == w[1..][j];
          assert w[i + 1] == w[j + 1];
        }
      }
    }
  }

  /** `execute`: `None` for the empty input, otherwise the end of the first marker. */
  method Execute<T(==)>(s: seq<T>, k: nat) returns (r: Option<nat>)
    requires |s| == 0 || HasMarker(s, k)
    ensures r.None? <==> |s| == 0
    ensures r.Some? ==> IsFirstMarker(s, k, r.value)
  {
    var i := 0;
    while i < |s|
      invariant 0 <= i <= |s|
      invariant forall e :: k <= e < i + k ==> !MarkerEndsAt(s, k, e)
    {
      ghost var e :| MarkerEndsAt(s, k, e) && e - k < |s|;
      assert i + k <= e;
      var window := s[i..i + k];
      DistinctCountIff(window);
      if DistinctCount(window) == k {
        return Some(i + k);
      }
      i := i + 1;
    }
    return None;
  }

  /** Only one end of a marker is the first. */
  lemma FirstMarkerUnique<T>(s: seq<T>, k: nat, e1: nat, e2: nat)
    requires IsFirstMarker(s, k, e1) && IsFirstMarker(s, k, e2)
    ensures e1 == e2
  {
  }

  /** `part_1`: the end of the first start-of-packet marker of four different characters. */
  method Part1(input: string) returns (r: nat)
    requires HasMarker(input, 4)
    ensures IsFirstMarker(input, 4, r)
  {
    var found := Execute(input, 4);
    r := found.value;
  }

  /** `part_2`: the end of the first start-of-message marker of fourteen different characters. */
  method Part2(input: string) returns (r: nat)
    requires HasMarker(input, 14)
    ensures IsFirstMarker(input, 14, r)
  {
    var found := Execute(input, 14);
    r := found.value;
  }

  /** Two equal values less than `k` apart rule out every window holding both. */
  lemma RepeatBlocks<T>(s: seq<T>, k: nat, i: nat, j: nat)
    requires i < j < |s| && j - i < k && s[i] == s[j]
    ensures forall e :: j < e <= i + k ==> !MarkerEndsAt(s, k, e)
  {
    forall e | j < e <= i + k
      ensures !MarkerEndsAt(s, k, e)
    {
      if k <= e <= |s| {
        assert s[e - k..e][i - (e - k)] == s[e - k..e][j - (e - k)];
      }
    }
  }

  /** A slice is the sequence it agrees with position by position. */
  lemma SliceIs<T>(s: seq<T>, lo: nat, w: seq<T>)
    requires lo + |w| <= |s|
    requires forall i :: 0 <= i < |w| ==> s[lo + i] == w[i]
    ensures s[lo..lo + |w|] == w
  {
  }

  /** A window equal to a sequence of different values ends a marker. */
  lemma WindowMarker<T>(s: seq<T>, k: nat, e: nat, w: seq<T>)
    requires k <= e <= |s| && |w| == k
    requires s[e - k..e] == w && Distinct(w)
    ensures MarkerEndsAt(s, k, e)
  {
  }

  // ---------------------------------------------------------------------------
  // The examples of the test module
  // ---------------------------------------------------------------------------

  const Examples: seq<string> := [
    "mjqjpqmgbljsphdztnvjfqwrcgsmlb",
    "bvwbjplbgvbhsrlpgdmjqwftvncz",
    "nppdvjthqldpwncqszvftbrmjlhg",
    "nznrnfrfntjfmvfwmzdfjlvtqnbhcprsg",
    "zcfzfwzzqfrljwzlrfnpqdbhtmscgvjw"
  ]

  /** The four-character windows of the examples hold no repeated character. */
  lemma ExampleWindowsDistinct1()
    ensures Distinct("jpqm")
    ensures Distinct("vwbj")
    ensures Distinct("pdvj")
    ensures Distinct("rfnt")
    ensures Distinct("zqfr")
  {
  }

  /** The fourteen-character windows of the examples hold no repeated character. */
  lemma ExampleWindowsDistinct2()
    ensures Distinct("qmgbljsphdztnv")
    ensures Distinct("vbhsrlpgdmjqwf")
    ensures Distinct("ldpwncqszvftbr")
    ensures Distinct("wmzdfjlvtqnbhc")
    ensures Distinct("jwzlrfnpqdbhtm")
  {
  }

  lemma Example0Part1()
    ensures IsFirstMarker(Examples[0], 4, 7)
  {
    SliceIs(Examples[0], 3, "jpqm");
    ExampleWindowsDistinct1();
    WindowMarker(Examples[0], 4, 7, "jpqm");
    RepeatBlocks(Examples[0], 4, 1, 3);
    RepeatBlocks(Examples[0], 4, 2, 5);
  }

  lemma Example0Part2()
    ensures IsFirstMarker(Examples[0], 14, 19)
  {
    SliceIs(Examples[0], 5, "qmgbljsphdztnv");
    ExampleWindowsDistinct2();
    WindowMarker(Examples[0], 14, 19, "qmgbljsphdztnv");
    RepeatBlocks(Examples[0], 14, 4, 12);
  }

  lemma Example1Part1()
    ensures IsFirstMarker(Examples[1], 4, 5)
  {
    SliceIs(Examples[1], 1, "vwbj");
    ExampleWindowsDistinct1();
    WindowMarker(Examples[1], 4, 5, "vwbj");
    RepeatBlocks(Examples[1], 4, 0, 3);
  }

  lemma Example1Part2()
    ensures IsFirstMarker(Examples[1], 14, 23)
  {
    SliceIs(Examples[1], 9, "vbhsrlpgdmjqwf");
    ExampleWindowsDistinct2();
    WindowMarker(Examples[1], 14, 23, "vbhsrlpgdmjqwf");
    RepeatBlocks(Examples[1], 14, 7, 10);
    RepeatBlocks(Examples[1], 14, 8, 16);
  }

  lemma Example2Part1()
    ensures IsFirstMarker(Examples[2], 4, 6)
  {
    SliceIs(Examples[2], 2, "pdvj");
    ExampleWindowsDistinct1();
    WindowMarker(Examples[2], 4, 6, "pdvj");
    RepeatBlocks(Examples[2], 4, 1, 2);
  }

  lemma Example2Part2()
    ensures IsFirstMarker(Examples[2], 14, 23)
  {
    SliceIs(Examples[2], 9, "ldpwncqszvftbr");
    ExampleWindowsDistinct2();
    WindowMarker(Examples[2], 14, 23, "ldpwncqszvftbr");
    RepeatBlocks(Examples[2], 14, 3, 10);
    RepeatBlocks(Examples[2], 14, 8, 15);
  }

  lemma Example3Part1()
    ensures IsFirstMarker(Examples[3], 4, 10)
  {
    SliceIs(Examples[3], 6, "rfnt");
    ExampleWindowsDistinct1();
    WindowMarker(Examples[3], 4, 10, "rfnt");
    RepeatBlocks(Examples[3], 4, 0, 2);
    RepeatBlocks(Examples[3], 4, 2, 4);
    RepeatBlocks(Examples[3], 4, 3, 6);
    RepeatBlocks(Examples[3], 4, 5, 7);
  }

  lemma Example3Part2()
    ensures IsFirstMarker(Examples[3], 14, 29)
  {
    SliceIs(Examples[3], 15, "wmzdfjlvtqnbhc");
    ExampleWindowsDistinct2();
    WindowMarker(Examples[3], 14, 29, "wmzdfjlvtqnbhc");
    RepeatBlocks(Examples[3], 14, 7, 11);
    RepeatBlocks(Examples[3], 14, 14, 19);
  }

  lemma Example4Part1()
    ensures IsFirstMarker(Examples[4], 4, 11)
  {
    SliceIs(Examples[4], 7, "zqfr");
    ExampleWindowsDistinct1();
    WindowMarker(Examples[4], 4, 11, "zqfr");
    RepeatBlocks(Examples[4], 4, 0, 3);
    RepeatBlocks(Examples[4], 4, 2, 4);
    RepeatBlocks(Examples[4], 4, 3, 6);
    RepeatBlocks(Examples[4], 4, 6, 7);
  }

  lemma Example4Part2()
    ensures IsFirstMarker(Examples[4], 14, 26)
  {
    SliceIs(Examples[4], 12, "jwzlrfnpqdbhtm");
    ExampleWindowsDistinct2();
    WindowMarker(Examples[4], 14, 26, "jwzlrfnpqdbhtm");
    RepeatBlocks(Examples[4], 14, 6, 7);
    RepeatBlocks(Examples[4], 14, 11, 15);
  }
}

=== FILE: day8.dfy ===
/** Day 8: a grid of tree heights (src/day8/mod.rs). Part 1 counts the trees visible from
    outside the grid, part 2 finds the highest scenic score: the product of the viewing
    distances in the four directions. */
module Day8 {
  import opened Wrappers
  import opened Text
  import opened Sequences

  /** `Tree`: a height (a `u32`; the input only holds single digits). */
  type Tree = nat

  /** The parsed forest: one row of heights per line. Rows may differ in length. */
  type Grid = seq<seq<Tree>>

  // ---------------------------------------------------------------------------
  // Parsing
  // ---------------------------------------------------------------------------

  /** The one-character strings of `row.chars()`, each turned `to_string`. */
  function Chars(row: string): (r: seq<string>)
    ensures |r| == |row|
    ensures forall i :: 0 <= i < |row| ==> r[i] == [row[i]]
  {
    seq(|row|, i requires 0 <= i < |row| => [row[i]])
  }

  /** A one-character string parses exactly when the character is a digit, to its value. */
  lemma ParseUnsignedChar(c: char)
    ensures ParseUnsigned([c]).Some? <==> IsDigit(c)
    ensures IsDigit(c) ==> ParseUnsigned([c]) == Some(DigitValue(c))
  {
    if IsDigit(c) {
      assert [c][..0] == [];
      assert DigitsValue([c]) == DigitsValue([]) * 10 + DigitValue(c);
    }
  }

  /** One row: every character parsed as a number, or `None` (where `unwrap` panics). */
  function ParseRow(row: string): (r: Option<seq<Tree>>)
    ensures r.Some? <==> AllDigits(row)
    ensures r.Some? ==> |r.value| == |row|
    ensures r.Some? ==> forall i :: 0 <= i < |row| ==> r.value[i] == DigitValue(row[i])
  {
    var cs := Chars(row);
    assert forall i :: 0 <= i < |row| ==> (ParseUnsigned(cs[i]).Some? <==> IsDigit(row[i])) by {
      forall i | 0 <= i < |row| {
        ParseUnsignedChar(row[i]);
      }
    }
    assert forall i :: 0 <= i < |row| && IsDigit(row[i]) ==>
      ParseUnsigned(cs[i]) == Some(DigitValue(row[i])) by {
      forall i | 0 <= i < |row| && IsDigit(row[i]) {
        ParseUnsignedChar(row[i]);
      }
    }
    ParseAll(cs, ParseUnsigned)
  }

  /** `parse_input`: a row per line of the trimmed input. */
  function ParseInput(input: string): (r: Option<Grid>)
    ensures r.Some? <==> forall i :: 0 <= i < |Lines(input)| ==> AllDigits(Lines(input)[i])
    ensures r.Some? ==> |r.value| == |Lines(input)|
  {
    ParseAll(Lines(input), ParseRow)
  }

  /** The line of a row of single-digit heights. */
  function RenderRow(row: seq<Tree>): (s: string)
    requires forall i :: 0 <= i < |row| ==> row[i] < 10
    ensures |s| == |row| && AllDigits(s)
    ensures forall i :: 0 <= i < |row| ==> DigitValue(s[i]) == row[i]
  {
    seq(|row|, i requires 0 <= i < |row| => DigitChar(row[i]))
  }

  /** The text of a grid of single digits with non-empty rows. */
  function RenderGrid(grid: Grid): string
    requires |grid| >= 1
    requires forall y :: 0 <= y < |grid| ==> |grid[y]| > 0
    requires forall y, x :: 0 <= y < |grid| && 0 <= x < |grid[y]| ==> grid[y][x] < 10
  {
    Join(seq(|grid|, y requires 0 <= y < |grid| => RenderRow(grid[y])), '\n')
  }

  /** A rendered row of a grid parses back to the row and is a line of digits. */
  lemma RenderRowParses(row: seq<Tree>)
    requires |row| > 0
    requires forall i :: 0 <= i < |row| ==> row[i] < 10
    ensures ParseRow(RenderRow(row)) == Some(row)
    ensures var line := RenderRow(row);
            |line| > 0 && '\n' !in line && !IsWhitespace(line[0]) && !IsWhitespace(line[|line| - 1])
  {
    assert ParseRow(RenderRow(row)).value == row;
  }

  /** Parsing a rendered grid gives the grid back. */
  lemma ParseInputOfRender(grid: Grid)
    requires |grid| >= 1
    requires forall y :: 0 <= y < |grid| ==> |grid[y]| > 0
    requires forall y, x :: 0 <= y < |grid| && 0 <= x < |grid[y]| ==> grid[y][x] < 10
    ensures ParseInput(RenderGrid(grid)) == Some(grid)
  {
    var lines := seq(|grid|, y requires 0 <= y < |grid| => RenderRow(grid[y]));
    forall y | 0 <= y < |lines|
      ensures ParseRow(lines[y]) == Some(grid[y])
      ensures |lines[y]| > 0 && '\n' !in lines[y]
      ensures !IsWhitespace(lines[y][0]) && !IsWhitespace(lines[y][|lines[y]| - 1])
    {
      RenderRowParses(grid[y]);
    }
    LinesOfJoin(lines);
    ParseAllOf(lines, ParseRow, grid);
  }

  // ---------------------------------------------------------------------------
  // Looking from a tree
  // ---------------------------------------------------------------------------

  predicate IsCell(grid: Grid, x: int, y: int) {
    0 <= y < |grid| && 0 <= x < |grid[y]|
  }

  /** Every row is long enough to index column `x` (`row[x]` does not panic). */
  predicate ColumnReaches(grid: Grid, x: nat) {
    forall r :: 0 <= r < |grid| ==> x < |grid[r]|
  }

  /** All rows have the length of the first. */
  predicate Rectangular(grid: Grid) {
    forall r :: 0 <= r < |grid| ==> |grid[r]| == |grid[0]|
  }

  /** `matrix.iter().map(|row| row[x])`: the heights of column `x`, top to bottom. */
  function Column(grid: Grid, x: nat): (c: seq<Tree>)
    requires ColumnReaches(grid, x)
    ensures |c| == |grid|
    ensures forall r :: 0 <= r < |grid| ==> c[r] == grid[r][x]
  {
    seq(|grid|, r requires 0 <= r < |grid| => grid[r][x])
  }

  /** `get_all_trees_above`: column `x` above row `y`, top to bottom. */
  function Above(grid: Grid, x: nat, y: nat): (r: seq<Tree>)
    requires ColumnReaches(grid, x) && y < |grid|
    ensures |r| == y
    ensures forall i :: 0 <= i < y ==> r[i] == grid[i][x]
  {
    Column(grid, x)[..y]
  }

  /** `get_all_trees_below`: column `x` below row `y`, top to bottom. */
  function Below(grid: Grid, x: nat, y: nat): (r: seq<Tree>)
    requires ColumnReaches(grid, x) && y < |grid|
    ensures |r| == |grid| - y - 1
    ensures forall i :: 0 <= i < |r| ==> r[i] == grid[y + 1 + i][x]
  {
    Column(grid, x)[y + 1..]
  }

  /** `get_all_trees_to_the_left`: the row left of `x`, left to right. */
  function Left(row: seq<Tree>, x: nat): (r: seq<Tree>)
    requires x < |row|
    ensures |r| == x
    ensures forall i :: 0 <= i < x ==> r[i] == row[i]
  {
    row[..x]
  }

  /** `get_all_trees_to_the_right`: the row right of `x`, left to right. */
  function Right(row: seq<Tree>, x: nat): (r: seq<Tree>)
    requires x < |row|
    ensures |r| == |row| - x - 1
    ensures forall i :: 0 <= i < |r| ==> r[i] == row[x + 1 + i]
  {
    row[x + 1..]
  }

  /** `is_on_forest_edge`: the first or last tree of its row, or in the first or last row. */
  predicate OnEdge(grid: Grid, x: nat, y: nat)
    requires IsCell(grid, x, y)
  {
    x == 0 || x == |grid[y]| - 1 || y == 0 || y == |grid| - 1
  }

  /** The trees left and right of a tree, with the tree between them, are its row. */
  lemma RowAroundTree(row: seq<Tree>, x: nat)
    requires x < |row|
    ensures Left(row, x) + [row[x]] + Right(row, x) == row
  {
    assert row == row[..x] + [row[x]] + row[x + 1..];
  }

  /** The trees above and below a tree, with the tree between them, are its column. */
  lemma ColumnAroundTree(grid: Grid, x: nat, y: nat)
    requires ColumnReaches(grid, x) && y < |grid|
    ensures Above(grid, x, y) + [grid[y][x]] + Below(grid, x, y) == Column(grid, x)
  {
    var c := Column(grid, x);
    assert c == c[..y] + [c[y]] + c[y + 1..];
  }

  /** A tree is on the edge exactly when one of its four lines of sight is empty. */
  lemma OnEdgeIffEmptySightLine(grid: Grid, x: nat, y: nat)
    requires IsCell(grid, x, y) && ColumnReaches(grid, x)
    ensures OnEdge(grid, x, y) <==>
              |Left(grid[y], x)| == 0 || |Right(grid[y], x)| == 0 ||
              |Above(grid, x, y)| == 0 || |Below(grid, x, y)| == 0
  {
  }

  /** Every tree of the line is strictly lower than `h`. */
  predicate AllLower(line: seq<Tree>, h: Tree) {
    forall i :: 0 <= i < |line| ==> line[i] < h
  }

  // ---------------------------------------------------------------------------
  // Part 1: visibility
  // ---------------------------------------------------------------------------

  /** `part_1` looks around exactly the trees off the edge, and looking around reads column `x`
      of every row (`skip` still maps the rows it skips): no tree off the edge sits in a column
      that some row is too short for. */
  predicate Part1Safe(grid: Grid) {
    forall y, x :: 0 <= y < |grid| && 0 <= x < |grid[y]| && !OnEdge(grid, x, y) ==>
      ColumnReaches(grid, x)
  }

  /** The tree at (x, y) counts in part 1: on the edge, or strictly higher than every tree in
      one of the four directions. */
  predicate Visible(grid: Grid, x: nat, y: nat)
    requires IsCell(grid, x, y) && (OnEdge(grid, x, y) || ColumnReaches(grid, x))
  {
    var h := grid[y][x];
    OnEdge(grid, x, y)
    || AllLower(Below(grid, x, y), h) || AllLower(Above(grid, x, y), h)
    || AllLower(Left(grid[y], x), h) || AllLower(Right(grid[y], x), h)
  }

  /** On a rectangular grid the edge test is implied by the four directions: a tree is visible
      exactly when every tree between it and some side of the grid is lower. */
  lemma VisibleIffClearLine(grid: Grid, x: nat, y: nat)
    requires Rectangular(grid) && IsCell(grid, x, y)
    ensures ColumnReaches(grid, x)
    ensures Visible(grid, x, y) <==>
      || (forall r :: y < r < |grid| ==> grid[r][x] < grid[y][x])
      || (forall r :: 0 <= r < y ==> grid[r][x] < grid[y][x])
      || (forall c :: 0 <= c < x ==> grid[y][c] < grid[y][x])
      || (forall c :: x < c < |grid[y]| ==> grid[y][c] < grid[y][x])
  {
    var h := grid[y][x];
    assert ColumnReaches(grid, x);
    var below, above := Below(grid, x, y), Above(grid, x, y);
    assert AllLower(below, h) <==> forall r :: y < r < |grid| ==> grid[r][x] < h by {
      if AllLower(below, h) {
        forall r | y < r < |grid|
          ensures grid[r][x] < h
        {
          assert below[r - y - 1] == grid[r][x];
        }
      }
    }
    assert AllLower(above, h) <==> forall r :: 0 <= r < y ==> grid[r][x] < h;
    assert AllLower(Right(grid[y], x), h) <==> forall c :: x < c < |grid[y]| ==> grid[y][c] < h by {
      var right := Right(grid[y], x);
      if AllLower(right, h) {
        forall c | x < c < |grid[y]|
          ensures grid[y][c] < h
        {
          assert right[c - x - 1] == grid[y][c];
        }
      }
    }
  }

  /** The number of visible trees among the first `n` of row `y`. */
  function RowVisibleCount(grid: Grid, y: nat, n: nat): (r: nat)
    requires Part1Safe(grid) && y < |grid| && n <= |grid[y]|
    ensures r <= n
  {
    if n == 0 then 0
    else RowVisibleCount(grid, y, n - 1) + (if Visible(grid, n - 1, y) then 1 else 0)
  }

  /** The number of visible trees in the first `m` rows. */
  function VisibleCountUpTo(grid: Grid, m: nat): nat
    requires Part1Safe(grid) && m <= |grid|
  {
    if m == 0 then 0 else VisibleCountUpTo(grid, m - 1) + RowVisibleCount(grid, m - 1, |grid[m - 1]|)
  }

  /** The `part_1` sum over the rows of the per-row folds. */
  function VisibleCount(grid: Grid): nat
    requires Part1Safe(grid)
  {
    VisibleCountUpTo(grid, |grid|)
  }

  /** The positions (x, y) of the visible trees. */
  ghost function VisibleCells(grid: Grid): set<(nat, nat)>
    requires Part1Safe(grid)
  {
    set y: nat, x: nat | y < |grid| && x < |grid[y]| && Visible(grid, x, y) :: (x, y)
  }

  ghost function VisibleCellsOfRow(grid: Grid, y: nat, n: nat): set<(nat, nat)>
    requires Part1Safe(grid) && y < |grid| && n <= |grid[y]|
  {
    set x: nat | x < n && Visible(grid, x, y) :: (x, y)
  }

  ghost function VisibleCellsUpTo(grid: Grid, m: nat): set<(nat, nat)>
    requires Part1Safe(grid) && m <= |grid|
  {
    set y: nat, x: nat | y < m && x < |grid[y]| && Visible(grid, x, y) :: (x, y)
  }

  /** One more position of the row adds its cell exactly when that tree is visible. */
  lemma VisibleCellsOfRowStep(grid: Grid, y: nat, n: nat)
    requires Part1Safe(grid) && y < |grid| && 0 < n <= |grid[y]|
    ensures (n - 1, y) !in VisibleCellsOfRow(grid, y, n - 1)
    ensures VisibleCellsOfRow(grid, y, n) ==
              VisibleCellsOfRow(grid, y, n - 1) + (if Visible(grid, n - 1, y) then {(n - 1, y)} else {})
  {
  }

  lemma {:induction false} RowVisibleCountIsCardinality(grid: Grid, y: nat, n: nat)
    requires Part1Safe(grid) && y < |grid| && n <= |grid[y]|
    ensures RowVisibleCount(grid, y, n) == |VisibleCellsOfRow(grid, y, n)|
  {
    if n > 0 {
      RowVisibleCountIsCardinality(grid, y, n - 1);
      VisibleCellsOfRowStep(grid, y, n);
      var visible := Visible(grid, n - 1, y);
      assert RowVisibleCount(grid, y, n) == RowVisibleCount(grid, y, n - 1) + (if visible then 1 else 0);
      CardinalityStep(VisibleCellsOfRow(grid, y, n - 1), (n - 1, y), visible);
    }
  }

  /** Adding a new element to a set, or nothing, counts one more, or none. */
  lemma CardinalityStep<T>(before: set<T>, c: T, add: bool)
    requires c !in before
    ensures |before + (if add then {c} else {})| == |before| + (if add then 1 else 0)
  {
    if !add {
      assert before + {} == before;
    }
  }

  lemma {:induction false} VisibleCountUpToIsCardinality(grid: Grid, m: nat)
    requires Part1Safe(grid) && m <= |grid|
    ensures VisibleCountUpTo(grid, m) == |VisibleCellsUpTo(grid, m)|
  {
    if m > 0 {
      VisibleCountUpToIsCardinality(grid, m - 1);
      RowVisibleCountIsCardinality(grid, m - 1, |grid[m - 1]|);
      var before := VisibleCellsUpTo(grid, m - 1);
      var row := VisibleCellsOfRow(grid, m - 1, |grid[m - 1]|);
      assert VisibleCellsUpTo(grid, m) == before + row;
      assert before !! row;
    }
  }

  /** The count of `part_1` is the number of visible positions. */
  lemma VisibleCountIsCardinality(grid: Grid)
    requires Part1Safe(grid)
    ensures VisibleCount(grid) == |VisibleCells(grid)|
  {
    VisibleCountUpToIsCardinality(grid, |grid|);
    assert VisibleCellsUpTo(grid, |grid|) == VisibleCells(grid);
  }

  /** A rectangular grid never panics in `part_1`. */
  lemma RectangularIsPart1Safe(grid: Grid)
    requires Rectangular(grid)
    ensures Part1Safe(grid)
  {
  }

  /** `part_1`. */
  function Part1(input: string): (r: nat)
    requires ParseInput(input).Some? && Part1Safe(ParseInput(input).value)
    ensures r == |VisibleCells(ParseInput(input).value)|
  {
    VisibleCountIsCardinality(ParseInput(input).value);
    VisibleCount(ParseInput(input).value)
  }

  // ---------------------------------------------------------------------------
  // Part 2: scenic scores
  // ---------------------------------------------------------------------------

  /** How many trees of `line`, nearest first, a tree of height `h` sees: up to and including
      the first one at least as high, or all of them. */
  function ViewDistance(line: seq<Tree>, h: Tree): (d: nat)
    ensures d <= |line|
    ensures d == 0 <==> |line| == 0
    ensures forall i :: 0 <= i < d - 1 ==> line[i] < h
    ensures d == |line| || line[d - 1] >= h
  {
    if |line| == 0 then 0
    else if line[0] < h then 1 + ViewDistance(line[1..], h)
    else 1
  }

  /** The contract of `ViewDistance` pins its value down. */
  lemma ViewDistanceUnique(line: seq<Tree>, h: Tree, d: nat)
    requires d <= |line| && (d == 0 <==> |line| == 0)
    requires forall i :: 0 <= i < d - 1 ==> line[i] < h
    requires d == |line| || line[d - 1] >= h
    ensures d == ViewDistance(line, h)
  {
    var v := ViewDistance(line, h);
    if d < v {
      assert false;
    } else if v < d {
      assert false;
    }
  }

  /** `get_max_view`: with `rev` the line is walked from its end. */
  function MaxView(line: seq<Tree>, h: Tree, rev: bool): nat {
    if rev then ViewDistance(Reverse(line), h) else ViewDistance(line, h)
  }

  /** The tree sees past every lower tree, from the nearest end of the line, up to and
      including the first one at least as high. */
  lemma MaxViewStops(line: seq<Tree>, h: Tree, rev: bool)
    ensures var d := MaxView(line, h, rev);
            d <= |line| && (d == 0 <==> |line| == 0)
    ensures var d := MaxView(line, h, rev);
            !rev ==> (forall i :: 0 <= i < d - 1 ==> line[i] < h) && (d == |line| || line[d - 1] >= h)
    ensures var d := MaxView(line, h, rev);
            rev ==> (forall i :: |line| - d < i < |line| ==> line[i] < h) &&
                    (d == |line| || line[|line| - d] >= h)
  {
    if rev {
      var back := Reverse(line);
      var d := ViewDistance(back, h);
      forall i | |line| - d < i < |line|
        ensures line[i] < h
      {
        assert back[|line| - 1 - i] == line[i];
      }
      assert d < |line| ==> back[d - 1] == line[|line| - d];
    }
  }

  /** The product of the four viewing distances, zero exactly when one of them is. */
  function Product(a: nat, b: nat, c: nat, d: nat): (p: nat)
    ensures p == 0 <==> a == 0 || b == 0 || c == 0 || d == 0
  {
    var ab: nat := a * b;
    var abc: nat := ab * c;
    abc * d
  }

  /** The scenic score of the tree at (x, y): left and above walked backwards from the tree,
      right and below forwards. */
  function ScenicScore(grid: Grid, x: nat, y: nat): nat
    requires Rectangular(grid) && IsCell(grid, x, y)
  {
    RectangularReaches(grid, x, y);
    var h := grid[y][x];
    Product(MaxView(Left(grid[y], x), h, true), MaxView(Right(grid[y], x), h, false),
            MaxView(Above(grid, x, y), h, true), MaxView(Below(grid, x, y), h, false))
  }

  /** No tree sees past the edge: its score is at most the product of the lengths of its four
      lines of sight. */
  lemma ScenicScoreAtMost(grid: Grid, x: nat, y: nat)
    requires Rectangular(grid) && IsCell(grid, x, y)
    ensures ScenicScore(grid, x, y) <= Product(x, |grid[y]| - x - 1, y, |grid| - y - 1)
  {
    RectangularReaches(grid, x, y);
    var h := grid[y][x];
    ProductAtMost(MaxView(Left(grid[y], x), h, true), MaxView(Right(grid[y], x), h, false),
                  MaxView(Above(grid, x, y), h, true), MaxView(Below(grid, x, y), h, false),
                  x, |grid[y]| - x - 1, y, |grid| - y - 1);
  }

  /** A product grows with its factors. */
  lemma ProductAtMost(a: nat, b: nat, c: nat, d: nat, a': nat, b': nat, c': nat, d': nat)
    requires a <= a' && b <= b' && c <= c' && d <= d'
    ensures Product(a, b, c, d) <= Product(a', b', c', d')
  {
    MulAtMost(a, b, a', b');
    MulAtMost(a * b, c, a' * b', c');
    MulAtMost(a * b * c, d, a' * b' * c', d');
    assert Product(a', b', c', d') == a' * b' * c' * d';
  }

  lemma MulAtMost(p: nat, q: nat, p': nat, q': nat)
    requires p <= p' && q <= q'
    ensures p * q <= p' * q'
  {
    assert p * q <= p' * q;
    assert p' * q <= p' * q';
  }

  /** A tree scores zero exactly when it stands on the edge, where one direction is empty. */
  lemma ScenicScoreZeroIffEdge(grid: Grid, x: nat, y: nat)
    requires Rectangular(grid) && IsCell(grid, x, y)
    ensures ScenicScore(grid, x, y) == 0 <==> OnEdge(grid, x, y)
  {
    RectangularReaches(grid, x, y);
    assert |Above(grid, x, y)| == y && |Below(grid, x, y)| == |grid| - y - 1;
  }

  /** Every position of a rectangular grid can look around without a panic. */
  lemma RectangularReaches(grid: Grid, x: nat, y: nat)
    requires Rectangular(grid) && IsCell(grid, x, y)
    ensures ColumnReaches(grid, x)
  {
  }

  /** `part_2` looks around every tree, so it panics unless every column index of every row is
      one that all rows reach: exactly the rectangular grids. */
  lemma Part2SafeIffRectangular(grid: Grid)
    ensures (forall y, x :: IsCell(grid, x, y) ==> ColumnReaches(grid, x)) <==> Rectangular(grid)
  {
    if forall y, x :: IsCell(grid, x, y) ==> ColumnReaches(grid, x) {
      forall r | 0 <= r < |grid|
        ensures |grid[r]| == |grid[0]|
      {
        if |grid[r]| > 0 {
          assert IsCell(grid, |grid[r]| - 1, r);
        }
        if |grid[0]| > 0 {
          assert IsCell(grid, |grid[0]| - 1, 0);
        }
      }
    }
  }

  /** The highest of `best0` and the scenic scores of row `y`, with a tree of the row that
      reaches it when it is higher than `best0`. */
  method RowBest(grid: Grid, y: nat, best0: nat) returns (best: nat, ghost bestX: nat)
    requires Rectangular(grid) && y < |grid|
    ensures best >= best0
    ensures forall x :: 0 <= x < |grid[y]| ==> ScenicScore(grid, x, y) <= best
    ensures best == best0 || (bestX < |grid[y]| && ScenicScore(grid, bestX, y) == best)
  {
    best, bestX := MaxFrom(RowScores(grid, y), best0);
  }

  /** The scenic scores of row `y`, left to right. */
  function RowScores(grid: Grid, y: nat): (r: seq<nat>)
    requires Rectangular(grid) && y < |grid|
    ensures |r| == |grid[y]|
    ensures forall x :: 0 <= x < |r| ==> r[x] == ScenicScore(grid, x, y)
  {
    seq(|grid[y]|, x requires 0 <= x < |grid[y]| => ScenicScore(grid, x, y))
  }

  /** The inner loop of `part_2`: `best0` raised to each larger score in turn, with the
      position of the score that set it. */
  method MaxFrom(scores: seq<nat>, best0: nat) returns (best: nat, ghost at: nat)
    ensures best >= best0
    ensures forall x :: 0 <= x < |scores| ==> scores[x] <= best
    ensures best == best0 || (at < |scores| && scores[at] == best)
  {
    best, at := best0, 0;
    var x := 0;
    while x < |scores|
      invariant x <= |scores|
      invariant best >= best0
      invariant forall xx :: 0 <= xx < x ==> scores[xx] <= best
      invariant best == best0 || (at < |scores| && scores[at] == best)
    {
      var score := scores[x];
      if score > best {
        best, at := score, x;
      }
      x := x + 1;
    }
  }

  /** The highest scenic score of a rectangular grid, or 0 for a grid without trees. */
  method HighestScore(grid: Grid) returns (best: nat)
    requires Rectangular(grid)
    ensures forall y, x :: IsCell(grid, x, y) ==> ScenicScore(grid, x, y) <= best
    ensures best == 0 || exists y, x :: IsCell(grid, x, y) && ScenicScore(grid, x, y) == best
  {
    best := 0;
    ghost var bestX, bestY := 0, 0;
    var y := 0;
    while y < |grid|
      invariant y <= |grid|
      invariant forall yy, x :: IsCell(grid, x, yy) && yy < y ==> ScenicScore(grid, x, yy) <= best
      invariant best == 0 || (IsCell(grid, bestX, bestY) && ScenicScore(grid, bestX, bestY) == best)
    {
      var rowBest;
      ghost var rowX;
      rowBest, rowX := RowBest(grid, y, best);
      if rowBest != best {
        bestX, bestY := rowX, y;
      }
      best := rowBest;
      y := y + 1;
    }
  }

  /** `part_2`. */
  method Part2(input: string) returns (r: nat)
    requires ParseInput(input).Some? && Rectangular(ParseInput(input).value)
    ensures var grid := ParseInput(input).value;
            forall y, x :: IsCell(grid, x, y) ==> ScenicScore(grid, x, y) <= r
    ensures var grid := ParseInput(input).value;
            r == 0 || exists y, x :: IsCell(grid, x, y) && ScenicScore(grid, x, y) == r
  {
    r := HighestScore(ParseInput(input).value);
  }

  // ---------------------------------------------------------------------------
  // The example of the test module
  // ---------------------------------------------------------------------------

  /** The example input, written as its lines joined by newlines. */
  const ExampleRows: seq<string> := ["30373", "25512", "65332", "33549", "35390"]
  const ExampleInput: string := Join(ExampleRows, '\n')

  const ExampleGrid: Grid :=
    [[3, 0, 3, 7, 3], [2, 5, 5, 1, 2], [6, 5, 3, 3, 2], [3, 3, 5, 4, 9], [3, 5, 3, 9, 0]]

  lemma ExampleRenders()
    ensures forall y :: 0 <= y < 5 ==> RenderRow(ExampleGrid[y]) == ExampleRows[y]
  {
  }

  lemma ExampleRectangular()
    ensures Rectangular(ExampleGrid)
  {
  }

  lemma ExampleColumn2()
    ensures Column(ExampleGrid, 2) == [3, 5, 3, 5, 3]
  {
  }

  lemma ExampleColumn1()
    ensures Column(ExampleGrid, 1) == [0, 5, 5, 3, 5]
  {
  }

  lemma ExampleColumn3()
    ensures Column(ExampleGrid, 3) == [7, 1, 3, 4, 9]
  {
  }

  lemma ExampleCell11()
    ensures ColumnReaches(ExampleGrid, 1)
    ensures Left(ExampleGrid[1], 1) == [2] && Right(ExampleGrid[1], 1) == [5, 1, 2]
    ensures Above(ExampleGrid, 1, 1) == [0] && Below(ExampleGrid, 1, 1) == [5, 3, 5]
  {
    ExampleColumn1();
  }

  lemma ExampleVisible11()
    ensures ColumnReaches(ExampleGrid, 1) && Visible(ExampleGrid, 1, 1)
  {
    ExampleCell11();
  }

  lemma ExampleNear11()
    ensures ColumnReaches(ExampleGrid, 1)
    ensures Reverse(Left(ExampleGrid[1], 1)) == [2] && Reverse(Above(ExampleGrid, 1, 1)) == [0]
  {
    ExampleCell11();
    assert Reverse([2]) == [2];
    assert Reverse([0]) == [0];
  }

  /** The score from the four viewing distances. */
  lemma ScoreFrom(grid: Grid, x: nat, y: nat, h: Tree, dl: nat, dr: nat, da: nat, db: nat)
    requires Rectangular(grid) && IsCell(grid, x, y) && grid[y][x] == h
    requires ColumnReaches(grid, x)
    requires ViewDistance(Reverse(Left(grid[y], x)), h) == dl && ViewDistance(Right(grid[y], x), h) == dr
    requires ViewDistance(Reverse(Above(grid, x, y)), h) == da && ViewDistance(Below(grid, x, y), h) == db
    ensures ScenicScore(grid, x, y) == dl * dr * da * db
  {
  }

  lemma ExampleViews11()
    ensures ViewDistance([2], 5) == 1 && ViewDistance([5, 1, 2], 5) == 1
    ensures ViewDistance([0], 5) == 1 && ViewDistance([5, 3, 5], 5) == 1
  {
  }

  lemma ExampleScore11()
    ensures Rectangular(ExampleGrid) && ScenicScore(ExampleGrid, 1, 1) == 1
  {
    ExampleRectangular();
    ExampleCell11();
    ExampleNear11();
    ExampleViews11();
    assert ExampleGrid[1][1] == 5;
    ScoreFrom(ExampleGrid, 1, 1, 5, 1, 1, 1, 1);
  }

  lemma ExampleCell21()
    ensures ColumnReaches(ExampleGrid, 2)
    ensures Left(ExampleGrid[1], 2) == [2, 5] && Right(ExampleGrid[1], 2) == [1, 2]
    ensures Above(ExampleGrid, 2, 1) == [3] && Below(ExampleGrid, 2, 1) == [3, 5, 3]
  {
    ExampleColumn2();
  }

  lemma ExampleVisible21()
    ensures ColumnReaches(ExampleGrid, 2) && Visible(ExampleGrid, 2, 1)
  {
    ExampleCell21();
  }

  lemma ExampleNear21()
    ensures ColumnReaches(ExampleGrid, 2)
    ensures Reverse(Left(ExampleGrid[1], 2)) == [5, 2] && Reverse(Above(ExampleGrid, 2, 1)) == [3]
  {
    ExampleCell21();
    assert Reverse([2, 5]) == [5, 2];
    assert Reverse([3]) == [3];
  }

  lemma ExampleViews21()
    ensures ViewDistance([5, 2], 5) == 1 && ViewDistance([1, 2], 5) == 2
    ensures ViewDistance([3], 5) == 1 && ViewDistance([3, 5, 3], 5) == 2
  {
  }

  lemma ExampleScore21()
    ensures Rectangular(ExampleGrid) && ScenicScore(ExampleGrid, 2, 1) == 4
  {
    ExampleRectangular();
    ExampleCell21();
    ExampleNear21();
    ExampleViews21();
    assert ExampleGrid[1][2] == 5;
    ScoreFrom(ExampleGrid, 2, 1, 5, 1, 2, 1, 2);
  }

  lemma ExampleCell31()
    ensures ColumnReaches(ExampleGrid, 3)
    ensures Left(ExampleGrid[1], 3) == [2, 5, 5] && Right(ExampleGrid[1], 3) == [2]
    ensures Above(ExampleGrid, 3, 1) == [7] && Below(ExampleGrid, 3, 1) == [3, 4, 9]
  {
    ExampleColumn3();
  }

  lemma ExampleVisible31()
    ensures ColumnReaches(ExampleGrid, 3) && !Visible(ExampleGrid, 3, 1)
  {
    ExampleCell31();
    assert Left(ExampleGrid[1], 3)[0] >= 1;
    assert Right(ExampleGrid[1], 3)[0] >= 1;
    assert Above(ExampleGrid, 3, 1)[0] >= 1;
    assert Below(ExampleGrid, 3, 1)[0] >= 1;
  }

  lemma ExampleNear31()
    ensures ColumnReaches(ExampleGrid, 3)
    ensures Reverse(Left(ExampleGrid[1], 3)) == [5, 5, 2] && Reverse(Above(ExampleGrid, 3, 1)) == [7]
  {
    ExampleCell31();
    assert Reverse([2, 5, 5]) == [5, 5, 2];
    assert Reverse([7]) == [7];
  }

  lemma ExampleViews31()
    ensures ViewDistance([5, 5, 2], 1) == 1 && ViewDistance([2], 1) == 1
    ensures ViewDistance([7], 1) == 1 && ViewDistance([3, 4, 9], 1) == 1
  {
  }

  lemma ExampleScore31()
    ensures Rectangular(ExampleGrid) && ScenicScore(ExampleGrid, 3, 1) == 1
  {
    ExampleRectangular();
    ExampleCell31();
    ExampleNear31();
    ExampleViews31();
    assert ExampleGrid[1][3] == 1;
    ScoreFrom(ExampleGrid, 3, 1, 1, 1, 1, 1, 1);
  }

  lemma ExampleCell12()
    ensures ColumnReaches(ExampleGrid, 1)
    ensures Left(ExampleGrid[2], 1) == [6] && Right(ExampleGrid[2], 1) == [3, 3, 2]
    ensures Above(ExampleGrid, 1, 2) == [0, 5] && Below(ExampleGrid, 1, 2) == [3, 5]
  {
    ExampleColumn1();
  }

  lemma ExampleVisible12()
    ensures ColumnReaches(ExampleGrid, 1) && Visible(ExampleGrid, 1, 2)
  {
    ExampleCell12();
  }

  lemma ExampleNear12()
    ensures ColumnReaches(ExampleGrid, 1)
    ensures Reverse(Left(ExampleGrid[2], 1)) == [6] && Reverse(Above(ExampleGrid, 1, 2)) == [5, 0]
  {
    ExampleCell12();
    assert Reverse([6]) == [6];
    assert Reverse([0, 5]) == [5, 0];
  }

  lemma ExampleViews12()
    ensures ViewDistance([6], 5) == 1 && ViewDistance([3, 3, 2], 5) == 3
    ensures ViewDistance([5, 0], 5) == 1 && ViewDistance([3, 5], 5) == 2
  {
  }

  lemma ExampleScore12()
    ensures Rectangular(ExampleGrid) && ScenicScore(ExampleGrid, 1, 2) == 6
  {
    ExampleRectangular();
    ExampleCell12();
    ExampleNear12();
    ExampleViews12();
    assert ExampleGrid[2][1] == 5;
    ScoreFrom(ExampleGrid, 1, 2, 5, 1, 3, 1, 2);
  }

  lemma ExampleCell22()
    ensures ColumnReaches(ExampleGrid, 2)
    ensures Left(ExampleGrid[2], 2) == [6, 5] && Right(ExampleGrid[2], 2) == [3, 2]
    ensures Above(ExampleGrid, 2, 2) == [3, 5] && Below(ExampleGrid, 2, 2) == [5, 3]
  {
    ExampleColumn2();
  }

  lemma ExampleVisible22()
    ensures ColumnReaches(ExampleGrid, 2) && !Visible(ExampleGrid, 2, 2)
  {
    ExampleCell22();
    assert Left(ExampleGrid[2], 2)[0] >= 3;
    assert Right(ExampleGrid[2], 2)[0] >= 3;
    assert Above(ExampleGrid, 2, 2)[0] >= 3;
    assert Below(ExampleGrid, 2, 2)[0] >= 3;
  }

  lemma ExampleNear22()
    ensures ColumnReaches(ExampleGrid, 2)
    ensures Reverse(Left(ExampleGrid[2], 2)) == [5, 6] && Reverse(Above(ExampleGrid, 2, 2)) == [5, 3]
  {
    ExampleCell22();
    assert Reverse([6, 5]) == [5, 6];
    assert Reverse([3, 5]) == [5, 3];
  }

  lemma ExampleViews22()
    ensures ViewDistance([5, 6], 3) == 1 && ViewDistance([3, 2], 3) == 1
    ensures ViewDistance([5, 3], 3) == 1 && ViewDistance([5, 3], 3) == 1
  {
  }

  lemma ExampleScore22()
    ensures Rectangular(ExampleGrid) && ScenicScore(ExampleGrid, 2, 2) == 1
  {
    ExampleRectangular();
    ExampleCell22();
    ExampleNear22();
    ExampleViews22();
    assert ExampleGrid[2][2] == 3;
    ScoreFrom(ExampleGrid, 2, 2, 3, 1, 1, 1, 1);
  }

  lemma ExampleCell32()
    ensures ColumnReaches(ExampleGrid, 3)
    ensures Left(ExampleGrid[2], 3) == [6, 5, 3] && Right(ExampleGrid[2], 3) == [2]
    ensures Above(ExampleGrid, 3, 2) == [7, 1] && Below(ExampleGrid, 3, 2) == [4, 9]
  {
    ExampleColumn3();
  }

  lemma ExampleVisible32()
    ensures ColumnReaches(ExampleGrid, 3) && Visible(ExampleGrid, 3, 2)
  {
    ExampleCell32();
  }

  lemma ExampleNear32()
    ensures ColumnReaches(ExampleGrid, 3)
    ensures Reverse(Left(ExampleGrid[2], 3)) == [3, 5, 6] && Reverse(Above(ExampleGrid, 3, 2)) == [1, 7]
  {
    ExampleCell32();
    assert Reverse([6, 5, 3]) == [3, 5, 6];
    assert Reverse([7, 1]) == [1, 7];
  }

  lemma ExampleViews32()
    ensures ViewDistance([3, 5, 6], 3) == 1 && ViewDistance([2], 3) == 1
    ensures ViewDistance([1, 7], 3) == 2 && ViewDistance([4, 9], 3) == 1
  {
  }

  lemma ExampleScore32()
    ensures Rectangular(ExampleGrid) && ScenicScore(ExampleGrid, 3, 2) == 2
  {
    ExampleRectangular();
    ExampleCell32();
    ExampleNear32();
    ExampleViews32();
    assert ExampleGrid[2][3] == 3;
    ScoreFrom(ExampleGrid, 3, 2, 3, 1, 1, 2, 1);
  }

  lemma ExampleCell13()
    ensures ColumnReaches(ExampleGrid, 1)
    ensures Left(ExampleGrid[3], 1) == [3] && Right(ExampleGrid[3], 1) == [5, 4, 9]
    ensures Above(ExampleGrid, 1, 3) == [0, 5, 5] && Below(ExampleGrid, 1, 3) == [5]
  {
    ExampleColumn1();
  }

  lemma ExampleVisible13()
    ensures ColumnReaches(ExampleGrid, 1) && !Visible(ExampleGrid, 1, 3)
  {
    ExampleCell13();
    assert Left(ExampleGrid[3], 1)[0] >= 3;
    assert Right(ExampleGrid[3], 1)[0] >= 3;
    assert Above(ExampleGrid, 1, 3)[1] >= 3;
    assert Below(ExampleGrid, 1, 3)[0] >= 3;
  }

  lemma ExampleNear13()
    ensures ColumnReaches(ExampleGrid, 1)
    ensures Reverse(Left(ExampleGrid[3], 1)) == [3] && Reverse(Above(ExampleGrid, 1, 3)) == [5, 5, 0]
  {
    ExampleCell13();
    assert Reverse([3]) == [3];
    assert Reverse([0, 5, 5]) == [5, 5, 0];
  }

  lemma ExampleViews13()
    ensures ViewDistance([3], 3) == 1 && ViewDistance([5, 4, 9], 3) == 1
    ensures ViewDistance([5, 5, 0], 3) == 1 && ViewDistance([5], 3) == 1
  {
  }

  lemma ExampleScore13()
    ensures Rectangular(ExampleGrid) && ScenicScore(ExampleGrid, 1, 3) == 1
  {
    ExampleRectangular();
    ExampleCell13();
    ExampleNear13();
    ExampleViews13();
    assert ExampleGrid[3][1] == 3;
    ScoreFrom(ExampleGrid, 1, 3, 3, 1, 1, 1, 1);
  }

  lemma ExampleCell23()
    ensures ColumnReaches(ExampleGrid, 2)
    ensures Left(ExampleGrid[3], 2) == [3, 3] && Right(ExampleGrid[3], 2) == [4, 9]
    ensures Above(ExampleGrid, 2, 3) == [3, 5, 3] && Below(ExampleGrid, 2, 3) == [3]
  {
    ExampleColumn2();
  }

  lemma ExampleVisible23()
    ensures ColumnReaches(ExampleGrid, 2) && Visible(ExampleGrid, 2, 3)
  {
    ExampleCell23();
  }

  lemma ExampleNear23()
    ensures ColumnReaches(ExampleGrid, 2)
    ensures Reverse(Left(ExampleGrid[3], 2)) == [3, 3] && Reverse(Above(ExampleGrid, 2, 3)) == [3, 5, 3]
  {
    ExampleCell23();
    assert Reverse([3, 3]) == [3, 3];
    assert Reverse([3, 5, 3]) == [3, 5, 3];
  }

  lemma ExampleViews23()
    ensures ViewDistance([3, 3], 5) == 2 && ViewDistance([4, 9], 5) == 2
    ensures ViewDistance([3, 5, 3], 5) == 2 && ViewDistance([3], 5) == 1
  {
  }

  lemma ExampleScore23()
    ensures Rectangular(ExampleGrid) && ScenicScore(ExampleGrid, 2, 3) == 8
  {
    ExampleRectangular();
    ExampleCell23();
    ExampleNear23();
    ExampleViews23();
    assert ExampleGrid[3][2] == 5;
    ScoreFrom(ExampleGrid, 2, 3, 5, 2, 2, 2, 1);
  }

  lemma ExampleCell33()
    ensures ColumnReaches(ExampleGrid, 3)
    ensures Left(ExampleGrid[3], 3) == [3, 3, 5] && Right(ExampleGrid[3], 3) == [9]
    ensures Above(ExampleGrid, 3, 3) == [7, 1, 3] && Below(ExampleGrid, 3, 3) == [9]
  {
    ExampleColumn3();
  }

  lemma ExampleVisible33()
    ensures ColumnReaches(ExampleGrid, 3) && !Visible(ExampleGrid, 3, 3)
  {
    ExampleCell33();
    assert Left(ExampleGrid[3], 3)[2] >= 4;
    assert Right(ExampleGrid[3], 3)[0] >= 4;
    assert Above(ExampleGrid, 3, 3)[0] >= 4;
    assert Below(ExampleGrid, 3, 3)[0] >= 4;
  }

  lemma ExampleNear33()
    ensures ColumnReaches(ExampleGrid, 3)
    ensures Reverse(Left(ExampleGrid[3], 3)) == [5, 3, 3] && Reverse(Above(ExampleGrid, 3, 3)) == [3, 1, 7]
  {
    ExampleCell33();
    assert Reverse([3, 3, 5]) == [5, 3, 3];
    assert Reverse([7, 1, 3]) == [3, 1, 7];
  }

  lemma ExampleViews33()
    ensures ViewDistance([5, 3, 3], 4) == 1 && ViewDistance([9], 4) == 1
    ensures ViewDistance([3, 1, 7], 4) == 3 && ViewDistance([9], 4) == 1
  {
  }

  lemma ExampleScore33()
    ensures Rectangular(ExampleGrid) && ScenicScore(ExampleGrid, 3, 3) == 3
  {
    ExampleRectangular();
    ExampleCell33();
    ExampleNear33();
    ExampleViews33();
    assert ExampleGrid[3][3] == 4;
    ScoreFrom(ExampleGrid, 3, 3, 4, 1, 1, 3, 1);
  }

  /** `parse_input` reads the example as its grid. */
  lemma ExampleParses()
    ensures ParseInput(ExampleInput) == Some(ExampleGrid)
  {
    var g := ExampleGrid;
    var rendered := seq(|g|, y requires 0 <= y < |g| => RenderRow(g[y]));
    ExampleRenders();
    assert rendered[0] == ExampleRows[0] && rendered[1] == ExampleRows[1];
    assert rendered[2] == ExampleRows[2] && rendered[3] == ExampleRows[3];
    assert rendered[4] == ExampleRows[4];
    assert rendered == ExampleRows;
    ParseInputOfRender(g);
  }

  lemma ExampleEdgeRows()
    ensures Part1Safe(ExampleGrid)
    ensures RowVisibleCount(ExampleGrid, 0, 5) == 5 && RowVisibleCount(ExampleGrid, 4, 5) == 5
  {
    ExampleRectangular();
    RectangularIsPart1Safe(ExampleGrid);
  }

  lemma ExampleRow1()
    ensures Part1Safe(ExampleGrid) && RowVisibleCount(ExampleGrid, 1, 5) == 4
  {
    ExampleRectangular();
    RectangularIsPart1Safe(ExampleGrid);
    ExampleVisible11();
    ExampleVisible21();
    ExampleVisible31();
    assert RowVisibleCount(ExampleGrid, 1, 1) == 1;
    assert RowVisibleCount(ExampleGrid, 1, 2) == 2;
    assert RowVisibleCount(ExampleGrid, 1, 3) == 3;
    assert RowVisibleCount(ExampleGrid, 1, 4) == 3;
  }

  lemma ExampleRow2()
    ensures Part1Safe(ExampleGrid) && RowVisibleCount(ExampleGrid, 2, 5) == 4
  {
    ExampleRectangular();
    RectangularIsPart1Safe(ExampleGrid);
    ExampleVisible12();
    ExampleVisible22();
    ExampleVisible32();
    assert RowVisibleCount(ExampleGrid, 2, 1) == 1;
    assert RowVisibleCount(ExampleGrid, 2, 2) == 2;
    assert RowVisibleCount(ExampleGrid, 2, 3) == 2;
    assert RowVisibleCount(ExampleGrid, 2, 4) == 3;
  }

  lemma ExampleRow3()
    ensures Part1Safe(ExampleGrid) && RowVisibleCount(ExampleGrid, 3, 5) == 3
  {
    ExampleRectangular();
    RectangularIsPart1Safe(ExampleGrid);
    ExampleVisible13();
    ExampleVisible23();
    ExampleVisible33();
    assert RowVisibleCount(ExampleGrid, 3, 1) == 1;
    assert RowVisibleCount(ExampleGrid, 3, 2) == 1;
    assert RowVisibleCount(ExampleGrid, 3, 3) == 2;
    assert RowVisibleCount(ExampleGrid, 3, 4) == 2;
  }

  /** `part_1` of the example is 21. */
  lemma ExamplePart1()
    ensures ParseInput(ExampleInput) == Some(ExampleGrid) && Part1Safe(ExampleGrid)
    ensures Part1(ExampleInput) == 21
  {
    ExampleParses();
    ExampleEdgeRows();
    ExampleRow1();
    ExampleRow2();
    ExampleRow3();
    assert VisibleCountUpTo(ExampleGrid, 2) == 9;
    assert VisibleCountUpTo(ExampleGrid, 4) == 16;
    assert VisibleCount(ExampleGrid) == 21;
  }

  /** No tree of the example scores more than 8, and the tree at (2, 3) scores 8: the highest
      score `part_2` reports. */
  lemma ExamplePart2()
    ensures ParseInput(ExampleInput) == Some(ExampleGrid) && Rectangular(ExampleGrid)
    ensures forall y, x :: IsCell(ExampleGrid, x, y) ==> ScenicScore(ExampleGrid, x, y) <= 8
    ensures ScenicScore(ExampleGrid, 2, 3) == 8
  {
    ExampleParses();
    ExampleRectangular();
    forall y, x | IsCell(ExampleGrid, x, y)
      ensures ScenicScore(ExampleGrid, x, y) <= 8
    {
      ScenicScoreZeroIffEdge(ExampleGrid, x, y);
      if !OnEdge(ExampleGrid, x, y) {
        ExampleInterior(x, y);
      }
    }
    ExampleScore23();
  }

  lemma ExampleInterior(x: nat, y: nat)
    requires 1 <= x <= 3 && 1 <= y <= 3
    ensures Rectangular(ExampleGrid) && ScenicScore(ExampleGrid, x, y) <= 8
  {
    ExampleRectangular();
    if x == 1 && y == 1 {
      ExampleScore11();
    } else if x == 2 && y == 1 {
      ExampleScore21();
    } else if x == 3 && y == 1 {
      ExampleScore31();
    } else if x == 1 && y == 2 {
      ExampleScore12();
    } else if x == 2 && y == 2 {
      ExampleScore22();
    } else if x == 3 && y == 2 {
      ExampleScore32();
    } else if x == 1 && y == 3 {
      ExampleScore13();
    } else if x == 2 && y == 3 {
      ExampleScore23();
    } else {
      ExampleScore33();
    }
  }
}

=== FILE: sequences.dfy ===
/** Sequence helpers shared by the solvers: counting the elements that satisfy a predicate
    (`filter(..).count()`), reversal, and stable sorting into non-increasing key order, the shape of the
    two sorts in the solvers (`sort_by_key(|b| Reverse(*b))` and `sort_by` with a reversed key
    comparison). */
module Sequences {

  /** `s.iter().filter(p).count()`. */
  function CountWhere<T>(s: seq<T>, p: T -> bool): (r: nat)
    ensures r <= |s|
  {
    if |s| == 0 then 0 else (if p(s[0]) then 1 else 0) + CountWhere(s[1..], p)
  }

  /** The count is the length exactly when every element satisfies `p`, and zero exactly when
      none does. */
  lemma {:induction false} CountWhereExtremes<T>(s: seq<T>, p: T -> bool)
    ensures CountWhere(s, p) == |s| <==> forall k :: 0 <= k < |s| ==> p(s[k])
    ensures CountWhere(s, p) == 0 <==> forall k :: 0 <= k < |s| ==> !p(s[k])
  {
    if |s| > 0 {
      CountWhereExtremes(s[1..], p);
      assert forall k :: 1 <= k < |s| ==> s[k] == s[1..][k - 1];
    }
  }

  /** A predicate that holds wherever `p` holds counts at least as many elements. */
  lemma {:induction false} CountWhereMonotonic<T>(s: seq<T>, p: T -> bool, q: T -> bool)
    requires forall k :: 0 <= k < |s| ==> p(s[k]) ==> q(s[k])
    ensures CountWhere(s, p) <= CountWhere(s, q)
  {
    if |s| > 0 {
      CountWhereMonotonic(s[1..], p, q);
    }
  }

  /** Non-increasing in `key`. */
  ghost predicate SortedDescBy<T>(s: seq<T>, key: T -> int) {
    forall i, j :: 0 <= i < j < |s| ==> key(s[i]) >= key(s[j])
  }

  function Identity(x: int): int {
    x
  }

  /** Inserts `x` into a sorted sequence, ahead of the elements with an equal key. */
  function InsertDescBy<T>(x: T, s: seq<T>, key: T -> int): (r: seq<T>)
    requires SortedDescBy(s, key)
    ensures |r| == |s| + 1
    ensures SortedDescBy(r, key)
    ensures multiset(r) == multiset(s) + multiset{x}
  {
    if |s| == 0 || key(x) >= key(s[0]) then [x] + s
    else
      var t := InsertDescBy(x, s[1..], key);
      assert s == [s[0]] + s[1..];
      assert forall k :: 0 <= k < |t| ==> key(s[0]) >= key(t[k]) by {
        forall k | 0 <= k < |t|
          ensures key(s[0]) >= key(t[k])
        {
          assert t[k] in multiset(t);
          if t[k] != x {
            assert t[k] in multiset(s[1..]);
            var m :| 0 <= m < |s[1..]| && s[1..][m] == t[k];
            assert s[m + 1] == t[k];
          }
        }
      }
      [s[0]] + t
  }

  /** Insertion sort: a permutation of `s`, non-increasing in `key`, in which elements with
      equal keys keep their relative order. */
  function SortDescBy<T>(s: seq<T>, key: T -> int): (r: seq<T>)
    ensures |r| == |s|
    ensures SortedDescBy(r, key)
    ensures multiset(r) == multiset(s)
  {
    if |s| == 0 then []
    else
      assert s == [s[0]] + s[1..];
      InsertDescBy(s[0], SortDescBy(s[1..], key), key)
  }

  /** The first element of a non-increasing sequence of numbers is its largest. */
  lemma SortedDescHeadIsMax(a: seq<int>, x: int)
    requires SortedDescBy(a, Identity) && x in multiset(a)
    ensures a[0] >= x
  {
    var i :| 0 <= i < |a| && a[i] == x;
    if i > 0 {
      assert Identity(a[0]) >= Identity(a[i]);
    }
  }

  /** Dropping the first element keeps a sequence non-increasing and removes that element
      from its multiset. */
  lemma SortedDescTail(a: seq<int>)
    requires |a| > 0 && SortedDescBy(a, Identity)
    ensures SortedDescBy(a[1..], Identity)
    ensures multiset(a[1..]) == multiset(a) - multiset{a[0]}
  {
    assert a == [a[0]] + a[1..];
    forall i, j | 0 <= i < j < |a[1..]|
      ensures Identity(a[1..][i]) >= Identity(a[1..][j])
    {
      assert a[1..][i] == a[i + 1] && a[1..][j] == a[j + 1];
    }
  }

  /** Two sorted arrangements of the same multiset of numbers are the same sequence. */
  lemma {:induction false} SortedDescUnique(a: seq<int>, b: seq<int>)
    requires SortedDescBy(a, Identity) && SortedDescBy(b, Identity)
    requires multiset(a) == multiset(b)
    ensures a == b
    decreases |a|
  {
    SameMultisetSameLength(a, b);
    if |a| > 0 {
      SortedDescSameHead(a, b);
      SortedDescTail(a);
      SortedDescTail(b);
      SortedDescUnique(a[1..], b[1..]);
      assert a == [a[0]] + a[1..];
      assert b == [b[0]] + b[1..];
    }
  }

  lemma SameMultisetSameLength<T>(a: seq<T>, b: seq<T>)
    requires multiset(a) == multiset(b)
    ensures |a| == |b|
  {
    assert |a| == |multiset(a)| == |multiset(b)| == |b|;
  }

  /** Two non-empty sorted arrangements of the same multiset start with the same number. */
  lemma SortedDescSameHead(a: seq<int>, b: seq<int>)
    requires |a| > 0 && |b| > 0
    requires SortedDescBy(a, Identity) && SortedDescBy(b, Identity)
    requires multiset(a) == multiset(b)
    ensures a[0] == b[0]
  {
    assert b[0] in multiset(b) && a[0] in multiset(a);
    SortedDescHeadIsMax(a, b[0]);
    SortedDescHeadIsMax(b, a[0]);
  }

  /** A sequence's multiset is that of the sequence without element `k`, plus that element. */
  lemma MultisetRemoveAt<T>(s: seq<T>, k: nat)
    requires k < |s|
    ensures multiset(s) == multiset(s[..k] + s[k + 1..]) + multiset{s[k]}
  {
    assert s == s[..k] + [s[k]] + s[k + 1..];
  }

  /** Adding the same multiset on both sides can be cancelled. */
  lemma MultisetCancel<T>(x: multiset<T>, y: multiset<T>, z: multiset<T>)
    requires x + z == y + z
    ensures x == y
  {
    assert x == (x + z) - z && y == (y + z) - z;
  }

  /** `s.iter().rev()`. */
  function Reverse<T>(s: seq<T>): (r: seq<T>)
    ensures |r| == |s|
    ensures forall i :: 0 <= i < |s| ==> r[i] == s[|s| - 1 - i]
  {
    if |s| == 0 then [] else Reverse(s[1..]) + [s[0]]
  }

  /** Reversing twice gives the sequence back. */
  lemma ReverseReverse<T>(s: seq<T>)
    ensures Reverse(Reverse(s)) == s
  {
    var r := Reverse(s);
    assert forall i :: 0 <= i < |s| ==> Reverse(r)[i] == r[|r| - 1 - i] == s[i];
  }

  /** Reversing keeps the elements. */
  lemma {:induction false} ReverseMultiset<T>(s: seq<T>)
    ensures multiset(Reverse(s)) == multiset(s)
  {
    if |s| > 0 {
      ReverseMultiset(s[1..]);
      assert Reverse(s) == Reverse(s[1..]) + [s[0]];
      assert s == [s[0]] + s[1..];
    }
  }

  /** The reverse of a concatenation is the concatenation of the reverses, swapped. */
  lemma ReverseAppend<T>(x: seq<T>, y: seq<T>)
    ensures Reverse(x + y) == Reverse(y) + Reverse(x)
  {
    var l, r := Reverse(x + y), Reverse(y) + Reverse(x);
    forall k | 0 <= k < |l|
      ensures l[k] == r[k]
    {
      if k < |y| {
        assert l[k] == (x + y)[|x| + |y| - 1 - k] == y[|y| - 1 - k];
      } else {
        assert l[k] == (x + y)[|x| + |y| - 1 - k] == x[|x| - 1 - (k - |y|)];
      }
    }
  }

  /** All elements of `w` are pairwise different. */
  predicate Distinct<T(==)>(w: seq<T>) {
    forall i, j :: 0 <= i < j < |w| ==> w[i] != w[j]
  }

  /** Every value occurs at most once in a sequence without repeats. */
  lemma {:induction false} DistinctOccursOnce<T>(a: seq<T>, x: T)
    requires Distinct(a)
    ensures multiset(a)[x] <= 1
  {
    if |a| > 0 {
      assert a == [a[0]] + a[1..];
      assert Distinct(a[1..]) by {
        forall i, j | 0 <= i < j < |a[1..]|
          ensures a[1..][i] != a[1..][j]
        {
          assert a[1..][i] == a[i + 1] && a[1..][j] == a[j + 1];
        }
      }
      DistinctOccursOnce(a[1..], x);
      if x == a[0] {
        assert x !in a[1..];
      }
    }
  }

  /** Rearranging a sequence without repeats gives a sequence without repeats. */
  lemma DistinctPermutation<T>(a: seq<T>, b: seq<T>)
    requires Distinct(a) && multiset(a) == multiset(b)
    ensures Distinct(b)
  {
    forall p, q | 0 <= p < q < |b|
      ensures b[p] != b[q]
    {
      if b[p] == b[q] {
        assert b == b[..q] + b[q..];
        assert b[p] == b[..q][p] && b[q] == b[q..][0];
        assert multiset(b)[b[p]] >= 2;
        DistinctOccursOnce(a, b[p]);
        assert false;
      }
    }
  }

  /** In a sorted sequence, an element other than the first three has no larger key than
      the third. */
  lemma SortedAfterThird<T>(r: seq<T>, key: T -> int, m: T)
    requires |r| >= 3 && SortedDescBy(r, key) && m in r
    requires m != r[0] && m != r[1] && m != r[2]
    ensures key(m) <= key(r[2])
  {
    var p :| 0 <= p < |r| && r[p] == m;
    assert key(r[2]) >= key(r[p]);
  }

  /** The keys of the elements of `s`, in order. */
  function MapKeys<T>(s: seq<T>, key: T -> int): (r: seq<int>)
    ensures |r| == |s|
    ensures forall i :: 0 <= i < |s| ==> r[i] == key(s[i])
  {
    seq(|s|, i requires 0 <= i < |s| => key(s[i]))
  }

  /** Inserting by key and then taking keys is inserting the key among the keys. */
  lemma {:induction false} InsertMapKeys<T>(x: T, s: seq<T>, key: T -> int)
    requires SortedDescBy(s, key)
    ensures SortedDescBy(MapKeys(s, key), Identity)
    ensures InsertDescBy(key(x), MapKeys(s, key), Identity) == MapKeys(InsertDescBy(x, s, key), key)
  {
    var m := MapKeys(s, key);
    assert SortedDescBy(m, Identity) by {
      forall i, j | 0 <= i < j < |m|
        ensures Identity(m[i]) >= Identity(m[j])
      {
        assert key(s[i]) >= key(s[j]);
      }
    }
    if |s| > 0 && key(x) < key(s[0]) {
      SortedDescTail(m);
      assert SortedDescBy(s[1..], key) by {
        forall i, j | 0 <= i < j < |s[1..]|
          ensures key(s[1..][i]) >= key(s[1..][j])
        {
          assert s[1..][i] == s[i + 1] && s[1..][j] == s[j + 1];
        }
      }
      assert m[1..] == MapKeys(s[1..], key);
      InsertMapKeys(x, s[1..], key);
    }
  }

  /** Sorting by key and then taking keys is sorting the keys: the sort compares keys only. */
  lemma {:induction false} SortMapKeys<T>(s: seq<T>, key: T -> int)
    ensures SortDescBy(MapKeys(s, key), Identity) == MapKeys(SortDescBy(s, key), key)
  {
    if |s| > 0 {
      var m := MapKeys(s, key);
      assert m[1..] == MapKeys(s[1..], key);
      SortMapKeys(s[1..], key);
      InsertMapKeys(s[0], SortDescBy(s[1..], key), key);
    }
  }
}

=== FILE: text.dfy ===
/** The pieces of Rust's `str` API the solvers use, on `string` (= `seq<char>`):
    `split` on a character and on a string, `replace`, `trim`, `split_whitespace`,
    and `parse` into unsigned and signed integers. `ParseUnsigned` and `ParseSigned` read
    numbers of any size; `ParseI32` adds the `i32` range check of `parse::<i32>()`. */
module Text {
  import opened Wrappers

  // ---------------------------------------------------------------------------
  // Characters
  // ---------------------------------------------------------------------------

  /** Rust's `char::is_whitespace`: the Unicode White_Space property. */
  predicate IsWhitespace(c: char) {
    c == ' ' || ('\t' <= c <= '\r') || c == '\U{0085}' || c == '\U{00A0}' || c == '\U{1680}'
    || ('\U{2000}' <= c <= '\U{200A}') || c == '\U{2028}' || c == '\U{2029}'
    || c == '\U{202F}' || c == '\U{205F}' || c == '\U{3000}'
  }

  predicate IsDigit(c: char) {
    '0' <= c <= '9'
  }

  predicate AllDigits(s: string) {
    forall i :: 0 <= i < |s| ==> IsDigit(s[i])
  }

  predicate NoWhitespace(s: string) {
    forall i :: 0 <= i < |s| ==> !IsWhitespace(s[i])
  }

  function DigitValue(c: char): (d: nat)
    requires IsDigit(c)
    ensures d < 10
  {
    c as int - '0' as int
  }

  function DigitChar(d: nat): (c: char)
    requires d < 10
    ensures IsDigit(c) && DigitValue(c) == d
  {
    (d + '0' as int) as char
  }

  // ---------------------------------------------------------------------------
  // str::split(char) and its inverse, joining with the separator
  // ---------------------------------------------------------------------------

  /** `s.split(sep)`: the maximal separator-free pieces between the occurrences of `sep`,
      in order. There is always at least one piece; the empty string gives one empty piece. */
  function Split(s: string, sep: char): (r: seq<string>)
    ensures |r| >= 1
    ensures forall i :: 0 <= i < |r| ==> sep !in r[i]
    decreases |s|
  {
    if |s| == 0 then [[]]
    else
      var t := Split(s[1..], sep);
      if s[0] == sep then [[]] + t else [[s[0]] + t[0]] + t[1..]
  }

  /** `pieces.join(sep)`. */
  function Join(pieces: seq<string>, sep: char): string
    requires |pieces| >= 1
  {
    if |pieces| == 1 then pieces[0] else pieces[0] + [sep] + Join(pieces[1..], sep)
  }

  /** Joining the pieces of a split gives the original string back. */
  lemma {:induction false} JoinSplit(s: string, sep: char)
    ensures Join(Split(s, sep), sep) == s
    decreases |s|
  {
    if |s| > 0 {
      var t := Split(s[1..], sep);
      JoinSplit(s[1..], sep);
      if s[0] == sep {
        assert s == [sep] + s[1..];
      } else {
        JoinExtendFirst(s[0], t, sep);
        assert s == [s[0]] + s[1..];
      }
    }
  }

  /** Putting a character in front of the first piece puts it in front of the join. */
  lemma JoinExtendFirst(c: char, t: seq<string>, sep: char)
    requires |t| >= 1
    ensures Join([[c] + t[0]] + t[1..], sep) == [c] + Join(t, sep)
  {
    var u := [[c] + t[0]] + t[1..];
    if |t| > 1 {
      assert u[1..] == t[1..];
      assert ([c] + t[0]) + [sep] + Join(t[1..], sep) == [c] + (t[0] + [sep] + Join(t[1..], sep));
    }
  }

  /** A separator-free string is a single piece. */
  lemma {:induction false} SplitSinglePiece(p: string, sep: char)
    requires sep !in p
    ensures Split(p, sep) == [p]
    decreases |p|
  {
    if |p| > 0 {
      SplitSinglePiece(p[1..], sep);
      assert [p[0]] + p[1..] == p;
    }
  }

  /** A separator-free prefix followed by the separator is split off as the first piece. */
  lemma {:induction false} SplitAfterPiece(p: string, sep: char, rest: string)
    requires sep !in p
    ensures Split(p + [sep] + rest, sep) == [p] + Split(rest, sep)
    decreases |p|
  {
    var s := p + [sep] + rest;
    if |p| == 0 {
      assert s[1..] == rest;
    } else {
      assert s[1..] == p[1..] + [sep] + rest;
      SplitAfterPiece(p[1..], sep, rest);
      assert [p[0]] + p[1..] == p;
    }
  }

  /** Splitting a join of separator-free pieces gives the pieces back. */
  lemma {:induction false} SplitJoin(pieces: seq<string>, sep: char)
    requires |pieces| >= 1
    requires forall i :: 0 <= i < |pieces| ==> sep !in pieces[i]
    ensures Split(Join(pieces, sep), sep) == pieces
    decreases |pieces|
  {
    if |pieces| == 1 {
      SplitSinglePiece(pieces[0], sep);
    } else {
      SplitJoin(pieces[1..], sep);
      SplitAfterPiece(pieces[0], sep, Join(pieces[1..], sep));
      assert [pieces[0]] + pieces[1..] == pieces;
    }
  }

  /** A join starts with its first piece's first character and ends with its last piece's
      last character. */
  lemma {:induction false} JoinEnds(pieces: seq<string>, sep: char)
    requires |pieces| >= 1
    requires forall i :: 0 <= i < |pieces| ==> |pieces[i]| > 0
    ensures var s := Join(pieces, sep);
            && |s| > 0
            && s[0] == pieces[0][0]
            && s[|s| - 1] == pieces[|pieces| - 1][|pieces[|pieces| - 1]| - 1]
    decreases |pieces|
  {
    if |pieces| > 1 {
      JoinEnds(pieces[1..], sep);
    }
  }

  /** Every line parsed, or `None` when some line does not parse (where the source panics). */
  function ParseAll<R>(lines: seq<string>, parse: string -> Option<R>): (r: Option<seq<R>>)
    ensures r.Some? <==> forall i :: 0 <= i < |lines| ==> parse(lines[i]).Some?
    ensures r.Some? ==> |r.value| == |lines|
    ensures r.Some? ==> forall i :: 0 <= i < |r.value| ==> r.value[i] == parse(lines[i]).value
  {
    if |lines| == 0 then Some([])
    else
      match parse(lines[0])
      case None => None
      case Some(x) =>
        match ParseAll(lines[1..], parse)
        case None => None
        case Some(xs) => Some([x] + xs)
  }

  /** When each line parses to the corresponding value, all of them parse to the values. */
  lemma ParseAllOf<R>(lines: seq<string>, parse: string -> Option<R>, xs: seq<R>)
    requires |lines| == |xs|
    requires forall i :: 0 <= i < |lines| ==> parse(lines[i]) == Some(xs[i])
    ensures ParseAll(lines, parse) == Some(xs)
  {
    var r := ParseAll(lines, parse);
    assert r.Some?;
    assert r.value == xs;
  }

  // ---------------------------------------------------------------------------
  // str::split(&str), str::replace and joining with a string separator
  // ---------------------------------------------------------------------------

  /** `sep` occurs in `s` at position `i`. */
  predicate OccursAt(s: string, sep: string, i: nat) {
    i + |sep| <= |s| && s[i..i + |sep|] == sep
  }

  /** `s.split(sep)` for a non-empty string separator: occurrences are matched left to right
      without overlapping, and the pieces between them are returned in order. */
  function SplitOn(s: string, sep: string): (r: seq<string>)
    requires |sep| > 0
    ensures |r| >= 1
    decreases |s|
  {
    if |s| < |sep| then [s]
    else if s[..|sep|] == sep then [[]] + SplitOn(s[|sep|..], sep)
    else
      var t := SplitOn(s[1..], sep);
      [[s[0]] + t[0]] + t[1..]
  }

  /** `pieces.join(sep)` for a string separator. */
  function JoinOn(pieces: seq<string>, sep: string): string
    requires |pieces| >= 1
  {
    if |pieces| == 1 then pieces[0] else pieces[0] + sep + JoinOn(pieces[1..], sep)
  }

  /** `s.replace(pat, with)`: every left-to-right, non-overlapping occurrence replaced. */
  function Replace(s: string, pat: string, with: string): string
    requires |pat| > 0
  {
    JoinOn(SplitOn(s, pat), with)
  }

  /** Joining the pieces of a split on a string gives the original string back. */
  lemma {:induction false} JoinSplitOn(s: string, sep: string)
    requires |sep| > 0
    ensures JoinOn(SplitOn(s, sep), sep) == s
    decreases |s|
  {
    if |s| < |sep| {
    } else if s[..|sep|] == sep {
      var u := SplitOn(s[|sep|..], sep);
      JoinSplitOn(s[|sep|..], sep);
      assert ([[]] + u)[1..] == u;
      assert JoinOn([[]] + u, sep) == [] + sep + JoinOn(u, sep);
      assert s == s[..|sep|] + s[|sep|..];
    } else {
      var t := SplitOn(s[1..], sep);
      JoinSplitOn(s[1..], sep);
      JoinOnExtendFirst(s[0], t, sep);
      assert s == [s[0]] + s[1..];
    }
  }

  /** Prepending a character to the first piece prepends it to the join. */
  lemma JoinOnExtendFirst(c: char, t: seq<string>, sep: string)
    requires |t| >= 1
    ensures JoinOn([[c] + t[0]] + t[1..], sep) == [c] + JoinOn(t, sep)
  {
    var u := [[c] + t[0]] + t[1..];
    if |t| > 1 {
      assert u[1..] == t[1..];
    }
  }

  /** No occurrence of `sep` starts inside `p` when `p` is followed by `sep`. */
  predicate NoMatchBefore(p: string, sep: string) {
    forall i :: 0 <= i < |p| ==> !OccursAt(p + sep, sep, i)
  }

  /** `sep` occurs nowhere in `s`. */
  predicate NoMatchIn(s: string, sep: string) {
    forall i :: 0 <= i <= |s| ==> !OccursAt(s, sep, i)
  }

  /** A string in which `sep` never occurs is a single piece. */
  lemma {:induction false} SplitOnSinglePiece(s: string, sep: string)
    requires |sep| > 0
    requires NoMatchIn(s, sep)
    ensures SplitOn(s, sep) == [s]
    decreases |s|
  {
    if |s| >= |sep| {
      assert !OccursAt(s, sep, 0);
      forall i | 0 <= i <= |s[1..]|
        ensures !OccursAt(s[1..], sep, i)
      {
        assert !OccursAt(s, sep, i + 1);
        if i + |sep| <= |s[1..]| {
          assert s[1..][i..i + |sep|] == s[i + 1..i + 1 + |sep|];
        }
      }
      SplitOnSinglePiece(s[1..], sep);
      assert [s[0]] + s[1..] == s;
    }
  }

  /** A prefix in which no occurrence of `sep` starts, followed by `sep`, is split off as the
      first piece. */
  lemma {:induction false} SplitOnAfterPiece(p: string, sep: string, rest: string)
    requires |sep| > 0
    requires NoMatchBefore(p, sep)
    ensures SplitOn(p + sep + rest, sep) == [p] + SplitOn(rest, sep)
    decreases |p|
  {
    var s := p + sep + rest;
    if |p| == 0 {
      assert s[..|sep|] == sep;
      assert s[|sep|..] == rest;
    } else {
      assert !OccursAt(p + sep, sep, 0);
      assert s[..|sep|] == (p + sep)[0..|sep|];
      forall i | 0 <= i < |p[1..]|
        ensures !OccursAt(p[1..] + sep, sep, i)
      {
        assert !OccursAt(p + sep, sep, i + 1);
        assert (p[1..] + sep)[i..i + |sep|] == (p + sep)[i + 1..i + 1 + |sep|];
      }
      assert s[1..] == p[1..] + sep + rest;
      SplitOnAfterPiece(p[1..], sep, rest);
      assert [p[0]] + p[1..] == p;
    }
  }

  /** Splitting a join on a string gives the pieces back when no occurrence of the separator
      starts inside a piece (or runs from a piece into the separator after it). */
  lemma {:induction false} SplitOnJoinOn(pieces: seq<string>, sep: string)
    requires |sep| > 0 && |pieces| >= 1
    requires forall k :: 0 <= k < |pieces| - 1 ==> NoMatchBefore(pieces[k], sep)
    requires NoMatchIn(pieces[|pieces| - 1], sep)
    ensures SplitOn(JoinOn(pieces, sep), sep) == pieces
    decreases |pieces|
  {
    if |pieces| == 1 {
      SplitOnSinglePiece(pieces[0], sep);
    } else {
      var rest := pieces[1..];
      assert forall k :: 0 <= k < |rest| - 1 ==> rest[k] == pieces[k + 1];
      SplitOnJoinOn(rest, sep);
      SplitOnAfterPiece(pieces[0], sep, JoinOn(rest, sep));
      assert [pieces[0]] + rest == pieces;
    }
  }

  /** A line break pair `sep sep` never occurs in a join on `sep` of separator-free pieces of
      which all but the first are non-empty. */
  lemma {:induction false} JoinNoDoubleSep(pieces: seq<string>, sep: char)
    requires |pieces| >= 1
    requires forall k :: 0 <= k < |pieces| ==> sep !in pieces[k]
    requires forall k :: 1 <= k < |pieces| ==> |pieces[k]| > 0
    ensures NoMatchIn(Join(pieces, sep), [sep, sep])
    decreases |pieces|
  {
    var s := Join(pieces, sep);
    if |pieces| > 1 {
      var p := pieces[0];
      var t := Join(pieces[1..], sep);
      JoinNoDoubleSep(pieces[1..], sep);
      assert s == p + [sep] + t;
      assert t[0] == pieces[1][0];
      forall i | 0 <= i <= |s|
        ensures !OccursAt(s, [sep, sep], i)
      {
        if i + 2 <= |s| {
          if i < |p| {
            assert s[i] == p[i] && p[i] in p;
          } else if i == |p| {
            assert s[i + 1] == pieces[1][0] && pieces[1][0] in pieces[1];
          } else {
            assert s[i..i + 2] == t[i - |p| - 1..i - |p| + 1];
            assert !OccursAt(t, [sep, sep], i - |p| - 1);
          }
        }
      }
    } else {
      forall i | 0 <= i <= |s|
        ensures !OccursAt(s, [sep, sep], i)
      {
        if i + 2 <= |s| {
          assert s[i] in pieces[0];
        }
      }
    }
  }

  /** A string without `sep sep` that does not end in `sep` is a piece before the separator
      `sep sep`. */
  lemma NoMatchBeforeDoubleSep(s: string, sep: char)
    requires NoMatchIn(s, [sep, sep])
    requires |s| > 0 ==> s[|s| - 1] != sep
    ensures NoMatchBefore(s, [sep, sep])
  {
    var t := s + [sep, sep];
    forall i | 0 <= i < |s|
      ensures !OccursAt(t, [sep, sep], i)
    {
      if i + 2 <= |s| {
        assert t[i..i + 2] == s[i..i + 2];
        assert !OccursAt(s, [sep, sep], i);
      } else {
        assert t[i] == s[|s| - 1];
      }
    }
  }

  // ---------------------------------------------------------------------------
  // str::trim
  // ---------------------------------------------------------------------------

  /** `s.trim_start()`. */
  function TrimStart(s: string): (r: string)
    ensures |r| <= |s| && r == s[|s| - |r|..]
    ensures forall i :: 0 <= i < |s| - |r| ==> IsWhitespace(s[i])
    ensures |r| > 0 ==> !IsWhitespace(r[0])
    decreases |s|
  {
    if |s| > 0 && IsWhitespace(s[0]) then TrimStart(s[1..]) else s
  }

  /** `s.trim_end()`. */
  function TrimEnd(s: string): (r: string)
    ensures |r| <= |s| && r == s[..|r|]
    ensures forall i :: |r| <= i < |s| ==> IsWhitespace(s[i])
    ensures |r| > 0 ==> !IsWhitespace(r[|r| - 1])
    decreases |s|
  {
    if |s| > 0 && IsWhitespace(s[|s| - 1]) then TrimEnd(s[..|s| - 1]) else s
  }

  /** `s.trim()`: `s` with its leading and trailing whitespace removed. */
  function Trim(s: string): (r: string)
    ensures |r| > 0 ==> !IsWhitespace(r[0]) && !IsWhitespace(r[|r| - 1])
  {
    TrimEnd(TrimStart(s))
  }

  /** How many leading characters `trim` removes. */
  function TrimOffset(s: string): (k: nat)
    ensures k <= |s|
  {
    |s| - |TrimStart(s)|
  }

  /** What `trim` removes is whitespace, and what it keeps is the middle of `s`. */
  lemma TrimIsInfix(s: string)
    ensures TrimOffset(s) + |Trim(s)| <= |s|
    ensures Trim(s) == s[TrimOffset(s)..TrimOffset(s) + |Trim(s)|]
    ensures forall i :: 0 <= i < TrimOffset(s) ==> IsWhitespace(s[i])
    ensures forall i :: TrimOffset(s) + |Trim(s)| <= i < |s| ==> IsWhitespace(s[i])
  {
    TrimKeepsMiddle(s);
    TrimDropsTrailing(s);
    TrimStartIsSuffix(s);
  }

  /** What `trim` keeps is the part of `s` after the leading whitespace, up to the trailing
      whitespace. */
  lemma TrimKeepsMiddle(s: string)
    ensures TrimOffset(s) + |Trim(s)| <= |s|
    ensures Trim(s) == s[TrimOffset(s)..TrimOffset(s) + |Trim(s)|]
  {
    TrimStartIsSuffix(s);
    TrimEndIsPrefix(TrimStart(s), TrimOffset(s), s);
  }

  /** What `trim` drops after the kept part is whitespace. */
  lemma TrimDropsTrailing(s: string)
    ensures forall i :: TrimOffset(s) + |Trim(s)| <= i < |s| ==> IsWhitespace(s[i])
  {
    TrimStartIsSuffix(s);
    TrimEndIsPrefix(TrimStart(s), TrimOffset(s), s);
  }

  /** `trim_start` removes `TrimOffset(s)` whitespace characters from the front. */
  lemma TrimStartIsSuffix(s: string)
    ensures TrimStart(s) == s[TrimOffset(s)..]
    ensures forall i :: 0 <= i < TrimOffset(s) ==> IsWhitespace(s[i])
  {
  }

  /** `trim_end` of a suffix keeps a middle part of the whole string. */
  lemma TrimEndIsPrefix(t: string, k: nat, s: string)
    requires k <= |s| && t == s[k..]
    ensures k + |TrimEnd(t)| <= |s|
    ensures TrimEnd(t) == s[k..k + |TrimEnd(t)|]
    ensures forall i :: k + |TrimEnd(t)| <= i < |s| ==> IsWhitespace(s[i])
  {
    var r := TrimEnd(t);
    assert r == t[..|r|];
    forall i | k + |r| <= i < |s|
      ensures IsWhitespace(s[i])
    {
      assert s[i] == t[i - k];
    }
  }

  /** `input.trim().split('\n')`: the lines of a puzzle input. */
  function Lines(input: string): (r: seq<string>)
    ensures |r| >= 1
    ensures forall i :: 0 <= i < |r| ==> '\n' !in r[i]
  {
    Split(Trim(input), '\n')
  }

  /** A trailing line break is trimmed off a string that otherwise needs no trimming. */
  lemma TrimTrailingNewline(s: string)
    requires |s| > 0 && !IsWhitespace(s[0]) && !IsWhitespace(s[|s| - 1])
    ensures Trim(s + "\n") == s
  {
    var t := s + "\n";
    assert TrimStart(t) == t;
    assert t[..|t| - 1] == s;
  }

  /** A string that neither starts nor ends with whitespace is left alone by `trim`. */
  lemma TrimUnchanged(s: string)
    requires |s| > 0 ==> !IsWhitespace(s[0]) && !IsWhitespace(s[|s| - 1])
    ensures Trim(s) == s
  {
  }

  /** Lines of letters or digits joined by line breaks read back as those lines. */
  lemma LinesOfJoin(lines: seq<string>)
    requires |lines| >= 1
    requires forall k :: 0 <= k < |lines| ==> |lines[k]| > 0 && '\n' !in lines[k]
    requires !IsWhitespace(lines[0][0]) && !IsWhitespace(lines[|lines| - 1][|lines[|lines| - 1]| - 1])
    ensures Lines(Join(lines, '\n')) == lines
  {
    JoinEnds(lines, '\n');
    TrimUnchanged(Join(lines, '\n'));
    SplitJoin(lines, '\n');
  }

  // ---------------------------------------------------------------------------
  // str::split_whitespace
  // ---------------------------------------------------------------------------

  /** `s.split_whitespace()`: the maximal runs of non-whitespace characters, in order. */
  function Words(s: string): (r: seq<string>)
    ensures forall i :: 0 <= i < |r| ==> |r[i]| > 0 && NoWhitespace(r[i])
    ensures |s| > 0 && !IsWhitespace(s[0]) ==> |r| > 0 && r[0][0] == s[0]
    decreases |s|
  {
    if |s| == 0 then []
    else if IsWhitespace(s[0]) then Words(s[1..])
    else
      var t := Words(s[1..]);
      if |s| > 1 && !IsWhitespace(s[1]) then [[s[0]] + t[0]] + t[1..] else [[s[0]]] + t
  }

  /** A word followed by a space is split off as the first word. */
  lemma {:induction false} WordsAfterWord(w: string, rest: string)
    requires |w| > 0 && NoWhitespace(w)
    ensures Words(w + " " + rest) == [w] + Words(rest)
    decreases |w|
  {
    var s := w + " " + rest;
    assert s[1..] == w[1..] + " " + rest;
    if |w| == 1 {
      assert s[1..] == " " + rest;
      assert s[1..][1..] == rest;
      assert Words(s[1..]) == Words(rest);
      assert [s[0]] == w;
    } else {
      WordsAfterWord(w[1..], rest);
      assert [w[0]] + w[1..] == w;
    }
  }

  /** A non-empty word without whitespace is one word. */
  lemma {:induction false} WordsSingle(w: string)
    requires |w| > 0 && NoWhitespace(w)
    ensures Words(w) == [w]
    decreases |w|
  {
    if |w| > 1 {
      WordsSingle(w[1..]);
      assert [w[0]] + w[1..] == w;
    } else {
      assert w[1..] == [];
      assert [w[0]] == w;
    }
  }

  /** Splitting words joined by single spaces gives the words back. */
  lemma {:induction false} WordsJoin(ws: seq<string>)
    requires |ws| >= 1
    requires forall i :: 0 <= i < |ws| ==> |ws[i]| > 0 && NoWhitespace(ws[i])
    ensures Words(Join(ws, ' ')) == ws
    decreases |ws|
  {
    if |ws| == 1 {
      WordsSingle(ws[0]);
    } else {
      WordsJoin(ws[1..]);
      WordsAfterWord(ws[0], Join(ws[1..], ' '));
      assert [ws[0]] + ws[1..] == ws;
    }
  }

  // ---------------------------------------------------------------------------
  // str::parse::<unsigned>() and str::parse::<signed>()
  // ---------------------------------------------------------------------------

  /** The value of a string of decimal digits (0 for the empty string). */
  function DigitsValue(s: string): nat
    requires AllDigits(s)
  {
    if |s| == 0 then 0 else DigitsValue(s[..|s| - 1]) * 10 + DigitValue(s[|s| - 1])
  }

  /** The decimal rendering of `n`, without leading zeros (`n.to_string()`). */
  function NatToString(n: nat): (s: string)
    ensures |s| > 0 && AllDigits(s)
    ensures n > 0 ==> s[0] != '0'
  {
    if n < 10 then [DigitChar(n)] else NatToString(n / 10) + [DigitChar(n % 10)]
  }

  /** The decimal rendering of `i`, with a leading `-` when negative. */
  function IntToString(i: int): string {
    if i < 0 then "-" + NatToString(-i) else NatToString(i)
  }

  /** Reading back a rendering gives the number. */
  lemma {:induction false} DigitsValueOfNatToString(n: nat)
    ensures DigitsValue(NatToString(n)) == n
  {
    if n >= 10 {
      DigitsValueOfNatToString(n / 10);
      var s := NatToString(n);
      assert s[..|s| - 1] == NatToString(n / 10);
    }
  }

  /** A non-empty run of decimal digits and its value. */
  function ParseDigits(s: string): (r: Option<nat>)
    ensures r.Some? <==> |s| > 0 && AllDigits(s)
  {
    if |s| > 0 && AllDigits(s) then Some(DigitsValue(s)) else None
  }

  /** `s.parse::<uN>()`: an optional `+` and then at least one decimal digit. */
  function ParseUnsigned(s: string): (r: Option<nat>)
    ensures r.Some? <==> (|s| > 0 && AllDigits(s)) || (|s| > 1 && s[0] == '+' && AllDigits(s[1..]))
  {
    if |s| > 0 && s[0] == '+' then ParseDigits(s[1..]) else ParseDigits(s)
  }

  /** `s.parse::<iN>()`: an optional `+` or `-` and then at least one decimal digit. */
  function ParseSigned(s: string): (r: Option<int>)
    ensures r.Some? <==> ParseUnsigned(s).Some? || (|s| > 1 && s[0] == '-' && AllDigits(s[1..]))
    ensures r.Some? && (|s| == 0 || s[0] != '-') ==> r.value >= 0
  {
    if |s| > 0 && s[0] == '-' then
      match ParseDigits(s[1..])
      case Some(v) => Some(0 - v as int)
      case None => None
    else
      match ParseUnsigned(s)
      case Some(v) => Some(v)
      case None => None
  }

  /** `parse` reads back what `to_string` renders, for unsigned numbers. */
  lemma ParseUnsignedRoundTrip(n: nat)
    ensures ParseUnsigned(NatToString(n)) == Some(n)
  {
    DigitsValueOfNatToString(n);
  }

  /** `parse` reads back what `to_string` renders, for signed numbers. */
  lemma ParseSignedRoundTrip(i: int)
    ensures ParseSigned(IntToString(i)) == Some(i)
  {
    var s := IntToString(i);
    if i < 0 {
      var n: nat := -i;
      assert s == "-" + NatToString(n);
      assert s[1..] == NatToString(n);
      DigitsValueOfNatToString(n);
      assert ParseDigits(s[1..]) == Some(n);
    } else {
      DigitsValueOfNatToString(i);
      assert s[0] != '-';
      assert ParseUnsigned(s) == Some(i);
    }
  }

  /** The values of Rust's `i32`. */
  predicate IsI32(v: int) {
    -0x8000_0000 <= v < 0x8000_0000
  }

  /** `s.parse::<i32>()`: a signed number outside the `i32` range is an error. */
  function ParseI32(s: string): (r: Option<int>)
    ensures r.Some? <==> ParseSigned(s).Some? && IsI32(ParseSigned(s).value)
    ensures r.Some? ==> r.value == ParseSigned(s).value
  {
    match ParseSigned(s)
    case Some(v) => if IsI32(v) then Some(v) else None
    case None => None
  }

  /** The text of a number parses as an `i32` exactly when the number is one, and then as
      itself. */
  lemma ParseI32RoundTrip(i: int)
    ensures ParseI32(IntToString(i)) == if IsI32(i) then Some(i) else None
  {
    ParseSignedRoundTrip(i);
  }
}

=== FILE: wrappers.dfy ===
/** The optional value used throughout the model. `None` stands for the input on which the
    Rust code panics (an `unwrap` of a failed parse, an `unreachable!()` arm). */
module Wrappers {

  datatype Option<+T> = None | Some(value: T)
}
